=== FILE: README.md ===
# Kitchen display system: a Dafny model

The system is a restaurant kitchen display. A Python websocket server reads
kitchen order tickets (KOTs) from a SQL Server database through stored
procedures. It groups the returned item rows into tickets, caches them per
display station and pushes them to browser screens. The screens turn clicks
into commands; the server commits each command's store calls and then
refreshes and re-broadcasts.

There are four kinds of screen:

- the main kitchen display (`KDS_WS/KDS.js`) and its older copy (`kds_ws/KDS.js`);
- the delivery screen (`KDS_WS/KDS_DEL.js`, rendered the same way by `kds_ws/KDS_DEL.js`);
- the customer display (`KDS_WS/CDS.js`).

An older single-station server (`KDS_WS/Test/test.py`) is modelled beside
the current one.

The model is organised by module:

- **Records.** The rows, tickets, items, summary lines and store calls. The
  database is a `Store`: one query function per stored procedure and station,
  where `None` means the connection or the call failed.
- **Grouping.** The grouping every fetch performs, as a specification: one
  group per distinct key, in order of first appearance. The header comes from
  the first row with that key, and the items from all of its rows in row order.
- **Fetch.** The three fetch loops, `fetch_tickets`, `fetch_kds_del_tickets`
  and `fetch_delivered_tickets`. Each is a method that builds a dictionary
  keyed by KOT number and is proved equal to the grouping specification.
  Lemmas state what that means for the rows.
- **Filtering.** The list filter used by the server and the screens, as a
  specification: the ascending positions of the kept elements, and the filter
  whose element `k` is the element at the `k`-th kept position. Each concrete
  filter (the ready items, the acknowledged codes, the checked item positions
  and the older screen's filtered items) is proved to select by these
  positions, so order and repeated items are part of its contract.
- **TicketStatus.** The three-way ticket status computed from the items'
  ready flags.
- **Commands.**
  - The store calls each client command commits: `update_item_status`,
    `ack_ticket`, `update_kds_del_ticket` and `recall_item`.
  - The print-on-toggle selection.
- **Server.** A class holding the server's globals: the client sets, the
  socket-to-station map and the caches. It has the refreshes, the two
  broadcasts, the connect, message and cleanup steps of both websocket
  handlers, and the change listener's refresh.
  - A send to a socket in the `broken` set fails.
  - The calls a command commits are returned as a list.
- **LegacyServer.** The older server and its periodic broadcast. Its fetch is
  proved to give the same KOTs in the same order as the current server's, with
  as many items each. The headers differ (the older label for status index 0
  is "Preparing", the current one "Pending"), and the older items carry no
  `ack_status`.
- **Sorting.** An insertion sort by an integer key. It stands for the
  screens' `Array.prototype.sort` with a numeric comparator.
- **StatusMemory.** The per-KOT "last status seen" map kept by the delivery
  and customer screens.
- **KdsView, LegacyKdsView, DelView, CdsView.** The screens: their state as
  class fields, each event handler as a method, and what a render shows as
  functions with lemmas.

### Behaviour of the code worth knowing

- **Main-display commands broadcast stale data.** After `toggle_item`,
  `cancel_ticket` or `ack_ticket`, the main handler starts the station refresh
  on a background thread and broadcasts the cache as it was, so the broadcast
  does not reflect the command (`KDS_WS/server.py:366-379`).
  `Server.KdsServer.HandleMain` returns the queued refresh instead of applying
  it.
- **`recall_item` does not refresh the station caches it broadcasts.** It
  refreshes the single-station globals for "NONE" and broadcasts every main
  display from `cached_kds_main` without refreshing it (`KDS_WS/server.py:528-532`).
- **A malformed frame ends the connection.** It raises outside the handler's
  inner `try`, so the connection closes instead of the action being ignored.
- **Negative status indexes are accepted.** An `order_status` of -1, -2 or -3
  selects a label from the end of the list, as Python indexing does. Any other
  out-of-range or NULL value raises, and the whole fetch returns an empty list.
- **A bad status empties a delivery fetch even on a skipped row.** In the
  delivery fetches, the status label is looked up before rows with a missing
  KOT or bill are skipped.
- **Delivered tickets carry no derived status.** They keep `ticketstatus` 0
  and have no `cashier` field, so the status is not derived for them.
- **A missing item code becomes "None" in delivery tickets.** The delivery
  fetch renders it with `str`; the main fetch renders a missing code as "".
- **The older KDS screen's card clicks commit nothing.** In either view, a
  click on a card acknowledges the whole ticket locally and sends `ack_ticket`
  without `items` (`kds_ws/KDS.js:159-172`). The screen opens port 9998
  (`kds_ws/KDS.js:26`), the delivery handler, which has no `ack_ticket` branch
  (`KDS_WS/server.py:501-541`), so the message is ignored there. The main
  handler on port 9999 would commit nothing for it either, since there are no
  items to acknowledge. The tickets this screen receives on port 9998 are
  delivery tickets, whose items carry no `ack_status`
  (`KDS_WS/server.py:439-445`). A ticket therefore enters the model with every
  item's `ack` other than 1, so before a click a card is drawn accepted only
  when its ticket has no items (`kds_ws/KDS.js:114`).

## Model

| member | source | states |
|---|---|---|
| Filtering.Positions | KDS_WS/KDS.js:306-310 | the positions are ascending, each holds a kept element, and every kept element's position is among them |
| Filtering.Filter | KDS_WS/server.py:560 | element `k` of the filter is the element at the `k`-th kept position, and an element occurs in it iff it occurs in the input and is kept |
| TicketStatus.ReadyItems | KDS_WS/server.py:560 | the print filter's result has the ready count as its length, holds only ready items of the ticket and holds every ready item |
| TicketStatus.ReadyItemsInOrder | KDS_WS/server.py:560 | the print filter is the list filter by readiness: item `k` of the result is the item at the `k`-th ready position, so the ready items come in ticket order and with repeats |
| TicketStatus.ReadyCountAll | KDS_WS/server.py:447-450 | the ready count equals the item count iff every item is ready |
| TicketStatus.ReadyCountSome | KDS_WS/server.py:447-453 | the ready count is positive iff some item is ready |
| TicketStatus.CountedStatusIsStatus | KDS_WS/server.py:447-455 | the server's count rule (2 when all of at least one item are ready, 1 when some are, else 0) agrees with the item-based status on every item list |
| TicketStatus.StatusByCount | KDS_WS/server.py:447-455 | status 0 iff no item is ready, 1 iff some but not all are, 2 iff all of at least one are |
| Grouping.Keys | KDS_WS/server.py:207-228 | the grouping's keys are pairwise distinct and are exactly the keys that occur among the rows |
| Grouping.Snoc | KDS_WS/server.py:207-226 | folding in one more row: a new key is appended to the key order, the row's item is appended to its key's items, and existing headers are kept, while a new key takes the row's header |
| Grouping.KeysPrefix | KDS_WS/server.py:207-228 | the keys of a prefix of the rows are a prefix of the keys of all rows (first-appearance order) |
| Grouping.FirstOccurrence | KDS_WS/server.py:207 | an occurring key has a first row carrying it |
| Grouping.HeaderIsFirst | KDS_WS/server.py:207-218 | a group's header is the header of the first row with its key |
| Grouping.ItemsOfNonEmpty | KDS_WS/server.py:207-226 | every group has at least one item |
| Grouping.EveryEntryIsOneItem | KDS_WS/server.py:220-226 | the item counts of all groups add up to the number of rows |
| Grouping.NoItemsUnlessOccurs | KDS_WS/server.py:220-226 | a key no row carries has no items |
| Grouping.GroupsSnocOld | KDS_WS/server.py:220-226 | a row with a known key only appends its item to that key's dictionary value |
| Grouping.GroupsSnocNew | KDS_WS/server.py:207-218 | a row with a new key adds that key with the row's header and its one item |
| Grouping.FoldKey | KDS_WS/server.py:207-226 | the key is in the dictionary iff it occurred before; what the key's header and items are before and after the row |
| Grouping.FoldAt | KDS_WS/server.py:207-226 | storing the key's new value gives the dictionary of the longer row sequence |
| Grouping.InOrder | KDS_WS/server.py:228 | `list(tickets.values())`: one value per key, in key order |
| Grouping.GroupedAt | KDS_WS/server.py:228 | group `j` of the result is built from the header and items of the `j`-th distinct key |
| Grouping.ItemInItemsOf | KDS_WS/server.py:220-226 | every row's item is among the items of its own key |
| Fetch.AddMainRow | KDS_WS/server.py:193-226 | one pass of the fetch loop keeps the dictionary and its key order equal to the grouping of the rows seen so far |
| Fetch.FetchTickets | KDS_WS/server.py:185-231 | the fetch returns the grouping of the rows; a failed query or any row with an unusable status gives [] |
| Fetch.HeaderKot | KDS_WS/server.py:207-209 | a ticket's `kot_no` is the key it is grouped under |
| Fetch.KotsAreKeys | KDS_WS/server.py:207-228 | the fetched KOTs, in order, are the distinct KOTs of the rows in order of first appearance |
| Fetch.OneTicketPerKot | KDS_WS/server.py:207-228 | the fetched KOTs are pairwise distinct, and a KOT is fetched iff some row carries it |
| Fetch.FirstAppearanceOrder | KDS_WS/server.py:207-228 | the tickets fetched from a prefix of the rows are a prefix (by KOT) of those fetched from all rows |
| Fetch.HeaderFromFirstRow | KDS_WS/server.py:207-218 | a ticket's fields come from the first row of its KOT, and it is cancelled iff that row's Cancel_Type is 1 |
| Fetch.EveryRowIsOneItem | KDS_WS/server.py:220-226 | the item count over all tickets equals the row count |
| Fetch.RowItemInItsTicket | KDS_WS/server.py:220-226 | every row's item lands in the ticket of its own KOT |
| Fetch.DelEntriesSnoc | KDS_WS/server.py:418-423 | a row with a NULL KOT or bill contributes nothing; any other row contributes its entry |
| Fetch.AddDelRow | KDS_WS/server.py:399-455 | one pass of the delivery fetch loop keeps the dictionary equal to the grouping of the kept rows so far, with the status recomputed from the items |
| Fetch.FetchKdsDelTickets | KDS_WS/server.py:391-462 | the delivery fetch returns the grouping of the kept rows; a failed query or any row with an unusable status gives [] |
| Fetch.AddDeliveredRow | KDS_WS/server.py:608-651 | one pass of the delivered fetch loop keeps the dictionary equal to the grouping of the kept rows so far |
| Fetch.FetchDeliveredTickets | KDS_WS/server.py:601-656 | the delivered fetch returns the grouping of the kept rows; a failed query or any unusable status gives [] |
| Fetch.KeptKotSnoc | KDS_WS/server.py:421-423 | a KOT is carried by a kept row of a longer prefix iff it was carried before or the new row is kept and carries it |
| Fetch.DelEntriesKeys | KDS_WS/server.py:421-437 | a key occurs iff a kept row carries that KOT; each entry's header carries its key as KOT, and a cashier iff it is from the delivery fetch |
| Fetch.DelKotsAreKeptRows | KDS_WS/server.py:421-458 | delivery tickets have pairwise distinct KOTs, and a KOT appears iff a kept row carries it |
| Fetch.GroupKotsAreKeys | KDS_WS/server.py:425-427 | when each entry's header carries its key, ticket `j` carries the `j`-th distinct key |
| Fetch.DeliveredHeaders | KDS_WS/server.py:632-643 | every delivered ticket has ticketstatus 0 and no cashier |
| Fetch.DelStatusReflectsAllItems | KDS_WS/server.py:447-455 | the status sent with each delivery ticket is the status of all its items: 0 none ready, 1 some, 2 all |
| Commands.UpdateItemStatus | KDS_WS/server.py:287-301 | a cancel marks the KOT cancelled; otherwise one acceptance when KOT, bill and code are all present, and nothing when one is missing |
| Commands.Codes | KDS_WS/server.py:313-316 | the codes acknowledged are non-empty and no more than the items |
| Commands.CodesInOrder | KDS_WS/server.py:313-317 | code `k` is the code of the item at the `k`-th coded position: one code per coded item, in item order, so two items with the same code give two acceptances |
| Commands.AcceptAll | KDS_WS/server.py:313-317 | one USP_Accept_kds call per code, in order, each for the command's KOT and bill |
| Commands.AckTicket | KDS_WS/server.py:304-324 | no call for a missing or empty items list; otherwise one acceptance per coded item |
| Commands.CodesAreTheCodedItems | KDS_WS/server.py:313-317 | a code is acknowledged iff some item of the command carries it |
| Commands.NoCodesNoCalls | KDS_WS/server.py:313-316 | items without codes produce no acceptance |
| Commands.UpdateAll | KDS_WS/server.py:469-471 | one USP_UPDATE_KDS_DEL call per item, in order, with the command's KOT and bill |
| Commands.UpdateKdsDelTicket | KDS_WS/server.py:465-475 | nothing is committed when the items list is missing or an item has no `i_code`; otherwise one update per item |
| Commands.RecallItem | KDS_WS/server.py:658-667 | exactly one recall call with the arguments as given |
| Commands.Digits | KDS_WS/server.py:557 | the decimal rendering of a number is non-empty and all digits |
| Commands.IntTextIsNotNone | KDS_WS/server.py:557-559 | no KOT number renders as "None", so a toggle without a KOT prints nothing |
| Commands.FirstIndex | KDS_WS/server.py:558-567 | the index found is the first one holding the value; none is found only when no index holds it |
| Commands.FirstWithKot | KDS_WS/server.py:558-567 | the ticket found is the first whose KOT renders as the requested text; none only when no ticket's does |
| Commands.PrintOnToggle | KDS_WS/server.py:555-568 | the print loop stops at the first matching ticket and yields its ready items, as `PrintJobOf` defines |
| Commands.FirstIs | KDS_WS/server.py:558-567 | a matching ticket with no earlier match is the one found |
| Commands.NoneMatch | KDS_WS/server.py:558-567 | with no matching ticket nothing is found |
| Commands.PrintOnlyReady | KDS_WS/server.py:555-564 | a print job is the first cached ticket whose KOT text matches, cut to its ready items (only and all of them) with its other fields unchanged; when a ticket matches but nothing is printed, it has no ready item |
| Server.FoodSummary | KDS_WS/server.py:234-245 | the summary is the query's rows, or [] when the query fails |
| Server.KdsServer.constructor | KDS_WS/server.py:31-45 | the server starts with no clients, no station map and empty caches |
| Server.KdsServer.MainPayload | KDS_WS/server.py:336 | a socket whose station has no cache entry is sent empty tickets and summary |
| Server.KdsServer.RefreshMainKdsCache | KDS_WS/server.py:248-255 | the station's cache entry is replaced by freshly fetched tickets and summary; nothing else changes |
| Server.KdsServer.SafeRefreshCache | KDS_WS/server.py:261-270 | the single-station globals hold the station's fresh tickets and summary; nothing else changes |
| Server.KdsServer.RefreshKdsCache | KDS_WS/server.py:272-284 | the station's delivery cache entry is replaced by a fresh delivery fetch; nothing else changes |
| Server.KdsServer.BroadcastMainKds | KDS_WS/server.py:329-339 | exactly the working sockets of the addressed station (all stations for None) are sent their station's entry; failing addressed sockets are removed and nothing else changes |
| Server.KdsServer.ServeMainSocket | KDS_WS/server.py:332-339 | one socket of the main broadcast keeps the sent map and the client set in step with the sockets served so far |
| Server.KdsServer.BroadcastKdsDelTickets | KDS_WS/server.py:478-486 | every working delivery socket is sent its station's tickets (or []); stations without an entry are queued for a refresh; failing sockets are removed |
| Server.KdsServer.ServeDelSocket | KDS_WS/server.py:480-486 | one socket of the delivery broadcast keeps the sent map, the queued stations and the client set in step with the sockets served so far |
| Server.KdsServer.MainConnect | KDS_WS/server.py:344-351 | a new main socket joins the clients and is sent the "NONE" station's entry or an empty one; a failed send leaves the clients unchanged |
| Server.KdsServer.MainDisconnect | KDS_WS/server.py:386-388 | the socket leaves the clients and the station map; nothing else changes |
| Server.KdsServer.HandleMain | KDS_WS/server.py:353-379 | `init_kds` maps, refreshes and broadcasts the station; the three commands commit their calls, queue a refresh and broadcast the stale cache; in both cases exactly the addressed sockets whose send fails leave `clients`; other actions change nothing; a malformed frame ends the connection; the single-station globals and the delivery cache never change |
| Server.KdsServer.DelConnect | KDS_WS/server.py:490-496 | a new delivery socket joins, is mapped to "NONE" and is sent that station's tickets or []; a failed send removes it |
| Server.KdsServer.DelDisconnect | KDS_WS/server.py:596-598 | the socket leaves the delivery clients and the station map |
| Server.KdsServer.HandleDel | KDS_WS/server.py:498-592 | each delivery action's calls, cache changes, print job, broadcasts (with their payloads), queued stations and reply; the full new client sets and station map in every case, the failing broadcast sockets dropped and the sender dropped when its reply fails; caches an action does not refresh stay unchanged; other actions change nothing, and a malformed frame ends the connection |
| Server.KdsServer.InitDelStation | KDS_WS/server.py:504-512 | the socket is mapped to the station, the globals and the station's delivery tickets are refreshed, and the tickets are the reply |
| Server.KdsServer.InitRecallStation | KDS_WS/server.py:515-521 | the socket is mapped to the station and is sent its delivered tickets; no cache changes |
| Server.KdsServer.RecallFromDel | KDS_WS/server.py:524-538 | one recall is committed, the globals are refreshed for "NONE", every working main socket is sent its unrefreshed entry, and the sender's delivered tickets are the reply |
| Server.KdsServer.ToggleFromDel | KDS_WS/server.py:541-592 | the delivery updates are committed, the sender's station is refreshed, the print job is chosen from it, and every working delivery socket is sent its station's tickets |
| Server.KdsServer.ListenerReceive | KDS_WS/server.py:694-707 | on the change message, every cached station of both caches and the "NONE" globals are refreshed and no station is added; on any other message nothing changes |
| LegacyServer.SameStatusIndexes | KDS_WS/Test/test.py:45-46 | the older server rejects exactly the status values the current one rejects |
| LegacyServer.AddLegacyRow | KDS_WS/Test/test.py:34-66 | one pass of the older fetch loop keeps the dictionary equal to the grouping of the rows so far |
| LegacyServer.LegacyFetchTickets | KDS_WS/Test/test.py:26-73 | the older fetch returns the grouping of its rows |
| LegacyServer.SameKeysSameGroups | KDS_WS/Test/test.py:48-66 | groupings of rows with the same keys have the same keys and the same item counts |
| LegacyServer.HeaderKotIsKey | KDS_WS/Test/test.py:48-50 | a group's header carries its key as KOT |
| LegacyServer.SameKeys | KDS_WS/Test/test.py:48-66 | both servers group the same rows under the same distinct KOTs with the same item counts |
| LegacyServer.SameTicketAt | KDS_WS/Test/test.py:48-69 | ticket `j` of the older server has the KOT and item count of ticket `j` of the current one |
| LegacyServer.LegacyGroupsLikeCurrent | KDS_WS/Test/test.py:26-73 | for every query result, both servers return the same number of tickets with the same KOTs and item counts, position by position |
| LegacyServer.LegacyUpdateItemStatus | KDS_WS/Test/test.py:77-94 | the same guard as the current server, with USP_Update_KDS |
| LegacyServer.SummaryUpdates | KDS_WS/Test/test.py:152-153 | the summary toggle's updates are all for the given code, each with a present KOT and bill |
| LegacyServer.ToggleSummary | KDS_WS/Test/test.py:142-156 | no update without a code or when the KOT query fails; otherwise the updates over the queried pairs |
| LegacyServer.SummaryUpdatesEveryKot | KDS_WS/Test/test.py:148-153 | every queried KOT with both keys present is updated for the code |
| LegacyServer.Fetched | KDS_WS/Test/test.py:111 | tick `n` holds the result of fetch `n` |
| LegacyServer.LastSentIsLastFetch | KDS_WS/Test/test.py:109-119 | after any tick `last_data` holds that tick's fetch, sent or not; before the first tick it is None |
| LegacyServer.TickSend | KDS_WS/Test/test.py:111-119 | a tick sends iff it is the first or its fetch differs from the previous one, and it sends that fetch |
| LegacyServer.TickSends | KDS_WS/Test/test.py:110-120 | one decision per tick |
| LegacyServer.TickSendsAt | KDS_WS/Test/test.py:110-120 | entry `m` of the sends is tick `m`'s decision |
| LegacyServer.TickStep | KDS_WS/Test/test.py:111-119 | comparing with `last_data` is comparing with the previous tick's fetch |
| LegacyServer.LegacyKdsServer.constructor | KDS_WS/Test/test.py:22 | the older server starts with no clients |
| LegacyServer.LegacyKdsServer.BroadcastTickets | KDS_WS/Test/test.py:98-104 | one freshly fetched payload goes to every working client; failing clients are removed |
| LegacyServer.LegacyKdsServer.SendAll | KDS_WS/Test/test.py:100-104 | exactly the working clients are sent to; failing ones are removed |
| LegacyServer.LegacyKdsServer.Tick | KDS_WS/Test/test.py:111-120 | one tick sends as `TickSend` decides and leaves `last_data` holding its fetch |
| LegacyServer.LegacyKdsServer.PeriodicBroadcast | KDS_WS/Test/test.py:108-120 | tick `n` sends exactly when its fetch differs from the previous tick's, and sends that fetch |
| LegacyServer.LegacyKdsServer.Connect | KDS_WS/Test/test.py:125-128 | a connecting client joins and is sent a fresh fetch; a failed send leaves it out |
| LegacyServer.LegacyKdsServer.Disconnect | KDS_WS/Test/test.py:165-166 | the client leaves the set |
| LegacyServer.LegacyKdsServer.HandleMessage | KDS_WS/Test/test.py:130-161 | each action's store calls, then a broadcast of the fresh fetch to every working client; a malformed frame ends the connection without a broadcast |
| Sorting.Insert | KDS_WS/KDS_DEL.js:93 | insertion keeps the length and adds exactly the new element |
| Sorting.InsertSorted | KDS_WS/KDS_DEL.js:93 | inserting into a sorted list keeps it sorted |
| Sorting.SortBy | KDS_WS/KDS_DEL.js:93 | the result is sorted by the key and is a permutation of the input |
| Sorting.SortKeepsElements | KDS_WS/CDS.js:84 | a sorted list holds exactly the elements of the input |
| StatusMemory.RememberedKeys | KDS_WS/KDS_DEL.js:114 | the memory has an entry exactly for the KOTs it had before and the KOTs visited |
| StatusMemory.RememberedElsewhere | KDS_WS/CDS.js:77 | the entry of a KOT not visited is unchanged |
| StatusMemory.RememberedLast | KDS_WS/KDS_DEL.js:114 | a visited KOT holds the status of the last ticket visited with it |
| DelView.ClientStatus | KDS_WS/KDS_DEL.js:101-108 | the screen's status is 0, 1 or 2 |
| DelView.ClientStatusIsStatus | KDS_WS/KDS_DEL.js:101-108 | the screen's status is 2 iff there is an item and all are ready, and 0 iff none is |
| DelView.ClientAgreesWithServer | KDS_WS/KDS_DEL.js:101-108 | for every ticket the server fetches for a delivery screen, the screen derives the `ticketstatus` the server sent |
| DelView.RememberedDrawn | KDS_WS/KDS_DEL.js:114 | after a render a drawn KOT remembers the status of its items |
| DelView.CardsDrawTickets | KDS_WS/KDS_DEL.js:97-138 | card `i` draws ticket `i` with the status its items give it |
| DelView.RequestItems | KDS_WS/KDS_DEL.js:161 | the click sends every item of the ticket, keyed by its code |
| DelView.ClickMessage | KDS_WS/KDS_DEL.js:147-168 | nothing is sent iff every item is unready and none is labelled Ready; otherwise a toggle for the ticket's KOT and bill that prints, listing every item's code in order and carrying the KOT's decimal text for the print match |
| DelView.ClickUpdatesEveryItem | KDS_WS/KDS_DEL.js:147-167 | a click on a partial or ready ticket makes the server commit one delivery update per item of the ticket |
| DelView.DelScreen.constructor | KDS_WS/KDS_DEL.js:2 | the screen starts with no remembered statuses |
| DelView.DelScreen.Render | KDS_WS/KDS_DEL.js:92-95 | the count is the number of received tickets, and the cards are drawn in KOT order |
| DelView.DelScreen.Draw | KDS_WS/KDS_DEL.js:97-171 | the render loop draws each ticket with its status and remembers that status under its KOT |
| DelView.DelScreen.DrawTicket | KDS_WS/KDS_DEL.js:98-114 | one pass of the render loop extends the cards and the memory by one ticket |
| DelView.DelScreen.Receive | KDS_WS/KDS_DEL.js:175-179 | a message with a ticket list is rendered, even an empty one; any other message changes nothing |
| DelView.RenderOrder | KDS_WS/KDS_DEL.js:92-114 | a render shows every received ticket once, in ascending KOT order, each with its items' status |
| CdsView.Chimes | KDS_WS/CDS.js:63-78 | one chime decision per received ticket |
| CdsView.ReadyTickets | KDS_WS/CDS.js:81-83 | exactly the partially ready and ready tickets are kept |
| CdsView.ReadyTicketsInOrder | KDS_WS/CDS.js:81-83 | the display's filter is the list filter by sent status: ticket `k` is the ticket at the `k`-th position with status 1 or 2, in the order received and with repeats |
| CdsView.DisplayedTickets | KDS_WS/CDS.js:81-98 | the display shows exactly the partially ready and ready tickets, each as often as it was received (the same multiset as the filter), largest KOT first, and the watermark is up iff there are none |
| CdsView.ChimeAgainstPrevious | KDS_WS/CDS.js:64-74 | with distinct KOTs, a ticket chimes iff its KOT was unseen or seen with status 0 and it is now 1 or 2 |
| CdsView.ChimeAt | KDS_WS/CDS.js:63-78 | each ticket's decision is taken against the memory left by the tickets before it |
| CdsView.CdsScreen.constructor | KDS_WS/CDS.js:6 | the display starts with no remembered status |
| CdsView.CdsScreen.Receive | KDS_WS/CDS.js:49-99 | a frame without a ticket array changes nothing; otherwise chimes, memory and display as specified |
| CdsView.CdsScreen.Track | KDS_WS/CDS.js:63-78 | the status loop yields the chime decisions and leaves the memory updated with every ticket |
| KdsView.StationTickets | KDS_WS/KDS.js:184-186 | no more tickets are kept than were received |
| KdsView.StationTicketsInOrder | KDS_WS/KDS.js:184-186 | the station filter is the list filter: kept ticket `k` is the ticket of the `k`-th entry for this station or for none, in the order received and with repeats |
| KdsView.StationTicketsExactly | KDS_WS/KDS.js:184-186 | a ticket is kept iff it came for this station or for none |
| KdsView.StationKeepsServerTickets | KDS_WS/KDS.js:184-186 | the server's tickets carry no station name, so every screen keeps all of them |
| KdsView.KotsOf | KDS_WS/KDS.js:203 | the KOT set holds exactly the KOTs of the message |
| KdsView.KeptIndexes | KDS_WS/KDS.js:306-310 | the kept item positions are the list filter's positions: ascending, and exactly the items whose state is checked |
| KdsView.ShownCount | KDS_WS/KDS.js:299-312 | the KOT count never exceeds the ticket count |
| KdsView.RenderCards | KDS_WS/KDS.js:299-321 | the render loop yields the cards and the count of shown tickets |
| KdsView.CardsForShownTicket | KDS_WS/KDS.js:301-321 | one ticket's cards: the whole ticket in KOT view, one kept item each in ITEM view |
| KdsView.CardsAreShownTickets | KDS_WS/KDS.js:301-321 | every card belongs to a shown ticket; in ITEM view it carries exactly one kept item of it |
| KdsView.CardsForCoverItems | KDS_WS/KDS.js:315-321 | in ITEM view each kept item of a shown ticket has its own card |
| KdsView.ItemCardsCoverKeptItems | KDS_WS/KDS.js:301-321 | in ITEM view, every kept item of a ticket whose order type is checked is on a card |
| KdsView.KotCardsCoverShownTickets | KDS_WS/KDS.js:301-321 | in KOT view every shown ticket has a card |
| KdsView.CountCountsTickets | KDS_WS/KDS.js:312-321 | the count counts tickets: it equals the cards in KOT view and is at most the cards in ITEM view |
| KdsView.CardAcceptance | KDS_WS/KDS.js:330-331 | an ITEM card is accepted iff its item is acknowledged; a KOT card iff every item of the ticket is |
| KdsView.FirstTicket | KDS_WS/KDS.js:490 | the ticket found is the first whose KOT renders as the text, and none only if no ticket's does |
| KdsView.FirstItem | KDS_WS/KDS.js:496 | the item found is the first with the code, and none only if no item has it |
| KdsView.ToggleTarget | KDS_WS/KDS.js:490-500 | a toggle target is a valid ticket and item position |
| KdsView.ToggleFlipsOneItem | KDS_WS/KDS.js:503 | a toggle flips the acknowledgement of exactly its target item and changes nothing else |
| KdsView.ToggleTargetFound | KDS_WS/KDS.js:490-500 | there is a target iff the first matching ticket has an item with the code, and the target is the first such item |
| KdsView.ToggleTwice | KDS_WS/KDS.js:503 | toggling twice restores the tickets when the flag was 0 or 1 |
| KdsView.AckItems | KDS_WS/KDS.js:424 | the ack request carries one `i_code` entry per code, in order |
| KdsView.AckAcceptsSentCodes | KDS_WS/server.py:313-317 | the server accepts exactly the non-empty codes a card click sends |
| KdsView.AllAcked | KDS_WS/KDS.js:417 | every item is acknowledged and nothing else changes |
| KdsView.ItemCodes | KDS_WS/KDS.js:424 | the codes of a ticket's items, one per item, in order |
| KdsView.TimeClicks | KDS_WS/KDS.js:232-238 | a time click always sorts by time, starts descending after table sort, and flips the direction when already sorting by time |
| KdsView.KdsScreen.constructor | KDS_WS/KDS.js:4-16 | the screen starts with the stored station or "", the checkbox states, descending time sort and ITEM view |
| KdsView.KdsScreen.Open | KDS_WS/KDS.js:172-175 | on connect the station is the stored name, or "NONE" when it is missing or empty |
| KdsView.KdsScreen.Receive | KDS_WS/KDS.js:182-207 | the station's tickets are kept; the chime plays iff a kept KOT is new; the KOT set is replaced |
| KdsView.KdsScreen.Render | KDS_WS/KDS.js:278-484 | a render yields the cards and the count of shown tickets, over the tickets in the order received |
| KdsView.KdsScreen.SetFilter | KDS_WS/KDS.js:224-229 | only the changed checkbox changes |
| KdsView.KdsScreen.ClickSortTime | KDS_WS/KDS.js:232-245 | the sort state moves as `TimeClicked` says |
| KdsView.KdsScreen.ClickSortTable | KDS_WS/KDS.js:247-252 | table sort, with the direction kept |
| KdsView.KdsScreen.ClickView | KDS_WS/KDS.js:261-275 | the view switches between KOT and ITEM |
| KdsView.KdsScreen.ToggleItem | KDS_WS/KDS.js:487-508 | the target item's acknowledgement is flipped locally, and `toggle_item` is sent on every path |
| KdsView.KdsScreen.AckItemCard | KDS_WS/KDS.js:384-409 | the card's item is acknowledged, and `ack_ticket` is sent with that item's code only |
| KdsView.KdsScreen.AckTicketCard | KDS_WS/KDS.js:412-435 | every item of the ticket is acknowledged, and `ack_ticket` is sent with all their codes |
| KdsView.AckedTicketIsAccepted | KDS_WS/KDS.js:412-428 | after a KOT-view click, the clicked ticket's card is drawn accepted |
| LegacyKdsView.FilteredItems | kds_ws/KDS.js:100 | the filtered items are exactly the ticket's items whose status label is checked |
| LegacyKdsView.FilteredItemsInOrder | kds_ws/KDS.js:100 | the filter is the list filter by the checkboxes: item `k` is the item at the `k`-th passing position, so a KOT card lists the passing items in ticket order and with repeats |
| LegacyKdsView.RenderCards | kds_ws/KDS.js:99-107 | the render loop yields the cards of every ticket in order |
| LegacyKdsView.CardsForTicket | kds_ws/KDS.js:99-118 | one ticket's cards: all filtered items in KOT view, one each in ITEM view, none when nothing passes |
| LegacyKdsView.CardsListFilteredItems | kds_ws/KDS.js:99-118 | every card lists at least one filtered item of its own ticket; in KOT view exactly the filtered items |
| LegacyKdsView.CardsCoverFilteredItems | kds_ws/KDS.js:99-118 | every item that passes the filter is on a card of its ticket |
| LegacyKdsView.AckClickMessage | kds_ws/KDS.js:165-171 | the click sends `ack_ticket` for the ticket's KOT without an item list |
| LegacyKdsView.LegacyKdsScreen.constructor | kds_ws/KDS.js:3-7 | the screen starts with all filters checked, time sort and KOT view |
| LegacyKdsView.LegacyKdsScreen.Receive | kds_ws/KDS.js:29-55 | every ticket is kept; the chime plays iff a KOT is new |
| LegacyKdsView.LegacyKdsScreen.Render | kds_ws/KDS.js:90-196 | a render yields the cards of the kept tickets, in the order received |
| LegacyKdsView.LegacyKdsScreen.SetFilter | kds_ws/KDS.js:58-63 | only the changed checkbox changes |
| LegacyKdsView.LegacyKdsScreen.ChooseSort | kds_ws/KDS.js:66-73 | the sort key is set |
| LegacyKdsView.LegacyKdsScreen.ChooseView | kds_ws/KDS.js:76-87 | the view is set |
| LegacyKdsView.LegacyKdsScreen.ClickCard | kds_ws/KDS.js:159-171 | the whole ticket is acknowledged locally, whatever the card lists and in either view, and an ack without items is sent to the delivery handler, which ignores it |
| LegacyKdsView.ClickedTicketAccepted | kds_ws/KDS.js:162 | after a click the clicked ticket is drawn accepted |

## Left out

- Database I/O, `pyodbc` connections and the SQL text are left out. Each
  stored procedure is a query function of the `Store`, and mutations are the
  returned `StoreCall` list.
- Threads and the asyncio event loop are left out, and so is the
  interleaving of a background refresh with other messages. A queued refresh
  is returned, not run, and clients that join between periodic ticks are not
  modelled.
- JSON encoding and decoding are left out; messages arrive as decoded
  datatypes, and an undecodable frame is a `Malformed` case.
- The static HTTP server is left out.
- The screens' clock, timers, colours, popups, sound playback, the login and
  configuration modal, and DOM building are left out. A chime is a boolean.
- The food-summary HTML and the "toggle summary" button of the older screen
  are left out. The older server's `toggle_summary` command is modelled.
- JavaScript's Date-based time sort and the numeric table sort (with `NaN`
  for missing values) are left out. The two kitchen screens' `Render` methods
  draw the tickets in the order received. Every render property is stated for
  tickets in any order, so it holds for whatever order the sort gives.
- JavaScript object aliasing is not modelled as shared objects. An ITEM-view
  card's item is the same object as the ticket's item, so a click changes the
  screen's own ticket; the model updates the screen's ticket list directly.
- The older screen's `toggleItem` only sends a message and is not a separate
  member.
- `send_print` and the printer are left out; the model yields the print job.
- `KDS_Recall.js`, `config.py` and `print.py` are not part of this model.
- The change listener's reconnect loop and its `END CONVERSATION`
  acknowledgement are left out. `Server.KdsServer.ListenerReceive` models one
  received message.

=== FILE: cds_view.dfy ===
/**
 * The customer display (CDS.js): it listens to the delivery broadcast, keeps
 * the last status it saw per KOT, chimes when a ticket becomes ready (or
 * partially ready) for the first time, and shows the KOT numbers of the ready
 * tickets, largest first, or a watermark when there are none.
 */
module CdsView {
  import opened Optional
  import opened Records
  import opened Sorting
  import opened StatusMemory
  import opened Filtering

  /** The status the server sent with a ticket (`ticketstatus`). */
  function SentStatus(t: DelTicket): int {
    t.ticketStatus
  }

  /** A status the display shows: partially ready (1) or ready (2). */
  predicate IsShownStatus(status: int) {
    status == 1 || status == 2
  }

  /** A ticket chimes when the display had no status for its KOT, or status
      0, and the ticket is now partially ready or ready. */
  predicate Chime(seen: map<int, int>, t: DelTicket) {
    (t.header.kot !in seen || seen[t.header.kot] == 0) && IsShownStatus(t.ticketStatus)
  }

  /** The chime decision for each ticket of a message, each taken against the
      memory as the loop has updated it so far. */
  function Chimes(seen: map<int, int>, tickets: seq<DelTicket>): (chimes: seq<bool>)
    ensures |chimes| == |tickets|
  {
    if tickets == [] then []
    else
      var n := |tickets| - 1;
      Chimes(seen, tickets[..n]) + [Chime(Remembered(seen, tickets[..n], SentStatus), tickets[n])]
  }

  /** `data.tickets.filter(...)`: the partially ready and ready tickets, in
      the order received. */
  function ReadyTickets(tickets: seq<DelTicket>): (ready: seq<DelTicket>)
    ensures |ready| <= |tickets|
    ensures forall t :: t in ready <==> t in tickets && IsShownStatus(t.ticketStatus)
  {
    if tickets == [] then []
    else
      var n := |tickets| - 1;
      assert tickets == tickets[..n] + [tickets[n]];
      ReadyTickets(tickets[..n]) + (if IsShownStatus(tickets[n].ticketStatus) then [tickets[n]] else [])
  }

  /** A ticket the display shows: its sent status is 1 or 2. */
  predicate ReadyToShow(t: DelTicket) {
    IsShownStatus(t.ticketStatus)
  }

  /** The display's filter is the list filter by sent status: ticket `k` is
      the ticket at the `k`-th position whose status is 1 or 2, in the order
      received and with repeats. */
  lemma {:induction false} ReadyTicketsInOrder(tickets: seq<DelTicket>)
    ensures ReadyTickets(tickets) == Filter(tickets, ReadyToShow)
    ensures var ps := Positions(tickets, ReadyToShow);
      |ReadyTickets(tickets)| == |ps| &&
      forall k :: 0 <= k < |ps| ==> ReadyTickets(tickets)[k] == tickets[ps[k]]
  {
    if tickets != [] {
      ReadyTicketsInOrder(tickets[..|tickets| - 1]);
    }
    assert Selects(Filter(tickets, ReadyToShow), tickets, ReadyToShow);
  }

  /** The sort key of the descending comparator `(b, a) => a.kot_no - b.kot_no`. */
  function DescendingKot(t: DelTicket): int {
    -t.header.kot
  }

  /** The tickets the display shows, in its order. */
  function Displayed(tickets: seq<DelTicket>): seq<DelTicket> {
    SortBy(ReadyTickets(tickets), DescendingKot)
  }

  /** The display shows exactly the partially ready and ready tickets, in
      descending KOT order, and the watermark is up iff none is shown. */
  lemma DisplayedTickets(tickets: seq<DelTicket>)
    ensures forall t :: t in Displayed(tickets) <==> t in tickets && IsShownStatus(t.ticketStatus)
    ensures forall i, j :: 0 <= i < j < |Displayed(tickets)| ==>
      Displayed(tickets)[i].header.kot >= Displayed(tickets)[j].header.kot
    ensures Displayed(tickets) == [] <==> forall t :: t in tickets ==> !IsShownStatus(t.ticketStatus)
    ensures multiset(Displayed(tickets)) == multiset(Filter(tickets, ReadyToShow))
  {
    ReadyTicketsInOrder(tickets);
    var ready := ReadyTickets(tickets);
    var shown := Displayed(tickets);
    SortKeepsElements(ready, DescendingKot);
    assert forall i, j :: 0 <= i < j < |shown| ==> DescendingKot(shown[i]) <= DescendingKot(shown[j]);
    if shown != [] {
      assert shown[0] in shown;
    }
  }

  /** When a message's KOTs are distinct (as the server's are), ticket `i`
      chimes iff the display had seen its KOT at most with status 0 before the
      message and the ticket is now partially ready or ready. */
  lemma ChimeAgainstPrevious(seen: map<int, int>, tickets: seq<DelTicket>, i: nat)
    requires i < |tickets|
    requires forall j :: 0 <= j < i ==> tickets[j].header.kot != tickets[i].header.kot
    ensures Chimes(seen, tickets)[i] <==>
      (tickets[i].header.kot !in seen || seen[tickets[i].header.kot] == 0) && IsShownStatus(tickets[i].ticketStatus)
  {
    ChimeAt(seen, tickets, i);
    var front := tickets[..i];
    var k := tickets[i].header.kot;
    RememberedKeys(seen, front, SentStatus);
    assert forall j :: 0 <= j < i ==> front[j].header.kot != k;
    if k in seen {
      RememberedElsewhere(seen, front, SentStatus, k);
    }
  }

  /** Ticket `i`'s decision is taken against the memory after tickets 0..i-1. */
  lemma {:induction false} ChimeAt(seen: map<int, int>, tickets: seq<DelTicket>, i: nat)
    requires i < |tickets|
    ensures Chimes(seen, tickets)[i] == Chime(Remembered(seen, tickets[..i], SentStatus), tickets[i])
  {
    var n := |tickets| - 1;
    if i < n {
      ChimeAt(seen, tickets[..n], i);
      assert tickets[..n][..i] == tickets[..i];
    }
  }

  /** What a valid message makes the display do. */
  datatype CdsUpdate = CdsUpdate(chimes: seq<bool>, shown: seq<DelTicket>, watermark: bool)

  class CdsScreen {
    /** `shownTickets`: the last status seen per KOT number. */
    var shownTickets: map<int, int>

    constructor ()
      ensures shownTickets == map[]
    {
      shownTickets := map[];
    }

    /** `ws.onmessage`: a frame that is not JSON, or has no `tickets` array,
        changes nothing; otherwise every ticket is checked for a chime and its
        status remembered, then the ready tickets are shown. */
    method Receive(tickets: Option<seq<DelTicket>>) returns (update: Option<CdsUpdate>)
      modifies this
      ensures tickets.None? ==> update.None? && shownTickets == old(shownTickets)
      ensures tickets.Some? ==> (shownTickets == Remembered(old(shownTickets), tickets.value, SentStatus) &&
        update == Some(CdsUpdate(Chimes(old(shownTickets), tickets.value), Displayed(tickets.value),
                                 Displayed(tickets.value) == [])))
    {
      if tickets.None? {
        return None;
      }
      var chimes := Track(tickets.value);
      var shown := Displayed(tickets.value);
      update := Some(CdsUpdate(chimes, shown, shown == []));
    }

    /** The status-transition loop over a message's tickets. */
    method Track(tickets: seq<DelTicket>) returns (chimes: seq<bool>)
      modifies this
      ensures chimes == Chimes(old(shownTickets), tickets)
      ensures shownTickets == Remembered(old(shownTickets), tickets, SentStatus)
    {
      chimes := [];
      var i := 0;
      while i < |tickets|
        invariant 0 <= i <= |tickets|
        invariant chimes == Chimes(old(shownTickets), tickets[..i])
        invariant shownTickets == Remembered(old(shownTickets), tickets[..i], SentStatus)
      {
        var t := tickets[i];
        var prev: Option<int> := if t.header.kot in shownTickets then Some(shownTickets[t.header.kot]) else None;
        var curr := t.ticketStatus;
        var chime := (prev == Some(0) || prev.None?) && (curr == 1 || curr == 2);
        assert tickets[..i + 1][..i] == tickets[..i] && tickets[..i + 1][i] == t;
        shownTickets := shownTickets[t.header.kot := curr];
        chimes := chimes + [chime];
        i := i + 1;
      }
      assert tickets[..i] == tickets;
    }
  }
}

=== FILE: commands.dfy ===
/**
 * The command guards of the server: which store calls a client command turns
 * into. Each command returns the calls it commits, in order; a path that
 * returns early, or whose batch raises before the commit, commits nothing.
 */
module Commands {
  import opened Optional
  import opened Records
  import opened TicketStatus
  import opened Filtering

  // ------------------------------------------------------ update_item_status

  /** `update_item_status`: a cancel marks the KOT cancelled whatever the
      other arguments are (even a missing KOT number is passed on); otherwise
      the item is accepted only when KOT, bill and item code are all present. */
  function UpdateItemStatus(kot: Option<int>, bill: Option<string>, code: Option<string>, cancel: bool): (calls: seq<StoreCall>)
    ensures cancel ==> calls == [CancelKot(kot)]
    ensures !cancel && (kot.None? || bill.None? || code.None?) ==> calls == []
    ensures !cancel && kot.Some? && bill.Some? && code.Some? ==> calls == [AcceptKds(kot, code.value, bill)]
  {
    if cancel then [CancelKot(kot)]
    else if kot.None? || bill.None? || code.None? then []
    else [AcceptKds(kot, code.value, bill)]
  }

  // -------------------------------------------------------------- ack_ticket

  /** An entry of the `items` list of an ack command: its `i_code`, if any. */
  datatype AckItem = AckItem(code: Option<string>)

  /** `if not i_code`: a missing or empty code is skipped. */
  predicate HasCode(item: AckItem) {
    item.code.Some? && item.code.value != ""
  }

  /** The codes of the items that are not skipped, in item order. */
  function Codes(items: seq<AckItem>): (codes: seq<string>)
    ensures |codes| <= |items|
    ensures forall c :: c in codes ==> c != ""
  {
    if items == [] then []
    else
      var n := |items| - 1;
      Codes(items[..n]) + (if HasCode(items[n]) then [items[n].code.value] else [])
  }

  /** The codes are those of the coded items, in item order and with
      repeats: code `k` is the code of the item at the `k`-th coded
      position. */
  lemma {:induction false} CodesInOrder(items: seq<AckItem>)
    ensures var ps := Positions(items, HasCode);
      |Codes(items)| == |ps| && forall k :: 0 <= k < |ps| ==> Codes(items)[k] == items[ps[k]].code.value
  {
    if items != [] {
      var n := |items| - 1;
      CodesInOrder(items[..n]);
      CodesSnoc(items, Codes(items[..n]));
    }
  }

  /** One more item: the codes of the items before it, then its own code
      when it has one. */
  lemma CodesSnoc(items: seq<AckItem>, front: seq<string>)
    requires items != []
    requires var ps := Positions(items[..|items| - 1], HasCode);
      |front| == |ps| && forall k :: 0 <= k < |ps| ==> front[k] == items[..|items| - 1][ps[k]].code.value
    ensures var n := |items| - 1; var ps := Positions(items, HasCode);
      var codes := front + (if HasCode(items[n]) then [items[n].code.value] else []);
      |codes| == |ps| && forall k :: 0 <= k < |ps| ==> codes[k] == items[ps[k]].code.value
  {
    var n := |items| - 1;
    var ps := Positions(items[..n], HasCode);
    assert Positions(items, HasCode) == ps + (if HasCode(items[n]) then [n] else []);
    assert forall k :: 0 <= k < |ps| ==> items[..n][ps[k]] == items[ps[k]];
  }

  /** One acceptance per coded item, all for the command's KOT and bill. */
  function AcceptAll(kot: Option<int>, bill: Option<string>, codes: seq<string>): (calls: seq<StoreCall>)
    ensures |calls| == |codes|
    ensures forall j :: 0 <= j < |codes| ==> calls[j] == AcceptKds(kot, codes[j], bill)
  {
    seq(|codes|, j requires 0 <= j < |codes| => AcceptKds(kot, codes[j], bill))
  }

  /** `ack_ticket`: no call at all when the items list is missing or empty;
      otherwise one acceptance per item with a non-empty code, skipping the
      rest. KOT and bill are passed on unchecked. */
  method AckTicket(kot: Option<int>, bill: Option<string>, items: Option<seq<AckItem>>) returns (calls: seq<StoreCall>)
    ensures items.None? || items.value == [] ==> calls == []
    ensures items.Some? ==> calls == AcceptAll(kot, bill, Codes(items.value))
  {
    if items.None? || items.value == [] {
      return [];
    }
    var its := items.value;
    calls := [];
    var i := 0;
    while i < |its|
      invariant 0 <= i <= |its|
      invariant calls == AcceptAll(kot, bill, Codes(its[..i]))
    {
      assert its[..i + 1][..i] == its[..i];
      var code := its[i].code;
      if code.Some? && code.value != "" {
        calls := calls + [AcceptKds(kot, code.value, bill)];
      }
      i := i + 1;
    }
    assert its[..i] == its;
  }

  /** A code is acknowledged iff some item of the command carries it. */
  lemma {:induction false} CodesAreTheCodedItems(items: seq<AckItem>)
    ensures forall c :: c in Codes(items) <==> exists j :: 0 <= j < |items| && HasCode(items[j]) && items[j].code.value == c
  {
    if items != [] {
      var n := |items| - 1;
      CodesAreTheCodedItems(items[..n]);
      forall c ensures c in Codes(items) <==> exists j :: 0 <= j < |items| && HasCode(items[j]) && items[j].code.value == c {
        if exists j :: 0 <= j < |items| && HasCode(items[j]) && items[j].code.value == c {
          var j :| 0 <= j < |items| && HasCode(items[j]) && items[j].code.value == c;
          if j < n {
            assert items[..n][j] == items[j];
          }
        }
        if c in Codes(items[..n]) {
          var j :| 0 <= j < n && HasCode(items[..n][j]) && items[..n][j].code.value == c;
          assert items[j] == items[..n][j];
        }
      }
    }
  }

  /** Items without a code never cause a call: with no coded item at all, an
      ack commits nothing even though its list is non-empty. */
  lemma {:induction false} NoCodesNoCalls(items: seq<AckItem>)
    requires forall j :: 0 <= j < |items| ==> !HasCode(items[j])
    ensures Codes(items) == []
  {
    if items != [] {
      var n := |items| - 1;
      assert forall j :: 0 <= j < n ==> items[..n][j] == items[j];
      NoCodesNoCalls(items[..n]);
    }
  }

  // --------------------------------------------------- update_kds_del_ticket

  /** An entry of the `items` list of a toggle_ticket command: its `i_code`
      key, or None when the key is absent. */
  datatype DelRequestItem = DelRequestItem(code: Option<string>)

  predicate AllKeyed(items: seq<DelRequestItem>) {
    forall j :: 0 <= j < |items| ==> items[j].code.Some?
  }

  /** One delivery update per item, for the command's KOT and bill. */
  function UpdateAll(kot: Option<int>, bill: Option<string>, items: seq<DelRequestItem>): (calls: seq<StoreCall>)
    requires AllKeyed(items)
    ensures |calls| == |items|
    ensures forall j :: 0 <= j < |items| ==> calls[j] == UpdateKdsDel(kot, items[j].code.value, bill)
  {
    seq(|items|, j requires 0 <= j < |items| && AllKeyed(items) => UpdateKdsDel(kot, items[j].code.value, bill))
  }

  /** `update_kds_del_ticket`: one update per item, committed together; a
      missing items list or an item without an `i_code` key raises before the
      commit, so then nothing is committed. */
  method UpdateKdsDelTicket(kot: Option<int>, bill: Option<string>, items: Option<seq<DelRequestItem>>)
    returns (calls: seq<StoreCall>)
    ensures items.None? || !AllKeyed(items.value) ==> calls == []
    ensures items.Some? && AllKeyed(items.value) ==> calls == UpdateAll(kot, bill, items.value)
  {
    if items.None? {
      return [];
    }
    var its := items.value;
    var pending: seq<StoreCall> := [];
    var i := 0;
    while i < |its|
      invariant 0 <= i <= |its|
      invariant AllKeyed(its[..i])
      invariant pending == UpdateAll(kot, bill, its[..i])
    {
      var code := its[i].code;
      if code.None? {
        return [];
      }
      assert its[..i + 1] == its[..i] + [its[i]];
      pending := pending + [UpdateKdsDel(kot, code.value, bill)];
      i := i + 1;
    }
    assert its[..i] == its;
    calls := pending;
  }

  // -------------------------------------------------------------- recall_item

  /** `recall_item`: one recall call with the arguments as given. */
  function RecallItem(kot: Option<int>, code: Option<string>, bill: Option<string>): (calls: seq<StoreCall>)
    ensures |calls| == 1 && calls[0].RecallKdsDel? && calls[0].kot == kot && calls[0].recallCode == code && calls[0].bill == bill
  {
    [RecallKdsDel(kot, code, bill)]
  }

  // ------------------------------------------------------- print on toggle

  /** Python's `str` of a non-negative integer, in decimal. */
  function Digits(n: nat): (s: string)
    ensures |s| > 0
    ensures forall j :: 0 <= j < |s| ==> '0' <= s[j] <= '9'
  {
    var d := ['0' + (n % 10) as char];
    if n < 10 then d else Digits(n / 10) + d
  }

  /** Python's `str` of an integer. */
  function IntText(n: int): string {
    if n < 0 then "-" + Digits(-n) else Digits(n)
  }

  /** Python's `str` of a missing value. */
  const NONE_TEXT := "None"

  /** The rendering of a KOT number is never the rendering of None, so a
      toggle without a KOT number prints nothing. */
  lemma IntTextIsNotNone(n: int)
    ensures IntText(n) != NONE_TEXT
  {
    assert NONE_TEXT[0] == 'N';
    if n >= 0 {
      assert '0' <= IntText(n)[0] <= '9';
    } else {
      assert IntText(n)[0] == '-';
    }
  }

  /** The index of the first occurrence of `x` in `xs` (JavaScript's
      `find`, Python's `next(...)` over a generator), if any. */
  function FirstIndex<T(==)>(xs: seq<T>, x: T): (r: Option<nat>)
    ensures r.Some? ==> r.value < |xs| && xs[r.value] == x
    ensures r.Some? ==> forall j :: 0 <= j < r.value ==> xs[j] != x
    ensures r.None? ==> forall j :: 0 <= j < |xs| ==> xs[j] != x
  {
    if xs == [] then None
    else if xs[0] == x then Some(0)
    else
      match FirstIndex(xs[1..], x)
      case None => None
      case Some(j) => Some(j + 1)
  }

  /** The index of the first ticket whose KOT renders as `kotText`, if any. */
  function FirstWithKot(tickets: seq<DelTicket>, kotText: string): (r: Option<nat>)
    ensures r.Some? ==> r.value < |tickets| && IntText(tickets[r.value].header.kot) == kotText
    ensures r.Some? ==> forall j :: 0 <= j < r.value ==> IntText(tickets[j].header.kot) != kotText
    ensures r.None? ==> forall j :: 0 <= j < |tickets| ==> IntText(tickets[j].header.kot) != kotText
  {
    var keys := seq(|tickets|, j requires 0 <= j < |tickets| => IntText(tickets[j].header.kot));
    assert forall j :: 0 <= j < |tickets| ==> keys[j] == IntText(tickets[j].header.kot);
    FirstIndex(keys, kotText)
  }

  /** The print job the toggle handler hands to the printer: the first cached
      ticket of the requested KOT, cut down to its ready items; none when
      printing is off, no ticket matches, or the ticket has no ready item. */
  function PrintJobOf(tickets: seq<DelTicket>, shouldPrint: bool, kotText: string): Option<DelTicket> {
    if !shouldPrint then None
    else match FirstWithKot(tickets, kotText)
      case None => None
      case Some(j) =>
        var ready := ReadyItems(tickets[j].items);
        if ready == [] then None else Some(tickets[j].(items := ready))
  }

  /** The print-on-toggle loop over the station's cached delivery tickets;
      `kotText` is `str(kot_no)` of the request. */
  method PrintOnToggle(tickets: seq<DelTicket>, shouldPrint: bool, kotText: string) returns (job: Option<DelTicket>)
    ensures job == PrintJobOf(tickets, shouldPrint, kotText)
  {
    job := None;
    if !shouldPrint {
      return;
    }
    var i := 0;
    while i < |tickets|
      invariant 0 <= i <= |tickets|
      invariant forall j :: 0 <= j < i ==> IntText(tickets[j].header.kot) != kotText
    {
      var t := tickets[i];
      if IntText(t.header.kot) == kotText {
        var ready := ReadyItems(t.items);
        if ready != [] {
          job := Some(t.(items := ready));
        }
        FirstIs(tickets, kotText, i);
        return;
      }
      i := i + 1;
    }
    NoneMatch(tickets, kotText);
  }

  lemma FirstIs(tickets: seq<DelTicket>, kotText: string, i: nat)
    requires i < |tickets| && IntText(tickets[i].header.kot) == kotText
    requires forall j :: 0 <= j < i ==> IntText(tickets[j].header.kot) != kotText
    ensures FirstWithKot(tickets, kotText) == Some(i)
  {
  }

  lemma NoneMatch(tickets: seq<DelTicket>, kotText: string)
    requires forall j :: 0 <= j < |tickets| ==> IntText(tickets[j].header.kot) != kotText
    ensures FirstWithKot(tickets, kotText) == None
  {
  }

  /** Only ready items are printed, all of them, and the rest of the ticket is
      that of the first cached ticket whose KOT matches; a ticket without
      ready items is not printed. */
  lemma PrintOnlyReady(tickets: seq<DelTicket>, shouldPrint: bool, kotText: string)
    ensures PrintJobOf(tickets, shouldPrint, kotText).Some? ==>
      var job := PrintJobOf(tickets, shouldPrint, kotText).value;
      shouldPrint && |job.items| > 0 &&
      IntText(job.header.kot) == kotText &&
      (forall j :: 0 <= j < |job.items| ==> IsReady(job.items[j])) &&
      (exists t :: t in tickets && t.header == job.header && t.ticketStatus == job.ticketStatus &&
        job.items == ReadyItems(t.items)) &&
      FirstWithKot(tickets, kotText).Some? &&
      var t := tickets[FirstWithKot(tickets, kotText).value];
      job == t.(items := ReadyItems(t.items))
    ensures (shouldPrint && (exists t :: t in tickets && IntText(t.header.kot) == kotText) &&
             PrintJobOf(tickets, shouldPrint, kotText).None?) ==>
      ReadyCount(tickets[FirstWithKot(tickets, kotText).value].items) == 0
  {
    var r := FirstWithKot(tickets, kotText);
    if shouldPrint && r.Some? {
      assert tickets[r.value] in tickets;
    }
    if shouldPrint && (exists t :: t in tickets && IntText(t.header.kot) == kotText) {
      var t :| t in tickets && IntText(t.header.kot) == kotText;
      var q :| 0 <= q < |tickets| && tickets[q] == t;
      assert r.Some?;
    }
  }
}

=== FILE: del_view.dfy ===
/**
 * The delivery screen (KDS_DEL.js; the kds_ws copy renders the same way): it
 * sorts the received tickets by KOT number, shows the KOT count, derives each
 * ticket's status from its items' ready flags, remembers the last status per
 * KOT, and on a click asks the server to toggle the ticket unless nothing on
 * it is ready.
 */
module DelView {
  import opened Optional
  import opened Records
  import opened TicketStatus
  import opened Sorting
  import opened Fetch
  import opened Commands
  import opened Server
  import opened StatusMemory

  /** The screen's status rule: the ready items are filtered and counted, then
      2 when every one of at least one item is ready, 1 when some are, else 0. */
  function ClientStatus(items: seq<DelItem>): (status: int)
    ensures 0 <= status <= 2
  {
    var total := |items|;
    var ready := |ReadyItems(items)|;
    if total > 0 && ready == total then 2
    else if ready > 0 then 1
    else 0
  }

  /** The screen's rule is the item-based status rule: 2 iff there is an
      item and all are ready, 1 iff some but not all are, 0 iff none is. */
  lemma ClientStatusIsStatus(items: seq<DelItem>)
    ensures ClientStatus(items) == StatusOf(items)
    ensures ClientStatus(items) == 2 <==> |items| > 0 && forall j :: 0 <= j < |items| ==> IsReady(items[j])
    ensures ClientStatus(items) == 0 <==> forall j :: 0 <= j < |items| ==> !IsReady(items[j])
  {
    CountedStatusIsStatus(items);
  }

  /** For every ticket the server builds for a delivery screen, the status the
      screen derives is the `ticketstatus` the server sent. */
  lemma ClientAgreesWithServer(rows: seq<DelRow>)
    ensures forall t :: t in DelTicketsOf(Some(rows)) ==> ClientStatus(t.items) == t.ticketStatus
  {
    if AllDelLabelled(rows) {
      DelStatusReflectsAllItems(rows);
      forall t | t in DelTicketsOf(Some(rows)) ensures ClientStatus(t.items) == t.ticketStatus {
        ClientStatusIsStatus(t.items);
      }
    }
  }

  /** The sort key: `a.kot_no - b.kot_no`. */
  function KotKey(t: DelTicket): int {
    t.header.kot
  }

  /** A rendered ticket and the status it is drawn with. */
  datatype DelCard = DelCard(ticket: DelTicket, status: int)

  /** The status the screen draws a ticket with, and so remembers for it. */
  function DrawnStatus(t: DelTicket): int {
    ClientStatus(t.items)
  }

  /** After a render, a rendered KOT remembers the status of the last ticket
      drawn with it (the only one, for the server's tickets): the status its
      items give it. */
  lemma RememberedDrawn(prev: map<int, int>, tickets: seq<DelTicket>, i: nat)
    requires i < |tickets|
    requires forall j :: i < j < |tickets| ==> tickets[j].header.kot != tickets[i].header.kot
    ensures tickets[i].header.kot in Remembered(prev, tickets, DrawnStatus)
    ensures Remembered(prev, tickets, DrawnStatus)[tickets[i].header.kot] == StatusOf(tickets[i].items)
  {
    RememberedLast(prev, tickets, DrawnStatus, i);
    ClientStatusIsStatus(tickets[i].items);
  }

  /** The cards of a render: the tickets in KOT order, each with its status. */
  function Cards(sorted: seq<DelTicket>): (cards: seq<DelCard>)
    ensures |cards| == |sorted|
  {
    if sorted == [] then []
    else
      var n := |sorted| - 1;
      Cards(sorted[..n]) + [DelCard(sorted[n], DrawnStatus(sorted[n]))]
  }

  /** Card `i` draws ticket `i` with the status its items give it. */
  lemma {:induction false} CardsDrawTickets(sorted: seq<DelTicket>)
    ensures forall i :: 0 <= i < |sorted| ==>
      Cards(sorted)[i].ticket == sorted[i] && Cards(sorted)[i].status == StatusOf(sorted[i].items)
  {
    if sorted != [] {
      var n := |sorted| - 1;
      CardsDrawTickets(sorted[..n]);
      assert forall i :: 0 <= i < n ==> sorted[..n][i] == sorted[i];
      ClientStatusIsStatus(sorted[n].items);
    }
  }

  /** The `items` a click sends: the ticket's items, each keyed by its code. */
  function RequestItems(items: seq<DelItem>): (r: seq<DelRequestItem>)
    ensures |r| == |items|
    ensures forall j :: 0 <= j < |items| ==> r[j] == DelRequestItem(Some(items[j].code))
  {
    seq(|items|, j requires 0 <= j < |items| => DelRequestItem(Some(items[j].code)))
  }

  /** An item the click guard counts as not ready. */
  predicate Pending(it: DelItem) {
    it.readyStatus == 0 && it.status != "Ready"
  }

  /** The click handler: nothing is sent when every item is unready and none
      is labelled Ready (an empty ticket included); otherwise a toggle_ticket
      for the ticket's KOT and bill with every item's code, without a `print`
      field, so the server prints; the server matches the print job on the
      KOT's decimal text. */
  function ClickMessage(t: DelTicket): (msg: Option<DelMessage>)
    ensures msg.None? <==> forall j :: 0 <= j < |t.items| ==> Pending(t.items[j])
    ensures msg.Some? ==> (msg.value.ToggleTicket? && msg.value.kot == Some(t.header.kot) &&
      msg.value.bill == Some(t.header.bill) && msg.value.shouldPrint &&
      msg.value.items == Some(RequestItems(t.items)) && msg.value.kotText == IntText(t.header.kot))
  {
    if forall j :: 0 <= j < |t.items| ==> Pending(t.items[j]) then None
    else Some(ToggleTicket(Some(t.header.kot), Some(t.header.bill), Some(RequestItems(t.items)), true, IntText(t.header.kot)))
  }

  /** A ticket drawn as partial or ready is always sent on a click, and the
      server commits one delivery update per item of the ticket, each with the
      ticket's KOT, the item's code and the ticket's bill. */
  lemma ClickUpdatesEveryItem(t: DelTicket)
    requires ClientStatus(t.items) > 0
    ensures ClickMessage(t).Some?
    ensures var msg := ClickMessage(t).value;
      msg.items.Some? && AllKeyed(msg.items.value) &&
      var calls := UpdateAll(msg.kot, msg.bill, msg.items.value);
      |calls| == |t.items| &&
      forall j :: 0 <= j < |t.items| ==> calls[j] == UpdateKdsDel(Some(t.header.kot), t.items[j].code, Some(t.header.bill))
  {
    ClientStatusIsStatus(t.items);
    var j :| 0 <= j < |t.items| && IsReady(t.items[j]);
    assert !Pending(t.items[j]);
  }

  /** The delivery screen's one piece of state that outlives a render. */
  class DelScreen {
    /** `previousStatuses`: the last status drawn per KOT number. */
    var previousStatuses: map<int, int>

    constructor ()
      ensures previousStatuses == map[]
    {
      previousStatuses := map[];
    }

    /** `renderTickets`: sort by KOT, count, then draw the tickets. */
    method Render(tickets: seq<DelTicket>) returns (cards: seq<DelCard>, count: nat)
      modifies this
      ensures count == |tickets|
      ensures cards == Cards(SortBy(tickets, KotKey))
      ensures previousStatuses == Remembered(old(previousStatuses), SortBy(tickets, KotKey), DrawnStatus)
    {
      var sorted := SortBy(tickets, KotKey);
      count := |sorted|;
      cards := Draw(sorted);
    }

    /** The render loop: draw each ticket with its status and remember that
        status under its KOT. */
    method Draw(sorted: seq<DelTicket>) returns (cards: seq<DelCard>)
      modifies this
      ensures cards == Cards(sorted)
      ensures previousStatuses == Remembered(old(previousStatuses), sorted, DrawnStatus)
    {
      cards := [];
      var i := 0;
      while i < |sorted|
        invariant 0 <= i <= |sorted|
        invariant cards == Cards(sorted[..i])
        invariant previousStatuses == Remembered(old(previousStatuses), sorted[..i], DrawnStatus)
      {
        cards := DrawTicket(sorted, i, cards, old(previousStatuses));
        i := i + 1;
      }
      assert sorted[..i] == sorted;
    }

    /** One pass of the render loop: ticket `i` is drawn after the cards of
        the tickets before it, and its status is remembered under its KOT. */
    method DrawTicket(sorted: seq<DelTicket>, i: nat, cards: seq<DelCard>, ghost start: map<int, int>)
      returns (cards': seq<DelCard>)
      requires i < |sorted|
      requires cards == Cards(sorted[..i])
      requires previousStatuses == Remembered(start, sorted[..i], DrawnStatus)
      modifies this
      ensures cards' == Cards(sorted[..i + 1])
      ensures previousStatuses == Remembered(start, sorted[..i + 1], DrawnStatus)
    {
      var t := sorted[i];
      var status := DrawnStatus(t);
      assert sorted[..i + 1][..i] == sorted[..i] && sorted[..i + 1][i] == t;
      previousStatuses := previousStatuses[t.header.kot := status];
      cards' := cards + [DelCard(t, status)];
    }

    /** `ws.onmessage`: a message with a `tickets` list (even an empty one) is
        rendered; any other message (the delivered list, a print command)
        changes nothing. */
    method Receive(tickets: Option<seq<DelTicket>>) returns (shown: Option<seq<DelCard>>)
      modifies this
      ensures tickets.None? ==> shown.None? && previousStatuses == old(previousStatuses)
      ensures tickets.Some? ==> (shown == Some(Cards(SortBy(tickets.value, KotKey))) &&
        previousStatuses == Remembered(old(previousStatuses), SortBy(tickets.value, KotKey), DrawnStatus))
    {
      if tickets.None? {
        return None;
      }
      var cards, _ := Render(tickets.value);
      shown := Some(cards);
    }
  }

  /** A render shows every received ticket exactly once, in ascending KOT
      order, each with the status its items give it. */
  lemma RenderOrder(tickets: seq<DelTicket>)
    ensures var cards := Cards(SortBy(tickets, KotKey));
      |cards| == |tickets| &&
      (forall i, j :: 0 <= i < j < |cards| ==> cards[i].ticket.header.kot <= cards[j].ticket.header.kot) &&
      multiset(SortBy(tickets, KotKey)) == multiset(tickets) &&
      (forall i :: 0 <= i < |cards| ==> cards[i].status == StatusOf(cards[i].ticket.items))
  {
    var sorted := SortBy(tickets, KotKey);
    CardsDrawTickets(sorted);
    assert forall i, j :: 0 <= i < j < |sorted| ==> KotKey(sorted[i]) <= KotKey(sorted[j]);
  }
}

=== FILE: fetch.dfy ===
/**
 * The three ticket fetches of the server: rows from a stored procedure are
 * folded into tickets, one per KOT number, in order of first appearance.
 * Each method walks the rows building a dictionary keyed by KOT number, as the
 * server does; each is proved equal to a specification built from the
 * grouping in module Grouping, and the lemmas below state what that means for
 * the rows.
 */
module Fetch {
  import opened Optional
  import opened Records
  import opened Grouping
  import opened TicketStatus

  // ================================================================ main KDS

  predicate Labelled(row: MainRow) {
    StatusLabel(STATUS_MAP, row.orderStatus).Some?
  }

  predicate AllLabelled(rows: seq<MainRow>) {
    forall j :: 0 <= j < |rows| ==> Labelled(rows[j])
  }

  /** The ticket fields taken from a row (used for the first row of each KOT). */
  function MainHeaderOf(row: MainRow, statusText: string): KdsHeader {
    KdsHeader(row.kot, row.bill, row.tableName, row.billType,
      row.createdOn.GetOr(""), statusText, row.comments.GetOr(""), row.cancelType == Some(1))
  }

  /** The item a row contributes to its ticket. */
  function MainItemOf(row: MainRow, statusText: string): KdsItem {
    KdsItem(row.code.GetOr(""), row.name, row.qty, statusText, row.ack)
  }

  function MainEntry(row: MainRow): Entry<Option<int>, KdsHeader, KdsItem>
    requires Labelled(row)
  {
    var statusText := StatusLabel(STATUS_MAP, row.orderStatus).value;
    Entry(row.kot, MainHeaderOf(row, statusText), MainItemOf(row, statusText))
  }

  function MainEntries(rows: seq<MainRow>): seq<Entry<Option<int>, KdsHeader, KdsItem>>
    requires AllLabelled(rows)
  {
    seq(|rows|, j requires 0 <= j < |rows| && AllLabelled(rows) => MainEntry(rows[j]))
  }

  /** A ticket as the fetch loop holds it in its dictionary. */
  function MakeKdsTicket(header: KdsHeader, items: seq<KdsItem>): KdsTicket {
    KdsTicket(header, items)
  }

  function MainTicketFor(es: seq<Entry<Option<int>, KdsHeader, KdsItem>>, k: Option<int>): KdsTicket
    requires Occurs(es, k)
  {
    MakeKdsTicket(HeaderOf(es, k), ItemsOf(es, k))
  }

  lemma MainEntriesSnoc(rows: seq<MainRow>, i: nat)
    requires i < |rows| && AllLabelled(rows[..i]) && Labelled(rows[i])
    ensures AllLabelled(rows[..i + 1])
    ensures MainEntries(rows[..i + 1]) == MainEntries(rows[..i]) + [MainEntry(rows[i])]
  {
    assert rows[..i + 1] == rows[..i] + [rows[i]];
  }

  function MainTickets(es: seq<Entry<Option<int>, KdsHeader, KdsItem>>): seq<KdsTicket> {
    Grouped(es, MakeKdsTicket)
  }

  /** What fetch_tickets returns for a query result: nothing when the query
      failed or some row's order_status is not a valid STATUS_MAP index (the
      exception is caught and [] returned), the grouped tickets otherwise. */
  function TicketsOf(query: Query<MainRow>): seq<KdsTicket> {
    if query.None? || !AllLabelled(query.value) then []
    else MainTickets(MainEntries(query.value))
  }

  /** One row folded into the dictionary: a KOT seen for the first time gets a
      ticket with this row's header and no items; then the row's item is
      appended to its KOT's ticket. */
  method AddMainRow(order: seq<Option<int>>, byKot: map<Option<int>, KdsTicket>, row: MainRow, statusText: string,
                    ghost es: seq<Entry<Option<int>, KdsHeader, KdsItem>>)
    returns (order': seq<Option<int>>, byKot': map<Option<int>, KdsTicket>)
    requires Labelled(row) && statusText == StatusLabel(STATUS_MAP, row.orderStatus).value
    requires order == Keys(es) && byKot == Groups(es, MakeKdsTicket)
    ensures order' == Keys(es + [MainEntry(row)])
    ensures byKot' == Groups(es + [MainEntry(row)], MakeKdsTicket)
  {
    ghost var e := MainEntry(row);
    var kot := row.kot;
    FoldKey(es, e, MakeKdsTicket);
    var t;
    if kot !in byKot {
      t := KdsTicket(MainHeaderOf(row, statusText), []);
      order' := order + [kot];
    } else {
      t := byKot[kot];
      order' := order;
    }
    t := t.(items := t.items + [MainItemOf(row, statusText)]);
    FoldAt(es, e, MakeKdsTicket, t);
    byKot' := byKot[kot := t];
  }

  method FetchTickets(query: Query<MainRow>) returns (tickets: seq<KdsTicket>)
    ensures tickets == TicketsOf(query)
    ensures query.Some? && (exists j :: 0 <= j < |query.value| && !Labelled(query.value[j])) ==> tickets == []
  {
    if query.None? {
      return [];
    }
    var rows := query.value;
    var order: seq<Option<int>> := [];
    var byKot: map<Option<int>, KdsTicket> := map[];
    ghost var es: seq<Entry<Option<int>, KdsHeader, KdsItem>> := [];
    var i := 0;
    while i < |rows|
      invariant 0 <= i <= |rows|
      invariant AllLabelled(rows[..i]) && es == MainEntries(rows[..i])
      invariant order == Keys(es)
      invariant byKot == Groups(es, MakeKdsTicket)
    {
      var row := rows[i];
      var statusText := StatusLabel(STATUS_MAP, row.orderStatus);
      if statusText.None? {
        return [];
      }
      MainEntriesSnoc(rows, i);
      var e := MainEntry(row);
      order, byKot := AddMainRow(order, byKot, row, statusText.value, es);
      es := es + [e];
      i := i + 1;
    }
    assert rows[..i] == rows;
    tickets := InOrder(order, byKot);
  }

  // ---------------------------------------------------- what the fetch means

  function KotsOf(tickets: seq<KdsTicket>): (kots: seq<Option<int>>)
    ensures |kots| == |tickets|
  {
    seq(|tickets|, j requires 0 <= j < |tickets| => tickets[j].header.kot)
  }

  lemma MainEntriesPrefix(rows: seq<MainRow>, n: nat)
    requires AllLabelled(rows) && n <= |rows|
    ensures AllLabelled(rows[..n])
    ensures MainEntries(rows[..n]) == MainEntries(rows)[..n]
  {
  }

  /** A ticket's KOT is the key it is grouped under. */
  lemma {:induction false} HeaderKot(rows: seq<MainRow>, k: Option<int>)
    requires AllLabelled(rows)
    requires Occurs(MainEntries(rows), k)
    ensures HeaderOf(MainEntries(rows), k).kot == k
  {
    var es := MainEntries(rows);
    var j := FirstOccurrence(es, k);
    HeaderIsFirst(es, j);
  }

  lemma {:induction false} KotsAreKeys(rows: seq<MainRow>)
    requires AllLabelled(rows)
    ensures KotsOf(TicketsOf(Some(rows))) == Keys(MainEntries(rows))
  {
    var es := MainEntries(rows);
    var ks := Keys(es);
    forall j | 0 <= j < |ks| ensures KotsOf(TicketsOf(Some(rows)))[j] == ks[j] {
      HeaderKot(rows, ks[j]);
    }
  }

  /** One ticket per distinct KOT_NO: the KOTs of the result are pairwise
      distinct, and a KOT is among them iff some row carries it. */
  lemma {:induction false} OneTicketPerKot(rows: seq<MainRow>)
    requires AllLabelled(rows)
    ensures forall a, b :: 0 <= a < b < |TicketsOf(Some(rows))| ==>
      TicketsOf(Some(rows))[a].header.kot != TicketsOf(Some(rows))[b].header.kot
    ensures forall k :: k in KotsOf(TicketsOf(Some(rows))) <==> exists j :: 0 <= j < |rows| && rows[j].kot == k
  {
    var es := MainEntries(rows);
    KotsAreKeys(rows);
    var kots := KotsOf(TicketsOf(Some(rows)));
    forall a, b | 0 <= a < b < |kots| ensures TicketsOf(Some(rows))[a].header.kot != TicketsOf(Some(rows))[b].header.kot {
      assert kots[a] == TicketsOf(Some(rows))[a].header.kot;
    }
    forall k ensures k in kots <==> exists j :: 0 <= j < |rows| && rows[j].kot == k {
      if k in kots {
        var j :| 0 <= j < |es| && es[j].key == k;
        assert rows[j].kot == k;
      }
      if exists j :: 0 <= j < |rows| && rows[j].kot == k {
        var j :| 0 <= j < |rows| && rows[j].kot == k;
        assert es[j].key == k;
      }
    }
  }

  /** Tickets come in order of first appearance: the KOTs fetched from any
      prefix of the rows are a prefix of the KOTs fetched from all of them. */
  lemma {:induction false} FirstAppearanceOrder(rows: seq<MainRow>, n: nat)
    requires AllLabelled(rows) && n <= |rows|
    ensures AllLabelled(rows[..n])
    ensures |TicketsOf(Some(rows[..n]))| <= |TicketsOf(Some(rows))|
    ensures KotsOf(TicketsOf(Some(rows[..n]))) == KotsOf(TicketsOf(Some(rows)))[..|TicketsOf(Some(rows[..n]))|]
  {
    MainEntriesPrefix(rows, n);
    KotsAreKeys(rows);
    KotsAreKeys(rows[..n]);
    KeysPrefix(MainEntries(rows), n);
  }

  /** Ticket fields come from the first row seen for the KOT: if row j is the
      first with its KOT, that KOT's ticket has row j's header, and in
      particular is Cancelled iff row j's Cancel_Type is 1. */
  lemma {:induction false} HeaderFromFirstRow(rows: seq<MainRow>, j: nat)
    requires AllLabelled(rows) && j < |rows|
    requires forall i :: 0 <= i < j ==> rows[i].kot != rows[j].kot
    ensures exists t :: t in TicketsOf(Some(rows)) && t.header.kot == rows[j].kot
    ensures forall t :: t in TicketsOf(Some(rows)) && t.header.kot == rows[j].kot ==>
      t.header == MainHeaderOf(rows[j], StatusLabel(STATUS_MAP, rows[j].orderStatus).value) &&
      (t.header.cancelled <==> rows[j].cancelType == Some(1))
  {
    var es := MainEntries(rows);
    var r := TicketsOf(Some(rows));
    HeaderIsFirst(es, j);
    OneTicketPerKot(rows);
    KotsAreKeys(rows);
    var ks := Keys(es);
    assert es[j].key == rows[j].kot;
    var p :| 0 <= p < |ks| && ks[p] == rows[j].kot;
    assert r[p] in r;
    forall t | t in r && t.header.kot == rows[j].kot
      ensures t.header == MainHeaderOf(rows[j], StatusLabel(STATUS_MAP, rows[j].orderStatus).value)
    {
      var q :| 0 <= q < |r| && r[q] == t;
      assert KotsOf(r)[q] == ks[q];
      HeaderKot(rows, ks[q]);
    }
  }

  function TotalItems(tickets: seq<KdsTicket>): nat {
    if tickets == [] then 0 else |tickets[0].items| + TotalItems(tickets[1..])
  }

  lemma {:induction false} TotalItemsOfKeys(es: seq<Entry<Option<int>, KdsHeader, KdsItem>>, ks: seq<Option<int>>)
    requires forall k :: k in ks ==> k in Keys(es)
    ensures TotalItems(InOrder(ks, Groups(es, MakeKdsTicket))) == ItemTotal(es, ks)
  {
    var ts := InOrder(ks, Groups(es, MakeKdsTicket));
    if ks != [] {
      assert ts[1..] == InOrder(ks[1..], Groups(es, MakeKdsTicket));
      TotalItemsOfKeys(es, ks[1..]);
    }
  }

  /** Each row becomes exactly one item: the item count over all tickets is the row count. */
  lemma {:induction false} EveryRowIsOneItem(rows: seq<MainRow>)
    requires AllLabelled(rows)
    ensures TotalItems(TicketsOf(Some(rows))) == |rows|
  {
    var es := MainEntries(rows);
    TotalItemsOfKeys(es, Keys(es));
    EveryEntryIsOneItem(es);
  }

  /** ...and it lands, in row order, in the ticket of its own KOT. */
  lemma {:induction false} RowItemInItsTicket(rows: seq<MainRow>, j: nat)
    requires AllLabelled(rows) && j < |rows|
    ensures exists t :: (t in TicketsOf(Some(rows)) && t.header.kot == rows[j].kot &&
      MainItemOf(rows[j], StatusLabel(STATUS_MAP, rows[j].orderStatus).value) in t.items)
  {
    var es := MainEntries(rows);
    var r := TicketsOf(Some(rows));
    var ks := Keys(es);
    assert es[j].key == rows[j].kot;
    assert Occurs(es, rows[j].kot);
    assert rows[j].kot in ks;
    var p :| 0 <= p < |ks| && ks[p] == rows[j].kot;
    KotsAreKeys(rows);
    assert KotsOf(r)[p] == ks[p];
    ItemInItemsOf(es, j);
    assert r[p] in r;
  }

  // ============================================================ KDS_DEL rows

  predicate DelLabelled(row: DelRow) {
    StatusLabel(STATUS_MAP, row.orderStatus).Some?
  }

  predicate AllDelLabelled(rows: seq<DelRow>) {
    forall j :: 0 <= j < |rows| ==> DelLabelled(rows[j])
  }

  /** A row with a NULL KOT_NO or BillNO is skipped. */
  predicate Kept(row: DelRow) {
    row.kot.Some? && row.bill.Some?
  }

  /** `str(i_code)`: a NULL code becomes the text "None". */
  function CodeText(code: Option<string>): string {
    match code
    case None => "None"
    case Some(c) => c
  }

  function DelHeaderOf(row: DelRow, delivered: bool): DelHeader
    requires Kept(row)
  {
    DelHeader(row.kot.value, row.bill.value, row.tableName, row.readyDate.GetOr(""),
      row.steward, "", row.billType, if delivered then None else Some(row.cashier))
  }

  /** A NULL ready_status reads as 0. */
  function DelItemOf(row: DelRow, statusText: string): DelItem {
    DelItem(CodeText(row.code), row.name, row.qty, row.readyStatus.GetOr(0), statusText)
  }

  function DelEntry(row: DelRow, delivered: bool): Entry<int, DelHeader, DelItem>
    requires DelLabelled(row) && Kept(row)
  {
    Entry(row.kot.value, DelHeaderOf(row, delivered),
      DelItemOf(row, StatusLabel(STATUS_MAP, row.orderStatus).value))
  }

  lemma DelLabelledPrefix(rows: seq<DelRow>, n: nat)
    requires AllDelLabelled(rows) && n <= |rows|
    ensures AllDelLabelled(rows[..n])
  {
    forall j | 0 <= j < n ensures DelLabelled(rows[..n][j]) {
      assert rows[..n][j] == rows[j];
    }
  }

  /** The entries of the rows that are not skipped, in row order. */
  function DelEntries(rows: seq<DelRow>, delivered: bool): seq<Entry<int, DelHeader, DelItem>>
    requires AllDelLabelled(rows)
  {
    if rows == [] then []
    else
      var n := |rows| - 1;
      DelLabelledPrefix(rows, n);
      DelEntries(rows[..n], delivered) + (if Kept(rows[n]) then [DelEntry(rows[n], delivered)] else [])
  }

  /** A delivery ticket as the KDS_DEL fetch loop leaves it: its status is
      recomputed from its items after every append. */
  function MakeDelTicket(header: DelHeader, items: seq<DelItem>): DelTicket {
    DelTicket(header, items, StatusOf(items))
  }

  /** A delivered ticket: ticketstatus keeps its initial 0. */
  function MakeDeliveredTicket(header: DelHeader, items: seq<DelItem>): DelTicket {
    DelTicket(header, items, 0)
  }

  /** What fetch_kds_del_tickets returns: [] when the query fails or ANY row,
      skipped or not, has an order_status that is not a STATUS_MAP index (the
      index is taken before the skip test); otherwise the kept rows grouped by
      KOT, each ticket's status derived from all its items. */
  function DelTicketsOf(query: Query<DelRow>): seq<DelTicket> {
    if query.None? || !AllDelLabelled(query.value) then []
    else Grouped(DelEntries(query.value, false), MakeDelTicket)
  }

  /** What fetch_delivered_tickets returns: the same grouping, without the
      cashier field and with ticketstatus left at its initial 0. */
  function DeliveredTicketsOf(query: Query<DelRow>): seq<DelTicket> {
    if query.None? || !AllDelLabelled(query.value) then []
    else Grouped(DelEntries(query.value, true), MakeDeliveredTicket)
  }

  /** One more row: a skipped row leaves the entries as they are, a kept row
      appends its entry. */
  lemma DelEntriesSnoc(rows: seq<DelRow>, i: nat, delivered: bool)
    requires i < |rows| && AllDelLabelled(rows[..i]) && DelLabelled(rows[i])
    ensures AllDelLabelled(rows[..i + 1])
    ensures !Kept(rows[i]) ==> DelEntries(rows[..i + 1], delivered) == DelEntries(rows[..i], delivered)
    ensures Kept(rows[i]) ==>
      DelEntries(rows[..i + 1], delivered) == DelEntries(rows[..i], delivered) + [DelEntry(rows[i], delivered)]
  {
    assert rows[..i + 1] == rows[..i] + [rows[i]];
    assert rows[..i + 1][..i] == rows[..i];
    assert DelEntries(rows[..i], delivered) + [] == DelEntries(rows[..i], delivered);
  }

  /** One kept row folded into the KDS_DEL dictionary: a new KOT gets a ticket
      with this row's header, no items and ticketstatus 0; the row's item is
      appended and the ticketstatus recomputed from the ready count. */
  method AddDelRow(order: seq<int>, byKot: map<int, DelTicket>, row: DelRow, statusText: string,
                    ghost es: seq<Entry<int, DelHeader, DelItem>>)
    returns (order': seq<int>, byKot': map<int, DelTicket>)
    requires DelLabelled(row) && Kept(row) && statusText == StatusLabel(STATUS_MAP, row.orderStatus).value
    requires order == Keys(es) && byKot == Groups(es, MakeDelTicket)
    ensures order' == Keys(es + [DelEntry(row, false)])
    ensures byKot' == Groups(es + [DelEntry(row, false)], MakeDelTicket)
  {
    ghost var e := DelEntry(row, false);
    var kot := row.kot.value;
    FoldKey(es, e, MakeDelTicket);
    var t;
    if kot !in byKot {
      t := DelTicket(DelHeaderOf(row, false), [], 0);
      order' := order + [kot];
    } else {
      t := byKot[kot];
      order' := order;
    }
    var items := t.items + [DelItemOf(row, statusText)];
    var readyItems := ReadyCount(items);
    var totalItems := |items|;
    var status;
    if readyItems == totalItems && totalItems > 0 {
      status := 2;
    } else if readyItems > 0 {
      status := 1;
    } else {
      status := 0;
    }
    CountedStatusIsStatus(items);
    t := t.(items := items, ticketStatus := status);
    FoldAt(es, e, MakeDelTicket, t);
    byKot' := byKot[kot := t];
  }

  method FetchKdsDelTickets(query: Query<DelRow>) returns (tickets: seq<DelTicket>)
    ensures tickets == DelTicketsOf(query)
    ensures query.Some? && (exists j :: 0 <= j < |query.value| && !DelLabelled(query.value[j])) ==> tickets == []
  {
    if query.None? {
      return [];
    }
    var rows := query.value;
    var order: seq<int> := [];
    var byKot: map<int, DelTicket> := map[];
    ghost var es: seq<Entry<int, DelHeader, DelItem>> := [];
    var i := 0;
    while i < |rows|
      invariant 0 <= i <= |rows|
      invariant AllDelLabelled(rows[..i]) && es == DelEntries(rows[..i], false)
      invariant order == Keys(es)
      invariant byKot == Groups(es, MakeDelTicket)
    {
      var row := rows[i];
      var statusText := StatusLabel(STATUS_MAP, row.orderStatus);
      if statusText.None? {
        return [];
      }
      DelEntriesSnoc(rows, i, false);
      if !Kept(row) {
        i := i + 1;
        continue;
      }
      var e := DelEntry(row, false);
      order, byKot := AddDelRow(order, byKot, row, statusText.value, es);
      es := es + [e];
      i := i + 1;
    }
    assert rows[..i] == rows;
    tickets := InOrder(order, byKot);
  }

  /** One kept row folded into the delivered dictionary: as for KDS_DEL, but
      the ticketstatus is never recomputed. */
  method AddDeliveredRow(order: seq<int>, byKot: map<int, DelTicket>, row: DelRow, statusText: string,
                    ghost es: seq<Entry<int, DelHeader, DelItem>>)
    returns (order': seq<int>, byKot': map<int, DelTicket>)
    requires DelLabelled(row) && Kept(row) && statusText == StatusLabel(STATUS_MAP, row.orderStatus).value
    requires order == Keys(es) && byKot == Groups(es, MakeDeliveredTicket)
    ensures order' == Keys(es + [DelEntry(row, true)])
    ensures byKot' == Groups(es + [DelEntry(row, true)], MakeDeliveredTicket)
  {
    ghost var e := DelEntry(row, true);
    var kot := row.kot.value;
    FoldKey(es, e, MakeDeliveredTicket);
    var t;
    if kot !in byKot {
      t := DelTicket(DelHeaderOf(row, true), [], 0);
      order' := order + [kot];
    } else {
      t := byKot[kot];
      order' := order;
    }
    t := t.(items := t.items + [DelItemOf(row, statusText)]);
    FoldAt(es, e, MakeDeliveredTicket, t);
    byKot' := byKot[kot := t];
  }

  method FetchDeliveredTickets(query: Query<DelRow>) returns (tickets: seq<DelTicket>)
    ensures tickets == DeliveredTicketsOf(query)
    ensures query.Some? && (exists j :: 0 <= j < |query.value| && !DelLabelled(query.value[j])) ==> tickets == []
  {
    if query.None? {
      return [];
    }
    var rows := query.value;
    var order: seq<int> := [];
    var byKot: map<int, DelTicket> := map[];
    ghost var es: seq<Entry<int, DelHeader, DelItem>> := [];
    var i := 0;
    while i < |rows|
      invariant 0 <= i <= |rows|
      invariant AllDelLabelled(rows[..i]) && es == DelEntries(rows[..i], true)
      invariant order == Keys(es)
      invariant byKot == Groups(es, MakeDeliveredTicket)
    {
      var row := rows[i];
      var statusText := StatusLabel(STATUS_MAP, row.orderStatus);
      if statusText.None? {
        return [];
      }
      DelEntriesSnoc(rows, i, true);
      if !Kept(row) {
        i := i + 1;
        continue;
      }
      var e := DelEntry(row, true);
      order, byKot := AddDeliveredRow(order, byKot, row, statusText.value, es);
      es := es + [e];
      i := i + 1;
    }
    assert rows[..i] == rows;
    tickets := InOrder(order, byKot);
  }

  // ------------------------------------------- what the KDS_DEL fetch means

  /** Some kept row carries KOT `k`. */
  predicate KeptKot(rows: seq<DelRow>, k: int) {
    exists j :: 0 <= j < |rows| && Kept(rows[j]) && rows[j].kot == Some(k)
  }

  lemma KeptKotSnoc(rows: seq<DelRow>, n: nat, k: int)
    requires n < |rows|
    ensures KeptKot(rows[..n + 1], k) <==> KeptKot(rows[..n], k) || (Kept(rows[n]) && rows[n].kot == Some(k))
  {
    if KeptKot(rows[..n + 1], k) {
      var j :| 0 <= j < n + 1 && Kept(rows[..n + 1][j]) && rows[..n + 1][j].kot == Some(k);
      if j < n { assert rows[..n][j] == rows[j]; }
    }
    if KeptKot(rows[..n], k) {
      var j :| 0 <= j < n && Kept(rows[..n][j]) && rows[..n][j].kot == Some(k);
      assert rows[..n + 1][j] == rows[j];
    }
    if Kept(rows[n]) && rows[n].kot == Some(k) {
      assert rows[..n + 1][n] == rows[n];
    }
  }

  /** A key occurs among the entries iff a kept row carries that KOT; and every
      entry's header carries its key and, for the delivered fetch, no cashier. */
  lemma {:induction false} DelEntriesKeys(rows: seq<DelRow>, n: nat, delivered: bool)
    requires AllDelLabelled(rows) && n <= |rows|
    ensures AllDelLabelled(rows[..n])
    ensures forall k :: Occurs(DelEntries(rows[..n], delivered), k) <==> KeptKot(rows[..n], k)
    ensures forall j :: 0 <= j < |DelEntries(rows[..n], delivered)| ==>
      DelEntries(rows[..n], delivered)[j].header.kot == DelEntries(rows[..n], delivered)[j].key &&
      (delivered <==> DelEntries(rows[..n], delivered)[j].header.cashier.None?)
  {
    DelLabelledPrefix(rows, n);
    if n > 0 {
      var m := n - 1;
      DelEntriesKeys(rows, m, delivered);
      DelLabelledPrefix(rows, n);
      assert DelLabelled(rows[m]);
      DelEntriesSnoc(rows, m, delivered);
      var es := DelEntries(rows[..m], delivered);
      if Kept(rows[m]) {
        OccursSnoc(es, DelEntry(rows[m], delivered));
      }
      forall k ensures KeptKot(rows[..n], k) <==> KeptKot(rows[..m], k) || (Kept(rows[m]) && rows[m].kot == Some(k)) {
        KeptKotSnoc(rows, m, k);
      }
    }
  }

  /** Rows with a NULL KOT_NO or BillNO contribute nothing: the delivery
      tickets' KOTs are pairwise distinct and are exactly the KOTs of the kept
      rows. */
  lemma {:induction false} DelKotsAreKeptRows(rows: seq<DelRow>)
    requires AllDelLabelled(rows)
    ensures forall a, b :: 0 <= a < b < |DelTicketsOf(Some(rows))| ==>
      DelTicketsOf(Some(rows))[a].header.kot != DelTicketsOf(Some(rows))[b].header.kot
    ensures forall k :: (exists t :: t in DelTicketsOf(Some(rows)) && t.header.kot == k) <==> KeptKot(rows, k)
  {
    DelEntriesKeys(rows, |rows|, false);
    assert rows[..|rows|] == rows;
    var es := DelEntries(rows, false);
    var ks := Keys(es);
    var r := DelTicketsOf(Some(rows));
    GroupKotsAreKeys(es);
    forall k ensures (exists t :: t in r && t.header.kot == k) <==> Occurs(es, k) {
      if exists t :: t in r && t.header.kot == k {
        var t :| t in r && t.header.kot == k;
        var q :| 0 <= q < |r| && r[q] == t;
        assert ks[q] == k;
      }
      if Occurs(es, k) {
        var q :| 0 <= q < |ks| && ks[q] == k;
        assert r[q] in r;
      }
    }
  }

  /** When every entry's header carries its key as KOT, ticket `j` of the
      grouping has the `j`-th distinct key as KOT. */
  lemma GroupKotsAreKeys(es: seq<Entry<int, DelHeader, DelItem>>)
    requires forall j :: 0 <= j < |es| ==> es[j].header.kot == es[j].key
    ensures |Grouped(es, MakeDelTicket)| == |Keys(es)|
    ensures forall j :: 0 <= j < |Keys(es)| ==> Grouped(es, MakeDelTicket)[j].header.kot == Keys(es)[j]
  {
    forall j | 0 <= j < |Keys(es)| ensures Grouped(es, MakeDelTicket)[j].header.kot == Keys(es)[j] {
      GroupedAt(es, MakeDelTicket, j);
      var f := FirstOccurrence(es, Keys(es)[j]);
      HeaderIsFirst(es, f);
    }
  }

  /** Delivered tickets carry no cashier and a ticketstatus of 0. */
  lemma {:induction false} DeliveredHeaders(rows: seq<DelRow>)
    requires AllDelLabelled(rows)
    ensures forall t :: t in DeliveredTicketsOf(Some(rows)) ==> t.ticketStatus == 0 && t.header.cashier.None?
  {
    DelEntriesKeys(rows, |rows|, true);
    assert rows[..|rows|] == rows;
    var es := DelEntries(rows, true);
    forall t | t in DeliveredTicketsOf(Some(rows)) ensures t.header.cashier.None? {
      var q :| 0 <= q < |Keys(es)| && DeliveredTicketsOf(Some(rows))[q] == t;
      var f := FirstOccurrence(es, Keys(es)[q]);
      HeaderIsFirst(es, f);
    }
  }

  /** The status the server sends with each delivery ticket is the status of
      its complete item list, although it is recomputed after every append:
      0 when no item is ready, 1 when some but not all are, 2 when all are. */
  lemma DelStatusReflectsAllItems(rows: seq<DelRow>)
    requires AllDelLabelled(rows)
    ensures forall t :: t in DelTicketsOf(Some(rows)) ==>
      t.ticketStatus == StatusOf(t.items) &&
      (t.ticketStatus == 0 <==> ReadyCount(t.items) == 0) &&
      (t.ticketStatus == 1 <==> 0 < ReadyCount(t.items) < |t.items|) &&
      (t.ticketStatus == 2 <==> 0 < ReadyCount(t.items) == |t.items|)
  {
    forall t | t in DelTicketsOf(Some(rows))
      ensures t.ticketStatus == StatusOf(t.items)
      ensures (t.ticketStatus == 0 <==> ReadyCount(t.items) == 0) &&
              (t.ticketStatus == 1 <==> 0 < ReadyCount(t.items) < |t.items|) &&
              (t.ticketStatus == 2 <==> 0 < ReadyCount(t.items) == |t.items|)
    {
      var es := DelEntries(rows, false);
      var q :| 0 <= q < |Keys(es)| && DelTicketsOf(Some(rows))[q] == t;
      StatusByCount(t.items);
    }
  }
}

=== FILE: filtering.dfy ===
/**
 * The list filter the server and the screens use (`[x for x in s if keep(x)]`,
 * `s.filter(keep)`), specified by the positions it keeps: the kept elements,
 * in their order, each as often as it occurs.
 */
module Filtering {
  /** The positions of the elements of `s` that `keep` accepts, ascending. */
  function Positions<T>(s: seq<T>, keep: T -> bool): (ps: seq<nat>)
    ensures forall k :: 0 <= k < |ps| ==> ps[k] < |s| && keep(s[ps[k]])
    ensures forall j :: 0 <= j < |s| && keep(s[j]) ==> j in ps
    ensures forall k, l :: 0 <= k < l < |ps| ==> ps[k] < ps[l]
  {
    if s == [] then []
    else
      var n := |s| - 1;
      var front := Positions(s[..n], keep);
      var last := if keep(s[n]) then [n] else [];
      PositionsSnoc(s, keep, front, last);
      front + last
  }

  /** One more element: the positions before it, then its own when kept. */
  lemma PositionsSnoc<T>(s: seq<T>, keep: T -> bool, front: seq<nat>, last: seq<nat>)
    requires s != []
    requires forall k :: 0 <= k < |front| ==> front[k] < |s| - 1 && keep(s[..|s| - 1][front[k]])
    requires forall j :: 0 <= j < |s| - 1 && keep(s[..|s| - 1][j]) ==> j in front
    requires forall k, l :: 0 <= k < l < |front| ==> front[k] < front[l]
    requires last == if keep(s[|s| - 1]) then [|s| - 1] else []
    ensures forall k :: 0 <= k < |front + last| ==> (front + last)[k] < |s| && keep(s[(front + last)[k]])
    ensures forall j :: 0 <= j < |s| && keep(s[j]) ==> j in front + last
    ensures forall k, l :: 0 <= k < l < |front + last| ==> (front + last)[k] < (front + last)[l]
  {
    var n := |s| - 1;
    assert forall j :: 0 <= j < n ==> s[..n][j] == s[j];
  }

  /** `r` is `s` filtered by `keep`: element `k` of `r` is the element at the
      `k`-th kept position. */
  predicate Selects<T(==)>(r: seq<T>, s: seq<T>, keep: T -> bool) {
    var ps := Positions(s, keep);
    |r| == |ps| && forall k :: 0 <= k < |ps| ==> r[k] == s[ps[k]]
  }

  /** The filter: the kept elements in order, with repeats. */
  function Filter<T(==,!new)>(s: seq<T>, keep: T -> bool): (r: seq<T>)
    ensures Selects(r, s, keep)
    ensures forall x :: x in r <==> x in s && keep(x)
  {
    if s == [] then []
    else
      var n := |s| - 1;
      var front := Filter(s[..n], keep);
      FilterSnoc(s, keep, front);
      front + (if keep(s[n]) then [s[n]] else [])
  }

  /** One more element: the filter of the elements before it, then the
      element itself when it is kept. */
  lemma FilterSnoc<T(!new)>(s: seq<T>, keep: T -> bool, front: seq<T>)
    requires s != []
    requires Selects(front, s[..|s| - 1], keep)
    requires forall x :: x in front <==> x in s[..|s| - 1] && keep(x)
    ensures Selects(front + (if keep(s[|s| - 1]) then [s[|s| - 1]] else []), s, keep)
    ensures forall x :: x in front + (if keep(s[|s| - 1]) then [s[|s| - 1]] else []) <==> x in s && keep(x)
  {
    var n := |s| - 1;
    var last := if keep(s[n]) then [s[n]] else [];
    var ps := Positions(s[..n], keep);
    var ps' := Positions(s, keep);
    assert ps' == ps + (if keep(s[n]) then [n] else []);
    var r := front + last;
    forall k | 0 <= k < |ps'| ensures r[k] == s[ps'[k]] {
      if k < |ps| {
        assert r[k] == front[k] == s[..n][ps[k]];
      }
    }
    forall x ensures x in r <==> x in s && keep(x) {
      assert x in s <==> x in s[..n] || x == s[n] by {
        assert s == s[..n] + [s[n]];
      }
    }
  }
}

=== FILE: grouping.dfy ===
/**
 * The grouping that every ticket fetch performs: a sequence of flat rows, each
 * already turned into an entry (key, header, item), becomes one group per
 * distinct key, in order of first appearance; the group's header comes from the
 * first entry with that key and its items are the items of all entries with
 * that key, in entry order. This is the specification that the dictionary-based
 * loops in the fetch methods are proved against.
 */
module Grouping {

  datatype Entry<K, H, I> = Entry(key: K, header: H, item: I)

  predicate Occurs<K(==,!new), H, I>(es: seq<Entry<K, H, I>>, k: K) {
    exists j :: 0 <= j < |es| && es[j].key == k
  }

  lemma OccursSnoc<K(!new), H, I>(es: seq<Entry<K, H, I>>, e: Entry<K, H, I>)
    ensures forall k :: Occurs(es + [e], k) <==> Occurs(es, k) || k == e.key
  {
    var es' := es + [e];
    forall k | Occurs(es', k) ensures Occurs(es, k) || k == e.key {
      var j :| 0 <= j < |es'| && es'[j].key == k;
      if j < |es| { assert es[j].key == k; }
    }
    forall k | Occurs(es, k) ensures Occurs(es', k) {
      var j :| 0 <= j < |es| && es[j].key == k;
      assert es'[j].key == k;
    }
    assert es'[|es|].key == e.key;
  }

  /** The distinct keys of `es`, in order of first appearance. */
  function Keys<K(==,!new), H, I>(es: seq<Entry<K, H, I>>): (ks: seq<K>)
    ensures forall k :: k in ks <==> Occurs(es, k)
    ensures forall a, b :: 0 <= a < b < |ks| ==> ks[a] != ks[b]
  {
    if es == [] then []
    else
      var n := |es| - 1;
      assert es == es[..n] + [es[n]];
      OccursSnoc(es[..n], es[n]);
      var ks := Keys(es[..n]);
      if es[n].key in ks then ks else ks + [es[n].key]
  }

  /** The items of the entries whose key is `k`, in entry order. */
  function ItemsOf<K(==,!new), H, I>(es: seq<Entry<K, H, I>>, k: K): seq<I>
  {
    if es == [] then []
    else
      var n := |es| - 1;
      ItemsOf(es[..n], k) + (if es[n].key == k then [es[n].item] else [])
  }

  /** The header of the first entry whose key is `k`. */
  function HeaderOf<K(==,!new), H, I>(es: seq<Entry<K, H, I>>, k: K): H
    requires Occurs(es, k)
  {
    var n := |es| - 1;
    assert es == es[..n] + [es[n]];
    OccursSnoc(es[..n], es[n]);
    if Occurs(es[..n], k) then HeaderOf(es[..n], k) else es[n].header
  }

  /** How the three definitions above change when one more entry is folded in:
      the per-row step of the fetch loops. */
  lemma Snoc<K(!new), H, I>(es: seq<Entry<K, H, I>>, e: Entry<K, H, I>)
    ensures Keys(es + [e]) == if e.key in Keys(es) then Keys(es) else Keys(es) + [e.key]
    ensures forall k :: ItemsOf(es + [e], k) == ItemsOf(es, k) + (if e.key == k then [e.item] else [])
    ensures forall k :: Occurs(es + [e], k) <==> Occurs(es, k) || k == e.key
    ensures forall k :: Occurs(es, k) ==> HeaderOf(es + [e], k) == HeaderOf(es, k)
    ensures !Occurs(es, e.key) ==> HeaderOf(es + [e], e.key) == e.header
  {
    assert (es + [e])[..|es|] == es;
    OccursSnoc(es, e);
  }

  /** The part of `Snoc` about the keys. */
  lemma KeysSnoc<K(!new), H, I>(es: seq<Entry<K, H, I>>, e: Entry<K, H, I>)
    ensures Keys(es + [e]) == if e.key in Keys(es) then Keys(es) else Keys(es) + [e.key]
  {
    assert (es + [e])[..|es|] == es;
  }

  /** Folding an entry in keeps the earlier keys as a prefix. */
  lemma {:induction false} KeysPrefix<K(!new), H, I>(es: seq<Entry<K, H, I>>, n: nat)
    requires n <= |es|
    ensures |Keys(es[..n])| <= |Keys(es)|
    ensures Keys(es[..n]) == Keys(es)[..|Keys(es[..n])|]
    decreases |es|
  {
    if n < |es| {
      var m := |es| - 1;
      var front := es[..m];
      assert front[..n] == es[..n];
      KeysPrefix(front, n);
      assert es == front + [es[m]];
      KeysSnoc(front, es[m]);
      var l := |Keys(es[..n])|;
      assert Keys(es)[..l] == Keys(front)[..l];
    } else {
      assert es[..n] == es;
    }
  }

  /** The first entry with a given key exists whenever the key occurs. */
  lemma {:induction false} FirstOccurrence<K(!new), H, I>(es: seq<Entry<K, H, I>>, k: K) returns (j: nat)
    requires Occurs(es, k)
    ensures j < |es| && es[j].key == k
    ensures forall i :: 0 <= i < j ==> es[i].key != k
    decreases |es|
  {
    var n := |es| - 1;
    assert es == es[..n] + [es[n]];
    OccursSnoc(es[..n], es[n]);
    if Occurs(es[..n], k) {
      j := FirstOccurrence(es[..n], k);
    } else {
      j := n;
      forall i | 0 <= i < n ensures es[i].key != k {
        assert es[..n][i] == es[i];
      }
    }
  }

  /** The header of a group is the header of the FIRST entry with its key;
      later entries only add items. */
  lemma {:induction false} HeaderIsFirst<K(!new), H, I>(es: seq<Entry<K, H, I>>, j: nat)
    requires j < |es|
    requires forall i :: 0 <= i < j ==> es[i].key != es[j].key
    ensures Occurs(es, es[j].key)
    ensures HeaderOf(es, es[j].key) == es[j].header
    decreases |es|
  {
    var n := |es| - 1;
    assert es == es[..n] + [es[n]];
    Snoc(es[..n], es[n]);
    if j < n {
      assert es[..n][j] == es[j];
      HeaderIsFirst(es[..n], j);
    } else {
      assert !Occurs(es[..n], es[j].key) by {
        forall i | 0 <= i < n ensures es[..n][i].key != es[j].key {
          assert es[..n][i] == es[i];
        }
      }
    }
  }

  /** Every key that occurs has at least one item. */
  lemma {:induction false} ItemsOfNonEmpty<K(!new), H, I>(es: seq<Entry<K, H, I>>, k: K)
    requires Occurs(es, k)
    ensures |ItemsOf(es, k)| > 0
    decreases |es|
  {
    var n := |es| - 1;
    assert es == es[..n] + [es[n]];
    Snoc(es[..n], es[n]);
    if es[n].key != k {
      ItemsOfNonEmpty(es[..n], k);
    }
  }

  /** Total number of items over the groups of the keys `ks`. */
  function ItemTotal<K(==,!new), H, I>(es: seq<Entry<K, H, I>>, ks: seq<K>): nat {
    if ks == [] then 0 else |ItemsOf(es, ks[0])| + ItemTotal(es, ks[1..])
  }

  lemma {:induction false} ItemTotalSnocKey<K(!new), H, I>(es: seq<Entry<K, H, I>>, ks: seq<K>, k: K)
    ensures ItemTotal(es, ks + [k]) == ItemTotal(es, ks) + |ItemsOf(es, k)|
    decreases |ks|
  {
    if ks != [] {
      assert (ks + [k])[1..] == ks[1..] + [k];
      ItemTotalSnocKey(es, ks[1..], k);
    }
  }

  lemma ItemsSnocCount<K(!new), H, I>(es: seq<Entry<K, H, I>>, e: Entry<K, H, I>, k: K)
    ensures |ItemsOf(es + [e], k)| == |ItemsOf(es, k)| + (if e.key == k then 1 else 0)
  {
    Snoc(es, e);
  }

  lemma {:induction false} ItemTotalSnocEntry<K(!new), H, I>(es: seq<Entry<K, H, I>>, e: Entry<K, H, I>, ks: seq<K>)
    requires forall a, b :: 0 <= a < b < |ks| ==> ks[a] != ks[b]
    ensures ItemTotal(es + [e], ks) == ItemTotal(es, ks) + (if e.key in ks then 1 else 0)
    decreases |ks|
  {
    if ks != [] {
      var rest := ks[1..];
      assert forall a, b :: 0 <= a < b < |rest| ==> rest[a] != rest[b] by {
        forall a, b | 0 <= a < b < |rest| ensures rest[a] != rest[b] {
          assert rest[a] == ks[a + 1] && rest[b] == ks[b + 1];
        }
      }
      ItemTotalSnocEntry(es, e, rest);
      ItemsSnocCount(es, e, ks[0]);
      assert e.key in ks <==> e.key == ks[0] || e.key in rest by {
        assert ks == [ks[0]] + rest;
      }
      if e.key == ks[0] {
        assert e.key !in rest by {
          forall b | 0 <= b < |rest| ensures rest[b] != e.key {
            assert rest[b] == ks[b + 1];
          }
        }
      }
    }
  }

  /** Every entry becomes exactly one item of exactly one group. */
  lemma {:induction false} EveryEntryIsOneItem<K(!new), H, I>(es: seq<Entry<K, H, I>>)
    ensures ItemTotal(es, Keys(es)) == |es|
    decreases |es|
  {
    if es != [] {
      var n := |es| - 1;
      var e := es[n];
      assert es == es[..n] + [e];
      EveryEntryIsOneItem(es[..n]);
      Snoc(es[..n], e);
      var ks := Keys(es[..n]);
      ItemTotalSnocEntry(es[..n], e, ks);
      if e.key !in ks {
        ItemTotalSnocKey(es, ks, e.key);
        assert !Occurs(es[..n], e.key);
        assert ItemsOf(es[..n], e.key) == [] by { NoItemsUnlessOccurs(es[..n], e.key); }
      }
    }
  }

  lemma {:induction false} NoItemsUnlessOccurs<K(!new), H, I>(es: seq<Entry<K, H, I>>, k: K)
    requires !Occurs(es, k)
    ensures ItemsOf(es, k) == []
    decreases |es|
  {
    if es != [] {
      var n := |es| - 1;
      assert es == es[..n] + [es[n]];
      Snoc(es[..n], es[n]);
      NoItemsUnlessOccurs(es[..n], k);
    }
  }

  /** The dictionary a fetch loop builds: for each key, the value `mk` makes
      from the key's header and items. */
  function Groups<K(==,!new), H, I, T>(es: seq<Entry<K, H, I>>, mk: (H, seq<I>) -> T): map<K, T> {
    map k | k in Keys(es) :: mk(HeaderOf(es, k), ItemsOf(es, k))
  }

  /** Folding in an entry whose key is already present: that key's value is
      remade from its first header and the items extended by the entry's
      item; no other key changes. */
  lemma GroupsSnocOld<K(!new), H, I, T>(es: seq<Entry<K, H, I>>, e: Entry<K, H, I>, mk: (H, seq<I>) -> T)
    requires Occurs(es, e.key)
    ensures Groups(es + [e], mk) == Groups(es, mk)[e.key := mk(HeaderOf(es, e.key), ItemsOf(es, e.key) + [e.item])]
  {
    Snoc(es, e);
    var es' := es + [e];
    var l := Groups(es', mk);
    var r := Groups(es, mk)[e.key := mk(HeaderOf(es, e.key), ItemsOf(es, e.key) + [e.item])];
    assert Keys(es') == Keys(es);
    forall k | k in l ensures k in r && l[k] == r[k] {
      assert Occurs(es, k);
      assert HeaderOf(es', k) == HeaderOf(es, k);
      if k != e.key {
        assert ItemsOf(es', k) == ItemsOf(es, k) + [];
        assert ItemsOf(es', k) == ItemsOf(es, k);
      }
    }
    forall k | k in r ensures k in l {
    }
  }

  /** Folding in an entry with a new key adds that key with the entry's header
      and its one item; no other key changes. */
  lemma GroupsSnocNew<K(!new), H, I, T>(es: seq<Entry<K, H, I>>, e: Entry<K, H, I>, mk: (H, seq<I>) -> T)
    requires !Occurs(es, e.key)
    ensures Groups(es + [e], mk) == Groups(es, mk)[e.key := mk(e.header, [e.item])]
  {
    Snoc(es, e);
    NoItemsUnlessOccurs(es, e.key);
    var es' := es + [e];
    var l := Groups(es', mk);
    var r := Groups(es, mk)[e.key := mk(e.header, [e.item])];
    forall k | k in l ensures k in r && l[k] == r[k] {
      if k != e.key {
        assert Occurs(es, k);
        assert HeaderOf(es', k) == HeaderOf(es, k);
        assert ItemsOf(es', k) == ItemsOf(es, k) + [];
        assert ItemsOf(es', k) == ItemsOf(es, k);
      } else {
        assert HeaderOf(es', k) == e.header;
        assert ItemsOf(es', k) == [] + [e.item];
        assert ItemsOf(es', k) == [e.item];
      }
      assert l[k] == mk(HeaderOf(es', k), ItemsOf(es', k));
    }
    forall k | k in r ensures k in l {
    }
  }

  /** What a fetch loop sees of the group of an entry's key before and after
      folding the entry in: a new key gets the entry's header and its one
      item, a present key keeps its header and has the item appended. */
  lemma FoldKey<K(!new), H, I, T>(es: seq<Entry<K, H, I>>, e: Entry<K, H, I>, mk: (H, seq<I>) -> T)
    ensures Occurs(es + [e], e.key)
    ensures e.key in Groups(es, mk) <==> Occurs(es, e.key)
    ensures Keys(es + [e]) == if e.key in Groups(es, mk) then Keys(es) else Keys(es) + [e.key]
    ensures e.key in Groups(es, mk) ==>
      HeaderOf(es + [e], e.key) == HeaderOf(es, e.key) &&
      ItemsOf(es + [e], e.key) == ItemsOf(es, e.key) + [e.item] &&
      Groups(es, mk)[e.key] == mk(HeaderOf(es, e.key), ItemsOf(es, e.key))
    ensures e.key !in Groups(es, mk) ==>
      HeaderOf(es + [e], e.key) == e.header && ItemsOf(es + [e], e.key) == [e.item]
  {
    Snoc(es, e);
    if !Occurs(es, e.key) {
      NoItemsUnlessOccurs(es, e.key);
      assert ItemsOf(es + [e], e.key) == [] + [e.item];
    }
  }

  /** The dictionary step of a fetch loop: once the entry's key holds the
      value made from its updated group, the dictionary is the grouping of
      the longer sequence; no other key changes. */
  lemma FoldAt<K(!new), H, I, T>(es: seq<Entry<K, H, I>>, e: Entry<K, H, I>, mk: (H, seq<I>) -> T, v: T)
    requires Occurs(es + [e], e.key)
    requires v == mk(HeaderOf(es + [e], e.key), ItemsOf(es + [e], e.key))
    ensures Groups(es + [e], mk) == Groups(es, mk)[e.key := v]
  {
    SnocAtKey(es, e);
    if Occurs(es, e.key) {
      GroupsSnocOld(es, e, mk);
    } else {
      GroupsSnocNew(es, e, mk);
      NoItemsUnlessOccurs(es, e.key);
      assert ItemsOf(es + [e], e.key) == [] + [e.item];
    }
  }

  /** The part of `Snoc` about the entry's own key. */
  lemma SnocAtKey<K(!new), H, I>(es: seq<Entry<K, H, I>>, e: Entry<K, H, I>)
    ensures ItemsOf(es + [e], e.key) == ItemsOf(es, e.key) + [e.item]
    ensures Occurs(es, e.key) ==> HeaderOf(es + [e], e.key) == HeaderOf(es, e.key)
    ensures !Occurs(es, e.key) ==> HeaderOf(es + [e], e.key) == e.header
  {
    Snoc(es, e);
  }

  /** The values of `byKey` listed in the order of `order`: Python's
      `list(d.values())` for a dictionary whose insertion order is `order`. */
  function InOrder<K, T>(order: seq<K>, byKey: map<K, T>): (vs: seq<T>)
    requires forall k :: k in order ==> k in byKey
    ensures |vs| == |order|
    ensures forall j :: 0 <= j < |order| ==> vs[j] == byKey[order[j]]
  {
    seq(|order|, j requires 0 <= j < |order| => byKey[order[j]])
  }

  /** The groups, one value per distinct key, in order of first appearance. */
  function Grouped<K(==,!new), H, I, T>(es: seq<Entry<K, H, I>>, mk: (H, seq<I>) -> T): seq<T> {
    InOrder(Keys(es), Groups(es, mk))
  }

  /** Group `j` is made from the header and items of the `j`-th distinct key. */
  lemma GroupedAt<K(!new), H, I, T>(es: seq<Entry<K, H, I>>, mk: (H, seq<I>) -> T, j: nat)
    requires j < |Keys(es)|
    ensures |Grouped(es, mk)| == |Keys(es)|
    ensures Grouped(es, mk)[j] == mk(HeaderOf(es, Keys(es)[j]), ItemsOf(es, Keys(es)[j]))
  {
  }

  /** Every entry's item is among the items of its key. */
  lemma {:induction false} ItemInItemsOf<K(!new), H, I>(es: seq<Entry<K, H, I>>, j: nat)
    requires j < |es|
    ensures es[j].item in ItemsOf(es, es[j].key)
  {
    var n := |es| - 1;
    assert es == es[..n] + [es[n]];
    Snoc(es[..n], es[n]);
    if j < n {
      assert es[..n][j] == es[j];
      ItemInItemsOf(es[..n], j);
    }
  }
}

=== FILE: kds_view.dfy ===
/**
 * The main kitchen display (KDS_WS/KDS.js): it keeps the tickets of its own
 * station, filters them by order type and item state, renders one card per
 * ticket (KOT view) or per item (ITEM view), marks a card accepted when all
 * its items are acknowledged, and turns clicks into `toggle_item` and
 * `ack_ticket` commands while updating its own copy of the tickets.
 *
 * The screen works on the tickets the server sends (`KdsTicket`); an item's
 * `ack_status` is its `ack` number and `i_code` its code.
 */
module KdsView {
  import opened Optional
  import opened Records
  import opened Commands
  import opened Filtering

  // ------------------------------------------------------------- receiving

  /** A ticket as received, with its optional `kds_name` field. */
  datatype Incoming = Incoming(kdsName: Option<string>, ticket: KdsTicket)

  /** `t.kds_name === kdsName || !t.kds_name`: a ticket for this station, or
      one that names no station (absent or empty). */
  predicate ForStation(kdsName: string, x: Incoming) {
    x.kdsName == Some(kdsName) || x.kdsName.None? || x.kdsName == Some("")
  }

  /** The received tickets this station keeps, in the order received. */
  function StationTickets(kdsName: string, incoming: seq<Incoming>): (kept: seq<KdsTicket>)
    ensures |kept| <= |incoming|
  {
    if incoming == [] then []
    else
      var n := |incoming| - 1;
      StationTickets(kdsName, incoming[..n]) + (if ForStation(kdsName, incoming[n]) then [incoming[n].ticket] else [])
  }

  /** A kept ticket came in for this station or for none, and every such
      ticket is kept. */
  lemma {:induction false} StationTicketsExactly(kdsName: string, incoming: seq<Incoming>)
    ensures forall t :: t in StationTickets(kdsName, incoming) <==>
      exists j :: 0 <= j < |incoming| && ForStation(kdsName, incoming[j]) && incoming[j].ticket == t
  {
    if incoming != [] {
      var n := |incoming| - 1;
      StationTicketsExactly(kdsName, incoming[..n]);
      assert forall j :: 0 <= j < n ==> incoming[..n][j] == incoming[j];
      forall t ensures t in StationTickets(kdsName, incoming) <==>
        exists j :: 0 <= j < |incoming| && ForStation(kdsName, incoming[j]) && incoming[j].ticket == t
      {
        if exists j :: 0 <= j < |incoming| && ForStation(kdsName, incoming[j]) && incoming[j].ticket == t {
          var j :| 0 <= j < |incoming| && ForStation(kdsName, incoming[j]) && incoming[j].ticket == t;
          if j < n {
            assert incoming[..n][j] == incoming[j];
          }
        }
      }
    }
  }

  /** `ForStation` as the filter's callback. */
  function KeepsFor(kdsName: string): Incoming -> bool {
    x => ForStation(kdsName, x)
  }

  /** The station filter is the list filter: ticket `k` kept is the ticket of
      the `k`-th received entry for this station or for none, in the order
      received and with repeats. */
  lemma {:induction false} StationTicketsInOrder(kdsName: string, incoming: seq<Incoming>)
    ensures var ps := Positions(incoming, KeepsFor(kdsName));
      |StationTickets(kdsName, incoming)| == |ps| &&
      forall k :: 0 <= k < |ps| ==> StationTickets(kdsName, incoming)[k] == incoming[ps[k]].ticket
  {
    if incoming != [] {
      var n := |incoming| - 1;
      StationTicketsInOrder(kdsName, incoming[..n]);
      StationTicketsSnoc(kdsName, incoming, StationTickets(kdsName, incoming[..n]));
    }
  }

  /** One more entry: the tickets kept before it, then its ticket when it is
      for this station or for none. */
  lemma StationTicketsSnoc(kdsName: string, incoming: seq<Incoming>, front: seq<KdsTicket>)
    requires incoming != []
    requires var ps := Positions(incoming[..|incoming| - 1], KeepsFor(kdsName));
      |front| == |ps| && forall k :: 0 <= k < |ps| ==> front[k] == incoming[..|incoming| - 1][ps[k]].ticket
    ensures var n := |incoming| - 1; var ps := Positions(incoming, KeepsFor(kdsName));
      var kept := front + (if ForStation(kdsName, incoming[n]) then [incoming[n].ticket] else []);
      |kept| == |ps| && forall k :: 0 <= k < |ps| ==> kept[k] == incoming[ps[k]].ticket
  {
    var n := |incoming| - 1;
    var ps := Positions(incoming[..n], KeepsFor(kdsName));
    assert Positions(incoming, KeepsFor(kdsName)) == ps + (if ForStation(kdsName, incoming[n]) then [n] else []);
    assert forall k :: 0 <= k < |ps| ==> incoming[..n][ps[k]] == incoming[ps[k]];
  }

  /** The tickets as the server sends them: no `kds_name` field. */
  function Unlabelled(tickets: seq<KdsTicket>): (incoming: seq<Incoming>)
    ensures |incoming| == |tickets|
    ensures forall j :: 0 <= j < |tickets| ==> incoming[j] == Incoming(None, tickets[j])
  {
    seq(|tickets|, j requires 0 <= j < |tickets| => Incoming(None, tickets[j]))
  }

  /** The server's tickets carry no station name, so every screen keeps all
      of them, in order. */
  lemma {:induction false} StationKeepsServerTickets(kdsName: string, tickets: seq<KdsTicket>)
    ensures StationTickets(kdsName, Unlabelled(tickets)) == tickets
  {
    if tickets != [] {
      var n := |tickets| - 1;
      assert Unlabelled(tickets)[..n] == Unlabelled(tickets[..n]);
      StationKeepsServerTickets(kdsName, tickets[..n]);
      assert tickets == tickets[..n] + [tickets[n]];
    }
  }

  /** The KOT numbers of a message (`new Set(ticketsData.map(t => t.kot_no))`). */
  function KotsOf(tickets: seq<KdsTicket>): (kots: set<Option<int>>)
    ensures forall k :: k in kots <==> exists j :: 0 <= j < |tickets| && tickets[j].header.kot == k
  {
    set j | 0 <= j < |tickets| :: tickets[j].header.kot
  }

  /** The new-ticket sound plays iff some kept ticket has a KOT number the
      previous message did not have. */
  predicate NewTicketChime(lastIds: set<Option<int>>, tickets: seq<KdsTicket>) {
    exists j :: 0 <= j < |tickets| && tickets[j].header.kot !in lastIds
  }

  // ------------------------------------------------------------- rendering

  datatype View = ItemView | KotView

  /** `filters[key]`: a checkbox that is absent counts as unchecked. */
  predicate Enabled(filters: map<string, bool>, key: string) {
    key in filters && filters[key]
  }

  /** `Number(it.ack_status) === 1 ? "Ready" : "Pending"`. */
  function ItemState(it: KdsItem): string {
    if it.ack == 1 then "Ready" else "Pending"
  }

  predicate ItemShown(filters: map<string, bool>, it: KdsItem) {
    Enabled(filters, ItemState(it))
  }

  /** The positions of the items the state filter keeps, ascending. */
  function KeptIndexes(filters: map<string, bool>, items: seq<KdsItem>): (js: seq<nat>)
    ensures forall k :: 0 <= k < |js| ==> js[k] < |items| && ItemShown(filters, items[js[k]])
    ensures forall j :: 0 <= j < |items| && ItemShown(filters, items[j]) ==> j in js
    ensures forall k, l :: 0 <= k < l < |js| ==> js[k] < js[l]
  {
    Positions(items, it => ItemShown(filters, it))
  }

  /** A ticket is shown when its order type is checked and at least one of
      its items passes the state filter. */
  predicate TicketShown(filters: map<string, bool>, t: KdsTicket) {
    Enabled(filters, t.header.orderType) && KeptIndexes(filters, t.items) != []
  }

  /** A rendered card: what it shows, the position of its ticket and, in ITEM
      view, the position of its one item in that ticket. */
  datatype Card = Card(shown: KdsTicket, ticket: nat, item: Option<nat>)

  /** The cards of ticket `i`: none when it is not shown; in ITEM view one per
      kept item, each the ticket with just that item; in KOT view the ticket
      itself, with all its items. */
  function CardsFor(filters: map<string, bool>, view: View, t: KdsTicket, i: nat): seq<Card> {
    if !TicketShown(filters, t) then []
    else if view == KotView then [Card(t, i, None)]
    else
      var js := KeptIndexes(filters, t.items);
      seq(|js|, k requires 0 <= k < |js| => Card(KdsTicket(t.header, [t.items[js[k]]]), i, Some(js[k])))
  }

  /** The cards of a render, in ticket order. */
  function Cards(filters: map<string, bool>, view: View, tickets: seq<KdsTicket>): seq<Card> {
    if tickets == [] then []
    else
      var n := |tickets| - 1;
      Cards(filters, view, tickets[..n]) + CardsFor(filters, view, tickets[n], n)
  }

  /** `visibleTicketCount`: the number of shown tickets. */
  function ShownCount(filters: map<string, bool>, tickets: seq<KdsTicket>): (count: nat)
    ensures count <= |tickets|
  {
    if tickets == [] then 0
    else
      var n := |tickets| - 1;
      ShownCount(filters, tickets[..n]) + (if TicketShown(filters, tickets[n]) then 1 else 0)
  }

  /** The card is drawn accepted (`ticket_accepted`) iff every item on it is
      acknowledged. */
  predicate Accepted(card: Card) {
    forall j :: 0 <= j < |card.shown.items| ==> card.shown.items[j].ack == 1
  }

  /** The render loop of `renderTickets`, over the tickets in the order given. */
  method RenderCards(tickets: seq<KdsTicket>, filters: map<string, bool>, view: View)
    returns (cards: seq<Card>, count: nat)
    ensures cards == Cards(filters, view, tickets)
    ensures count == ShownCount(filters, tickets)
  {
    cards := [];
    count := 0;
    var i := 0;
    while i < |tickets|
      invariant 0 <= i <= |tickets|
      invariant cards == Cards(filters, view, tickets[..i])
      invariant count == ShownCount(filters, tickets[..i])
    {
      var t := tickets[i];
      RenderStep(filters, view, tickets, i);
      if Enabled(filters, t.header.orderType) {
        var kept := KeptIndexes(filters, t.items);
        if kept != [] {
          count := count + 1;
          cards := cards + CardsFor(filters, view, t, i);
        }
      }
      i := i + 1;
    }
    assert tickets[..i] == tickets;
  }

  /** One pass of the render loop: ticket `i` adds its own cards after those
      of the tickets before it, and counts when it is shown. */
  lemma RenderStep(filters: map<string, bool>, view: View, tickets: seq<KdsTicket>, i: nat)
    requires i < |tickets|
    ensures Cards(filters, view, tickets[..i + 1]) == Cards(filters, view, tickets[..i]) + CardsFor(filters, view, tickets[i], i)
    ensures ShownCount(filters, tickets[..i + 1]) == ShownCount(filters, tickets[..i]) + (if TicketShown(filters, tickets[i]) then 1 else 0)
  {
    assert tickets[..i + 1][..i] == tickets[..i] && tickets[..i + 1][i] == tickets[i];
  }

  /** The cards of one ticket, as `CardsAreShownTickets` states them. */
  lemma CardsForShownTicket(filters: map<string, bool>, view: View, t: KdsTicket, i: nat)
    ensures forall c :: c in CardsFor(filters, view, t, i) ==>
      c.ticket == i && TicketShown(filters, t) &&
      (view == KotView ==> c.item.None? && c.shown == t) &&
      (view == ItemView ==> (c.item.Some? && c.item.value < |t.items| &&
        ItemShown(filters, t.items[c.item.value]) && c.shown == KdsTicket(t.header, [t.items[c.item.value]])))
  {
    var cs := CardsFor(filters, view, t, i);
    forall c | c in cs
      ensures c.ticket == i && TicketShown(filters, t)
      ensures view == KotView ==> c.item.None? && c.shown == t
      ensures view == ItemView ==> (c.item.Some? && c.item.value < |t.items| &&
        ItemShown(filters, t.items[c.item.value]) && c.shown == KdsTicket(t.header, [t.items[c.item.value]]))
    {
      var k :| 0 <= k < |cs| && cs[k] == c;
    }
  }

  /** Every card belongs to a shown ticket. An ITEM-view card carries exactly
      one kept item of its ticket, with the ticket's other fields; a KOT-view
      card is the ticket itself, including items the state filter hides. */
  lemma {:induction false} CardsAreShownTickets(filters: map<string, bool>, view: View, tickets: seq<KdsTicket>)
    ensures forall c :: c in Cards(filters, view, tickets) ==>
      c.ticket < |tickets| && TicketShown(filters, tickets[c.ticket]) &&
      (view == KotView ==> c.item.None? && c.shown == tickets[c.ticket]) &&
      (view == ItemView ==> (c.item.Some? && c.item.value < |tickets[c.ticket].items| &&
        ItemShown(filters, tickets[c.ticket].items[c.item.value]) &&
        c.shown == KdsTicket(tickets[c.ticket].header, [tickets[c.ticket].items[c.item.value]])))
  {
    if tickets != [] {
      var n := |tickets| - 1;
      var front := tickets[..n];
      CardsAreShownTickets(filters, view, front);
      CardsForShownTicket(filters, view, tickets[n], n);
      forall c | c in Cards(filters, view, tickets)
        ensures c.ticket < |tickets| && TicketShown(filters, tickets[c.ticket])
        ensures view == KotView ==> c.item.None? && c.shown == tickets[c.ticket]
        ensures view == ItemView ==> (c.item.Some? && c.item.value < |tickets[c.ticket].items| &&
          ItemShown(filters, tickets[c.ticket].items[c.item.value]) &&
          c.shown == KdsTicket(tickets[c.ticket].header, [tickets[c.ticket].items[c.item.value]]))
      {
        if c in Cards(filters, view, front) {
          assert front[c.ticket] == tickets[c.ticket];
        }
      }
    }
  }

  /** In ITEM view, each kept item of a shown ticket has its own card. */
  lemma CardsForCoverItems(filters: map<string, bool>, t: KdsTicket, i: nat)
    requires TicketShown(filters, t)
    ensures forall j :: 0 <= j < |t.items| && ItemShown(filters, t.items[j]) ==>
      Card(KdsTicket(t.header, [t.items[j]]), i, Some(j)) in CardsFor(filters, ItemView, t, i)
  {
    var js := KeptIndexes(filters, t.items);
    var cs := CardsFor(filters, ItemView, t, i);
    forall j | 0 <= j < |t.items| && ItemShown(filters, t.items[j])
      ensures Card(KdsTicket(t.header, [t.items[j]]), i, Some(j)) in cs
    {
      var k :| 0 <= k < |js| && js[k] == j;
      assert cs[k] == Card(KdsTicket(t.header, [t.items[j]]), i, Some(j));
    }
  }

  /** The cards of the first `m` tickets are a prefix of the render's cards. */
  lemma {:induction false} CardsPrefix(filters: map<string, bool>, view: View, tickets: seq<KdsTicket>, m: nat)
    requires m <= |tickets|
    ensures Cards(filters, view, tickets[..m]) <= Cards(filters, view, tickets)
  {
    if m < |tickets| {
      var n := |tickets| - 1;
      CardsPrefix(filters, view, tickets[..n], m);
      assert tickets[..n][..m] == tickets[..m];
      var front := Cards(filters, view, tickets[..n]);
      assert front <= Cards(filters, view, tickets);
    } else {
      assert tickets[..m] == tickets;
    }
  }

  /** What a suffix of a prefix holds, the whole sequence holds. */
  lemma InPrefixPart<T>(front: seq<T>, part: seq<T>, all: seq<T>)
    requires front + part <= all
    ensures forall c :: c in part ==> c in all
  {
    forall c | c in part ensures c in all {
      var k :| 0 <= k < |part| && part[k] == c;
      assert all[|front| + k] == (front + part)[|front| + k];
    }
  }

  /** The cards of ticket `i` are among the cards of the render. */
  lemma CardsForInCards(filters: map<string, bool>, view: View, tickets: seq<KdsTicket>, i: nat)
    requires i < |tickets|
    ensures forall c :: c in CardsFor(filters, view, tickets[i], i) ==> c in Cards(filters, view, tickets)
  {
    var upTo := tickets[..i + 1];
    CardsPrefix(filters, view, tickets, i + 1);
    assert upTo[..i] == tickets[..i] && upTo[i] == tickets[i];
    InPrefixPart(Cards(filters, view, tickets[..i]), CardsFor(filters, view, tickets[i], i), Cards(filters, view, tickets));
  }

  /** Nothing that passes the filters is left out in ITEM view: every kept
      item of a ticket whose order type is checked has its card. */
  lemma ItemCardsCoverKeptItems(filters: map<string, bool>, tickets: seq<KdsTicket>)
    ensures forall i, j :: (0 <= i < |tickets| && Enabled(filters, tickets[i].header.orderType) &&
      0 <= j < |tickets[i].items| && ItemShown(filters, tickets[i].items[j])) ==>
      Card(KdsTicket(tickets[i].header, [tickets[i].items[j]]), i, Some(j)) in Cards(filters, ItemView, tickets)
  {
    forall i, j | 0 <= i < |tickets| && Enabled(filters, tickets[i].header.orderType) &&
      0 <= j < |tickets[i].items| && ItemShown(filters, tickets[i].items[j])
      ensures Card(KdsTicket(tickets[i].header, [tickets[i].items[j]]), i, Some(j)) in Cards(filters, ItemView, tickets)
    {
      assert j in KeptIndexes(filters, tickets[i].items);
      CardsForCoverItems(filters, tickets[i], i);
      CardsForInCards(filters, ItemView, tickets, i);
    }
  }

  /** Nothing that passes the filters is left out in KOT view: every shown
      ticket has its card. */
  lemma KotCardsCoverShownTickets(filters: map<string, bool>, tickets: seq<KdsTicket>)
    ensures forall i :: 0 <= i < |tickets| && TicketShown(filters, tickets[i]) ==>
      Card(tickets[i], i, None) in Cards(filters, KotView, tickets)
  {
    forall i | 0 <= i < |tickets| && TicketShown(filters, tickets[i])
      ensures Card(tickets[i], i, None) in Cards(filters, KotView, tickets)
    {
      CardsForInCards(filters, KotView, tickets, i);
    }
  }

  /** The count counts tickets, not cards: it equals the number of cards in
      KOT view and never exceeds it in ITEM view. */
  lemma {:induction false} CountCountsTickets(filters: map<string, bool>, view: View, tickets: seq<KdsTicket>)
    ensures view == KotView ==> ShownCount(filters, tickets) == |Cards(filters, view, tickets)|
    ensures ShownCount(filters, tickets) <= |Cards(filters, view, tickets)|
  {
    if tickets != [] {
      CountCountsTickets(filters, view, tickets[..|tickets| - 1]);
    }
  }

  /** An ITEM-view card is accepted iff its item is acknowledged; a KOT-view
      card iff every item of the ticket is, the hidden ones included. */
  lemma CardAcceptance(filters: map<string, bool>, view: View, tickets: seq<KdsTicket>, c: Card)
    requires c in Cards(filters, view, tickets)
    ensures c.ticket < |tickets|
    ensures view == ItemView ==> (c.item.Some? && c.item.value < |tickets[c.ticket].items| &&
      (Accepted(c) <==> tickets[c.ticket].items[c.item.value].ack == 1))
    ensures view == KotView ==>
      (Accepted(c) <==> forall j :: 0 <= j < |tickets[c.ticket].items| ==> tickets[c.ticket].items[j].ack == 1)
  {
    CardsAreShownTickets(filters, view, tickets);
    if view == ItemView {
      assert c.shown.items == [tickets[c.ticket].items[c.item.value]];
      assert c.shown.items[0] == tickets[c.ticket].items[c.item.value];
    }
  }

  // -------------------------------------------------------------- commands

  /** JavaScript's `String(kot_no)`: a missing KOT renders as "null". */
  function KotText(kot: Option<int>): string {
    match kot
    case None => "null"
    case Some(n) => IntText(n)
  }

  /** `tickets.find(...)`: the first ticket whose KOT renders as `kotText`. */
  function FirstTicket(tickets: seq<KdsTicket>, kotText: string): (r: Option<nat>)
    ensures r.Some? ==> r.value < |tickets| && KotText(tickets[r.value].header.kot) == kotText
    ensures r.Some? ==> forall j :: 0 <= j < r.value ==> KotText(tickets[j].header.kot) != kotText
    ensures r.None? ==> forall j :: 0 <= j < |tickets| ==> KotText(tickets[j].header.kot) != kotText
  {
    var keys := seq(|tickets|, j requires 0 <= j < |tickets| => KotText(tickets[j].header.kot));
    assert forall j :: 0 <= j < |tickets| ==> keys[j] == KotText(tickets[j].header.kot);
    FirstIndex(keys, kotText)
  }

  /** `ticket.items.find(...)`: the first item with code `code`. */
  function FirstItem(items: seq<KdsItem>, code: string): (r: Option<nat>)
    ensures r.Some? ==> r.value < |items| && items[r.value].code == code
    ensures r.Some? ==> forall j :: 0 <= j < r.value ==> items[j].code != code
    ensures r.None? ==> forall j :: 0 <= j < |items| ==> items[j].code != code
  {
    var keys := seq(|items|, j requires 0 <= j < |items| => items[j].code);
    assert forall j :: 0 <= j < |items| ==> keys[j] == items[j].code;
    FirstIndex(keys, code)
  }

  /** The ticket and item positions a `toggleItem` click changes, if any. */
  function ToggleTarget(tickets: seq<KdsTicket>, kotText: string, code: string): (r: Option<(nat, nat)>)
    ensures r.Some? ==> r.value.0 < |tickets| && r.value.1 < |tickets[r.value.0].items|
  {
    match FirstTicket(tickets, kotText)
    case None => None
    case Some(i) =>
      match FirstItem(tickets[i].items, code)
      case None => None
      case Some(j) => Some((i, j))
  }

  /** `Number(ack_status) === 1 ? 0 : 1`. */
  function Flip(ack: int): int {
    if ack == 1 then 0 else 1
  }

  /** The tickets after a `toggleItem` click. */
  function Toggled(tickets: seq<KdsTicket>, kotText: string, code: string): seq<KdsTicket> {
    match ToggleTarget(tickets, kotText, code)
    case None => tickets
    case Some((i, j)) =>
      var t := tickets[i];
      tickets[i := t.(items := t.items[j := t.items[j].(ack := Flip(t.items[j].ack))])]
  }

  /** A toggle flips the acknowledgement of exactly its target item and
      changes nothing else; with no target it changes nothing. */
  lemma ToggleFlipsOneItem(tickets: seq<KdsTicket>, kotText: string, code: string)
    ensures var r := Toggled(tickets, kotText, code);
      |r| == |tickets| &&
      (forall i :: 0 <= i < |tickets| ==> r[i].header == tickets[i].header && |r[i].items| == |tickets[i].items|) &&
      (forall i, j :: 0 <= i < |tickets| && 0 <= j < |tickets[i].items| ==>
        r[i].items[j] == if ToggleTarget(tickets, kotText, code) == Some((i, j))
          then tickets[i].items[j].(ack := Flip(tickets[i].items[j].ack))
          else tickets[i].items[j])
  {
  }

  /** There is a target iff the first ticket whose KOT renders as `kotText`
      has an item with that code; the target is then that ticket and its
      first such item. */
  lemma ToggleTargetFound(tickets: seq<KdsTicket>, kotText: string, code: string)
    ensures ToggleTarget(tickets, kotText, code).Some? <==>
      (exists i, j :: 0 <= i < |tickets| && 0 <= j < |tickets[i].items| &&
        KotText(tickets[i].header.kot) == kotText && tickets[i].items[j].code == code &&
        (forall i' :: 0 <= i' < i ==> KotText(tickets[i'].header.kot) != kotText))
    ensures ToggleTarget(tickets, kotText, code).Some? ==>
      var (i, j) := ToggleTarget(tickets, kotText, code).value;
      KotText(tickets[i].header.kot) == kotText && tickets[i].items[j].code == code &&
      (forall i' :: 0 <= i' < i ==> KotText(tickets[i'].header.kot) != kotText) &&
      (forall j' :: 0 <= j' < j ==> tickets[i].items[j'].code != code)
  {
    match FirstTicket(tickets, kotText)
    case None =>
    case Some(i) =>
      if exists i1, j1 :: (0 <= i1 < |tickets| && 0 <= j1 < |tickets[i1].items| &&
        KotText(tickets[i1].header.kot) == kotText && tickets[i1].items[j1].code == code &&
        (forall i' :: 0 <= i' < i1 ==> KotText(tickets[i'].header.kot) != kotText))
      {
        var i1, j1 :| 0 <= i1 < |tickets| && 0 <= j1 < |tickets[i1].items| &&
          KotText(tickets[i1].header.kot) == kotText && tickets[i1].items[j1].code == code &&
          (forall i' :: 0 <= i' < i1 ==> KotText(tickets[i'].header.kot) != kotText);
        assert i1 == i;
        assert tickets[i].items[j1].code == code;
      }
      match FirstItem(tickets[i].items, code)
      case None =>
      case Some(j) =>
        assert tickets[i].items[j].code == code;
  }

  /** Toggling the same item twice gives the tickets back when its
      acknowledgement was 0 or 1. */
  lemma ToggleTwice(tickets: seq<KdsTicket>, kotText: string, code: string)
    requires ToggleTarget(tickets, kotText, code).Some?
    requires var (i, j) := ToggleTarget(tickets, kotText, code).value; tickets[i].items[j].ack in {0, 1}
    ensures Toggled(Toggled(tickets, kotText, code), kotText, code) == tickets
  {
    var (i, j) := ToggleTarget(tickets, kotText, code).value;
    var once := Toggled(tickets, kotText, code);
    ToggleFlipsOneItem(tickets, kotText, code);
    ToggleTargetFound(tickets, kotText, code);
    assert forall i1 :: 0 <= i1 < |once| ==> KotText(once[i1].header.kot) == KotText(tickets[i1].header.kot);
    assert FirstTicket(once, kotText) == Some(i);
    assert forall j1 :: 0 <= j1 < |once[i].items| ==> once[i].items[j1].code == tickets[i].items[j1].code;
    assert FirstItem(once[i].items, code) == Some(j);
    var twice := Toggled(once, kotText, code);
    assert twice[i].items == tickets[i].items;
    assert twice[i] == tickets[i];
  }

  /** The `toggle_item` message, sent on every path: the KOT, bill and code
      as the card rendered them. */
  datatype ToggleRequest = ToggleRequest(kotText: string, billText: string, code: string)

  /** An `ack_ticket` message: the ticket's KOT, its bill (or ""), and the
      codes of the clicked items. */
  datatype AckRequest = AckRequest(kot: Option<int>, bill: string, codes: seq<string>)

  /** The command the server decodes from an ack request. */
  function AckItems(codes: seq<string>): (items: seq<AckItem>)
    ensures |items| == |codes|
    ensures forall j :: 0 <= j < |codes| ==> items[j] == AckItem(Some(codes[j]))
  {
    seq(|codes|, j requires 0 <= j < |codes| => AckItem(Some(codes[j])))
  }

  /** The server accepts exactly the non-empty codes a card click sends: an
      item without a code is never accepted. */
  lemma AckAcceptsSentCodes(codes: seq<string>)
    ensures forall c :: c in Codes(AckItems(codes)) <==> c in codes && c != ""
  {
    var items := AckItems(codes);
    CodesAreTheCodedItems(items);
    forall c | c in codes && c != "" ensures c in Codes(items) {
      var j :| 0 <= j < |codes| && codes[j] == c;
      assert HasCode(items[j]) && items[j].code.value == c;
    }
  }

  /** Every item acknowledged. */
  function AllAcked(t: KdsTicket): (r: KdsTicket)
    ensures r.header == t.header && |r.items| == |t.items|
    ensures forall j :: 0 <= j < |t.items| ==> r.items[j] == t.items[j].(ack := 1)
  {
    t.(items := seq(|t.items|, j requires 0 <= j < |t.items| => t.items[j].(ack := 1)))
  }

  /** The codes of a ticket's items, in order. */
  function ItemCodes(items: seq<KdsItem>): (codes: seq<string>)
    ensures |codes| == |items|
    ensures forall j :: 0 <= j < |items| ==> codes[j] == items[j].code
  {
    seq(|items|, j requires 0 <= j < |items| => items[j].code)
  }

  // ----------------------------------------------------------------- sorting

  datatype SortKey = ByTime | ByTable

  /** `sortBy` and `sortAsc`. */
  datatype SortState = SortState(key: SortKey, asc: bool)

  /** The sort-time button: it reverses the direction when already sorting
      by time, otherwise it switches to time sort, newest first. */
  function TimeClicked(s: SortState): SortState {
    if s.key == ByTime then s.(asc := !s.asc) else SortState(ByTime, false)
  }

  /** After a click the screen sorts by time; a first click from table sort
      is descending, and two clicks while sorting by time cancel out. */
  lemma TimeClicks(s: SortState)
    ensures TimeClicked(s).key == ByTime
    ensures s.key == ByTable ==> !TimeClicked(s).asc
    ensures s.key == ByTime ==> TimeClicked(TimeClicked(s)) == s && TimeClicked(s).asc != s.asc
  {
  }

  // ------------------------------------------------------------ the screen

  class KdsScreen {
    /** The station this screen shows (`kdsName`). */
    var kdsName: string
    /** The station's tickets from the last message, as updated by clicks. */
    var tickets: seq<KdsTicket>
    /** The KOT numbers of the last message (`lastTicketIds`). */
    var lastTicketIds: set<Option<int>>
    /** The checkbox states, by value (order types and item states). */
    var filters: map<string, bool>
    var sort: SortState
    var view: View

    /** The page's start: the stored station name or "", the checkboxes as
        the page has them, time sort newest first, ITEM view. */
    constructor (stored: Option<string>, checkboxes: map<string, bool>)
      ensures kdsName == stored.GetOr("") && filters == checkboxes
      ensures tickets == [] && lastTicketIds == {}
      ensures sort == SortState(ByTime, false) && view == ItemView
    {
      kdsName := stored.GetOr("");
      filters := checkboxes;
      tickets := [];
      lastTicketIds := {};
      sort := SortState(ByTime, false);
      view := ItemView;
    }

    /** `ws.onopen`: the stored station name, or "NONE" when there is none or
        it is empty, becomes the screen's station and is sent in `init_kds`. */
    method Open(stored: Option<string>) returns (initName: string)
      modifies this
      ensures initName == (if stored.None? || stored.value == "" then "NONE" else stored.value)
      ensures kdsName == initName && initName != ""
      ensures tickets == old(tickets) && lastTicketIds == old(lastTicketIds) && filters == old(filters)
      ensures sort == old(sort) && view == old(view)
    {
      if stored.None? || stored.value == "" {
        initName := "NONE";
      } else {
        initName := stored.value;
      }
      kdsName := initName;
    }

    /** `ws.onmessage`: keep the station's tickets (none when the message has
        no ticket list), chime iff one of them has a KOT the last message did
        not have, and remember the KOTs. */
    method Receive(incoming: Option<seq<Incoming>>) returns (chime: bool)
      modifies this
      ensures tickets == StationTickets(kdsName, incoming.GetOr([]))
      ensures chime == NewTicketChime(old(lastTicketIds), tickets)
      ensures lastTicketIds == KotsOf(tickets)
      ensures kdsName == old(kdsName) && filters == old(filters) && sort == old(sort) && view == old(view)
    {
      tickets := StationTickets(kdsName, incoming.GetOr([]));
      chime := exists j :: 0 <= j < |tickets| && tickets[j].header.kot !in lastTicketIds;
      lastTicketIds := KotsOf(tickets);
    }

    /** `renderTickets`, over the tickets in the order received: the sort by
        time or table that precedes the loop is not modelled. */
    method Render() returns (cards: seq<Card>, count: nat)
      ensures cards == Cards(filters, view, tickets)
      ensures count == ShownCount(filters, tickets)
    {
      cards, count := RenderCards(tickets, filters, view);
    }

    /** A filter checkbox changes. */
    method SetFilter(key: string, checked: bool)
      modifies this
      ensures filters == old(filters)[key := checked]
      ensures kdsName == old(kdsName) && tickets == old(tickets) && lastTicketIds == old(lastTicketIds)
      ensures sort == old(sort) && view == old(view)
    {
      filters := filters[key := checked];
    }

    /** The sort-time button. */
    method ClickSortTime()
      modifies this
      ensures sort == TimeClicked(old(sort))
      ensures kdsName == old(kdsName) && tickets == old(tickets) && lastTicketIds == old(lastTicketIds)
      ensures filters == old(filters) && view == old(view)
    {
      if sort.key == ByTime {
        sort := sort.(asc := !sort.asc);
      } else {
        sort := SortState(ByTime, false);
      }
    }

    /** The sort-table button: table sort, direction kept. */
    method ClickSortTable()
      modifies this
      ensures sort == old(sort).(key := ByTable)
      ensures kdsName == old(kdsName) && tickets == old(tickets) && lastTicketIds == old(lastTicketIds)
      ensures filters == old(filters) && view == old(view)
    {
      sort := sort.(key := ByTable);
    }

    /** The view button switches between KOT and ITEM view. */
    method ClickView()
      modifies this
      ensures view == (if old(view) == KotView then ItemView else KotView)
      ensures kdsName == old(kdsName) && tickets == old(tickets) && lastTicketIds == old(lastTicketIds)
      ensures filters == old(filters) && sort == old(sort)
    {
      if view == KotView {
        view := ItemView;
      } else {
        view := KotView;
      }
    }

    /** `toggleItem`: flip the first matching item of the first matching
        ticket, if there is one; the command is sent either way. */
    method ToggleItem(kotText: string, billText: string, code: string) returns (msg: ToggleRequest)
      modifies this
      ensures tickets == Toggled(old(tickets), kotText, code)
      ensures msg == ToggleRequest(kotText, billText, code)
      ensures kdsName == old(kdsName) && lastTicketIds == old(lastTicketIds)
      ensures filters == old(filters) && sort == old(sort) && view == old(view)
    {
      msg := ToggleRequest(kotText, billText, code);
      var i := FirstTicket(tickets, kotText);
      if i.None? {
        return;
      }
      var t := tickets[i.value];
      var j := FirstItem(t.items, code);
      if j.None? {
        return;
      }
      var it := t.items[j.value];
      var ack := if it.ack == 1 then 0 else 1;
      tickets := tickets[i.value := t.(items := t.items[j.value := it.(ack := ack)])];
    }

    /** A click on an ITEM-view card: its item (the ticket's own item, not a
        copy) is acknowledged and an ack for that one code is sent. */
    method AckItemCard(i: nat, j: nat) returns (msg: AckRequest)
      requires i < |tickets| && j < |tickets[i].items|
      modifies this
      ensures tickets == old(tickets)[i := old(tickets)[i].(items := old(tickets)[i].items[j := old(tickets)[i].items[j].(ack := 1)])]
      ensures msg == AckRequest(old(tickets)[i].header.kot, old(tickets)[i].header.bill.GetOr(""), [old(tickets)[i].items[j].code])
      ensures kdsName == old(kdsName) && lastTicketIds == old(lastTicketIds)
      ensures filters == old(filters) && sort == old(sort) && view == old(view)
    {
      var t := tickets[i];
      var item := t.items[j];
      tickets := tickets[i := t.(items := t.items[j := item.(ack := 1)])];
      msg := AckRequest(t.header.kot, t.header.bill.GetOr(""), [item.code]);
    }

    /** A click on a KOT-view card: every item of the ticket is acknowledged
        and an ack listing all their codes is sent. */
    method AckTicketCard(i: nat) returns (msg: AckRequest)
      requires i < |tickets|
      modifies this
      ensures tickets == old(tickets)[i := AllAcked(old(tickets)[i])]
      ensures msg == AckRequest(old(tickets)[i].header.kot, old(tickets)[i].header.bill.GetOr(""), ItemCodes(old(tickets)[i].items))
      ensures kdsName == old(kdsName) && lastTicketIds == old(lastTicketIds)
      ensures filters == old(filters) && sort == old(sort) && view == old(view)
    {
      var t := tickets[i];
      tickets := tickets[i := AllAcked(t)];
      msg := AckRequest(t.header.kot, t.header.bill.GetOr(""), ItemCodes(t.items));
    }
  }

  /** After a KOT-view click the clicked ticket's card, if still shown, is
      drawn accepted. */
  lemma AckedTicketIsAccepted(filters: map<string, bool>, tickets: seq<KdsTicket>, i: nat)
    requires i < |tickets|
    ensures var after := tickets[i := AllAcked(tickets[i])];
      forall c :: c in Cards(filters, KotView, after) && c.ticket == i ==> Accepted(c)
  {
    var after := tickets[i := AllAcked(tickets[i])];
    CardsAreShownTickets(filters, KotView, after);
  }
}

=== FILE: legacy_kds_view.dfy ===
/**
 * The older kitchen display (kds_ws/KDS.js): every received ticket is kept,
 * items are filtered by their status label, a ticket becomes one card (KOT
 * view, holding only the filtered items) or one card per filtered item (ITEM
 * view), a card is drawn accepted when the whole ticket is acknowledged, and
 * a click acknowledges the whole ticket locally while sending an `ack_ticket`
 * without an item list.
 */
module LegacyKdsView {
  import opened Optional
  import opened Records
  import opened Server
  import opened Filtering
  import KdsView

  /** The filter checkboxes start all checked. */
  const INITIAL_FILTERS: map<string, bool> := map["Pending" := true, "Ready" := true, "Delivered" := true]

  /** `filters[it.status]`. */
  predicate ItemPasses(filters: map<string, bool>, it: KdsItem) {
    KdsView.Enabled(filters, it.status)
  }

  /** `ticket.items.filter(...)`: the items whose status label is checked, in order. */
  function FilteredItems(filters: map<string, bool>, items: seq<KdsItem>): (kept: seq<KdsItem>)
    ensures |kept| <= |items|
    ensures forall it :: it in kept <==> it in items && ItemPasses(filters, it)
  {
    if items == [] then []
    else
      var n := |items| - 1;
      assert items == items[..n] + [items[n]];
      FilteredItems(filters, items[..n]) + (if ItemPasses(filters, items[n]) then [items[n]] else [])
  }

  /** `ItemPasses` as the filter's callback. */
  function Passes(filters: map<string, bool>): KdsItem -> bool {
    it => ItemPasses(filters, it)
  }

  /** The filtered items are the list filter by the checkboxes: kept in
      order and with repeats, item `k` being the item at the `k`-th passing
      position, so a KOT card lists them as the ticket does. */
  lemma {:induction false} FilteredItemsInOrder(filters: map<string, bool>, items: seq<KdsItem>)
    ensures FilteredItems(filters, items) == Filter(items, Passes(filters))
    ensures var ps := Positions(items, Passes(filters));
      |FilteredItems(filters, items)| == |ps| &&
      forall k :: 0 <= k < |ps| ==> FilteredItems(filters, items)[k] == items[ps[k]]
  {
    if items != [] {
      FilteredItemsInOrder(filters, items[..|items| - 1]);
    }
    assert Selects(Filter(items, Passes(filters)), items, Passes(filters));
  }

  /** A card: the position of its ticket and the items it lists. */
  datatype LegacyCard = LegacyCard(ticket: nat, items: seq<KdsItem>)

  /** The cards of ticket `i`: none when no item passes; one card with all
      passing items in KOT view; one card per passing item in ITEM view. */
  function CardsFor(filters: map<string, bool>, view: KdsView.View, t: KdsTicket, i: nat): seq<LegacyCard> {
    var kept := FilteredItems(filters, t.items);
    if kept == [] then []
    else if view == KdsView.KotView then [LegacyCard(i, kept)]
    else seq(|kept|, k requires 0 <= k < |kept| => LegacyCard(i, [kept[k]]))
  }

  /** The cards of a render, in ticket order. */
  function Cards(filters: map<string, bool>, view: KdsView.View, tickets: seq<KdsTicket>): seq<LegacyCard> {
    if tickets == [] then []
    else
      var n := |tickets| - 1;
      Cards(filters, view, tickets[..n]) + CardsFor(filters, view, tickets[n], n)
  }

  /** `ticket_accepted`: every item of the ticket, shown or not, has
      `ack_status === 1`. */
  predicate TicketAccepted(t: KdsTicket) {
    forall j :: 0 <= j < |t.items| ==> t.items[j].ack == 1
  }

  /** The render loop of `renderTickets`, over the tickets in the order given. */
  method RenderCards(tickets: seq<KdsTicket>, filters: map<string, bool>, view: KdsView.View)
    returns (cards: seq<LegacyCard>)
    ensures cards == Cards(filters, view, tickets)
  {
    cards := [];
    var i := 0;
    while i < |tickets|
      invariant 0 <= i <= |tickets|
      invariant cards == Cards(filters, view, tickets[..i])
    {
      var t := tickets[i];
      assert tickets[..i + 1][..i] == tickets[..i] && tickets[..i + 1][i] == t;
      cards := cards + CardsFor(filters, view, t, i);
      i := i + 1;
    }
    assert tickets[..i] == tickets;
  }

  /** The cards of one ticket, as `CardsListFilteredItems` states them. */
  lemma CardsForTicket(filters: map<string, bool>, view: KdsView.View, t: KdsTicket, i: nat)
    ensures forall c :: c in CardsFor(filters, view, t, i) ==>
      c.ticket == i && c.items != [] &&
      (forall it :: it in c.items ==> it in t.items && ItemPasses(filters, it)) &&
      (view == KdsView.KotView ==> c.items == FilteredItems(filters, t.items)) &&
      (view == KdsView.ItemView ==> |c.items| == 1)
  {
    var cs := CardsFor(filters, view, t, i);
    forall c | c in cs
      ensures c.ticket == i && c.items != []
      ensures forall it :: it in c.items ==> it in t.items && ItemPasses(filters, it)
      ensures view == KdsView.KotView ==> c.items == FilteredItems(filters, t.items)
      ensures view == KdsView.ItemView ==> |c.items| == 1
    {
      var k :| 0 <= k < |cs| && cs[k] == c;
    }
  }

  /** Every card lists items of its own ticket that pass the filter, at least
      one: in KOT view exactly the ticket's filtered items, in ITEM view one. */
  lemma {:induction false} CardsListFilteredItems(filters: map<string, bool>, view: KdsView.View, tickets: seq<KdsTicket>)
    ensures forall c :: c in Cards(filters, view, tickets) ==>
      c.ticket < |tickets| && c.items != [] &&
      (forall it :: it in c.items ==> it in tickets[c.ticket].items && ItemPasses(filters, it)) &&
      (view == KdsView.KotView ==> c.items == FilteredItems(filters, tickets[c.ticket].items)) &&
      (view == KdsView.ItemView ==> |c.items| == 1)
  {
    if tickets != [] {
      var n := |tickets| - 1;
      var front := tickets[..n];
      CardsListFilteredItems(filters, view, front);
      CardsForTicket(filters, view, tickets[n], n);
      forall c | c in Cards(filters, view, tickets)
        ensures c.ticket < |tickets| && c.items != []
        ensures forall it :: it in c.items ==> it in tickets[c.ticket].items && ItemPasses(filters, it)
        ensures view == KdsView.KotView ==> c.items == FilteredItems(filters, tickets[c.ticket].items)
        ensures view == KdsView.ItemView ==> |c.items| == 1
      {
        if c in Cards(filters, view, front) {
          assert front[c.ticket] == tickets[c.ticket];
        }
      }
    }
  }

  /** Every passing item is on some card, and a ticket with a passing item
      has a card in either view. */
  lemma {:induction false} CardsCoverFilteredItems(filters: map<string, bool>, view: KdsView.View, tickets: seq<KdsTicket>)
    ensures forall i, it :: 0 <= i < |tickets| && it in tickets[i].items && ItemPasses(filters, it) ==>
      exists c :: c in Cards(filters, view, tickets) && c.ticket == i && it in c.items
  {
    if tickets != [] {
      var n := |tickets| - 1;
      CardsCoverFilteredItems(filters, view, tickets[..n]);
      assert forall i :: 0 <= i < n ==> tickets[..n][i] == tickets[i];
      var t := tickets[n];
      var kept := FilteredItems(filters, t.items);
      forall it | it in t.items && ItemPasses(filters, it)
        ensures exists c :: c in Cards(filters, view, tickets) && c.ticket == n && it in c.items
      {
        assert it in kept;
        var k :| 0 <= k < |kept| && kept[k] == it;
        var c := CardsFor(filters, view, t, n)[if view == KdsView.KotView then 0 else k];
        assert c in Cards(filters, view, tickets) && it in c.items;
      }
    }
  }

  /** The command a card click sends: `ack_ticket` with the KOT and the bill
      (or ""), and no `items` field. */
  function AckClickMessage(t: KdsTicket): (msg: MainMessage)
    ensures msg.AckTicketMsg? && msg.kot == t.header.kot && msg.items.None?
  {
    AckTicketMsg(t.header.kot, Some(t.header.bill.GetOr("")), None)
  }

  class LegacyKdsScreen {
    var tickets: seq<KdsTicket>
    var lastTicketIds: set<Option<int>>
    var filters: map<string, bool>
    var sortBy: KdsView.SortKey
    var view: KdsView.View

    /** The page's start: all filters checked, time sort, KOT view. */
    constructor ()
      ensures tickets == [] && lastTicketIds == {} && filters == INITIAL_FILTERS
      ensures sortBy == KdsView.ByTime && view == KdsView.KotView
    {
      tickets := [];
      lastTicketIds := {};
      filters := INITIAL_FILTERS;
      sortBy := KdsView.ByTime;
      view := KdsView.KotView;
    }

    /** `ws.onmessage`: every ticket of the message is kept (none when it has
        no ticket list); the sound plays iff one of them has a KOT the last
        message did not have. */
    method Receive(received: Option<seq<KdsTicket>>) returns (chime: bool)
      modifies this
      ensures tickets == received.GetOr([])
      ensures chime == KdsView.NewTicketChime(old(lastTicketIds), tickets)
      ensures lastTicketIds == KdsView.KotsOf(tickets)
      ensures filters == old(filters) && sortBy == old(sortBy) && view == old(view)
    {
      tickets := received.GetOr([]);
      chime := exists j :: 0 <= j < |tickets| && tickets[j].header.kot !in lastTicketIds;
      lastTicketIds := KdsView.KotsOf(tickets);
    }

    /** `renderTickets`, over the tickets in the order received: the sort by
        time or table that precedes the loop is not modelled. */
    method Render() returns (cards: seq<LegacyCard>)
      ensures cards == Cards(filters, view, tickets)
    {
      cards := RenderCards(tickets, filters, view);
    }

    /** A filter checkbox changes. */
    method SetFilter(key: string, checked: bool)
      modifies this
      ensures filters == old(filters)[key := checked]
      ensures tickets == old(tickets) && lastTicketIds == old(lastTicketIds)
      ensures sortBy == old(sortBy) && view == old(view)
    {
      filters := filters[key := checked];
    }

    /** The sort buttons and the two view buttons each set their value. */
    method ChooseSort(key: KdsView.SortKey)
      modifies this
      ensures sortBy == key
      ensures tickets == old(tickets) && lastTicketIds == old(lastTicketIds)
      ensures filters == old(filters) && view == old(view)
    {
      sortBy := key;
    }

    method ChooseView(v: KdsView.View)
      modifies this
      ensures view == v
      ensures tickets == old(tickets) && lastTicketIds == old(lastTicketIds)
      ensures filters == old(filters) && sortBy == old(sortBy)
    {
      view := v;
    }

    /** A card click, in either view: every item of the card's ticket is
        acknowledged, not only the card's, and the ack is sent without items.
        The screen's socket is the delivery server's (port 9998), whose
        handler has no `ack_ticket` branch, so nothing is committed for it. */
    method ClickCard(i: nat) returns (msg: MainMessage)
      requires i < |tickets|
      modifies this
      ensures tickets == old(tickets)[i := KdsView.AllAcked(old(tickets)[i])]
      ensures msg == AckClickMessage(old(tickets)[i])
      ensures lastTicketIds == old(lastTicketIds) && filters == old(filters)
      ensures sortBy == old(sortBy) && view == old(view)
    {
      var t := tickets[i];
      tickets := tickets[i := KdsView.AllAcked(t)];
      msg := AckTicketMsg(t.header.kot, Some(t.header.bill.GetOr("")), None);
    }
  }

  /** After a click every card of the clicked ticket is drawn accepted, in
      either view, whatever the filters hide. */
  lemma ClickedTicketAccepted(tickets: seq<KdsTicket>, i: nat)
    requires i < |tickets|
    ensures TicketAccepted(tickets[i := KdsView.AllAcked(tickets[i])][i])
  {
  }
}

=== FILE: legacy_server.dfy ===
/**
 * The older single-station server kept under Test/: the same row grouping
 * with its own status labels and no acknowledgement flag, an item update
 * through USP_Update_KDS, a "toggle summary" command that updates one item
 * code in every KOT that has it, a broadcast of one payload to every client
 * after each message, and a periodic broadcast that only sends when the
 * fetched tickets changed.
 */
module LegacyServer {
  import opened Optional
  import opened Records
  import opened Grouping
  import opened Fetch

  /** The older server's labels; same length as STATUS_MAP, so the same
      indexes are accepted. */
  const LEGACY_STATUS_MAP: seq<string> := ["Preparing", "Ready", "Delivered"]

  datatype LegacyItem = LegacyItem(code: string, name: string, qty: int, status: string)

  datatype LegacyTicket = LegacyTicket(header: KdsHeader, items: seq<LegacyItem>)

  predicate LegacyLabelled(row: MainRow) {
    StatusLabel(LEGACY_STATUS_MAP, row.orderStatus).Some?
  }

  predicate AllLegacyLabelled(rows: seq<MainRow>) {
    forall j :: 0 <= j < |rows| ==> LegacyLabelled(rows[j])
  }

  /** Both servers reject exactly the same order_status values. */
  lemma SameStatusIndexes(rows: seq<MainRow>)
    ensures AllLegacyLabelled(rows) <==> AllLabelled(rows)
  {
  }

  function LegacyEntry(row: MainRow): Entry<Option<int>, KdsHeader, LegacyItem>
    requires LegacyLabelled(row)
  {
    var statusText := StatusLabel(LEGACY_STATUS_MAP, row.orderStatus).value;
    Entry(row.kot, MainHeaderOf(row, statusText), LegacyItem(row.code.GetOr(""), row.name, row.qty, statusText))
  }

  function LegacyEntries(rows: seq<MainRow>): seq<Entry<Option<int>, KdsHeader, LegacyItem>>
    requires AllLegacyLabelled(rows)
  {
    seq(|rows|, j requires 0 <= j < |rows| && AllLegacyLabelled(rows) => LegacyEntry(rows[j]))
  }

  function MakeLegacyTicket(header: KdsHeader, items: seq<LegacyItem>): LegacyTicket {
    LegacyTicket(header, items)
  }

  /** What the older `fetch_tickets` returns. */
  function LegacyTicketsOf(query: Query<MainRow>): seq<LegacyTicket> {
    if query.None? || !AllLegacyLabelled(query.value) then []
    else Grouped(LegacyEntries(query.value), MakeLegacyTicket)
  }

  method AddLegacyRow(order: seq<Option<int>>, byKot: map<Option<int>, LegacyTicket>, row: MainRow, statusText: string,
                      ghost es: seq<Entry<Option<int>, KdsHeader, LegacyItem>>)
    returns (order': seq<Option<int>>, byKot': map<Option<int>, LegacyTicket>)
    requires LegacyLabelled(row) && statusText == StatusLabel(LEGACY_STATUS_MAP, row.orderStatus).value
    requires order == Keys(es) && byKot == Groups(es, MakeLegacyTicket)
    ensures order' == Keys(es + [LegacyEntry(row)])
    ensures byKot' == Groups(es + [LegacyEntry(row)], MakeLegacyTicket)
  {
    ghost var e := LegacyEntry(row);
    var kot := row.kot;
    FoldKey(es, e, MakeLegacyTicket);
    var t;
    if kot !in byKot {
      t := LegacyTicket(MainHeaderOf(row, statusText), []);
      order' := order + [kot];
    } else {
      t := byKot[kot];
      order' := order;
    }
    t := t.(items := t.items + [LegacyItem(row.code.GetOr(""), row.name, row.qty, statusText)]);
    FoldAt(es, e, MakeLegacyTicket, t);
    byKot' := byKot[kot := t];
  }

  /** The older `fetch_tickets`: the dictionary loop over the rows. */
  method LegacyFetchTickets(query: Query<MainRow>) returns (tickets: seq<LegacyTicket>)
    ensures tickets == LegacyTicketsOf(query)
  {
    if query.None? {
      return [];
    }
    var rows := query.value;
    var order: seq<Option<int>> := [];
    var byKot: map<Option<int>, LegacyTicket> := map[];
    ghost var es: seq<Entry<Option<int>, KdsHeader, LegacyItem>> := [];
    var i := 0;
    while i < |rows|
      invariant 0 <= i <= |rows|
      invariant AllLegacyLabelled(rows[..i]) && es == LegacyEntries(rows[..i])
      invariant order == Keys(es)
      invariant byKot == Groups(es, MakeLegacyTicket)
    {
      var row := rows[i];
      var statusText := StatusLabel(LEGACY_STATUS_MAP, row.orderStatus);
      if statusText.None? {
        return [];
      }
      assert rows[..i + 1] == rows[..i] + [row];
      assert LegacyEntries(rows[..i + 1]) == es + [LegacyEntry(row)];
      order, byKot := AddLegacyRow(order, byKot, row, statusText.value, es);
      es := es + [LegacyEntry(row)];
      i := i + 1;
    }
    assert rows[..i] == rows;
    tickets := InOrder(order, byKot);
  }

  /** Grouping depends only on the keys: two entry sequences with the same
      keys in the same places have the same distinct keys in the same order. */
  lemma {:induction false} SameKeysSameGroups<K(!new), H1, I1, H2, I2>(es1: seq<Entry<K, H1, I1>>, es2: seq<Entry<K, H2, I2>>)
    requires |es1| == |es2|
    requires forall j :: 0 <= j < |es1| ==> es1[j].key == es2[j].key
    ensures Keys(es1) == Keys(es2)
    ensures forall k :: |ItemsOf(es1, k)| == |ItemsOf(es2, k)|
    decreases |es1|
  {
    if es1 != [] {
      var n := |es1| - 1;
      assert es1 == es1[..n] + [es1[n]];
      assert es2 == es2[..n] + [es2[n]];
      SameKeysSameGroups(es1[..n], es2[..n]);
      Snoc(es1[..n], es1[n]);
      Snoc(es2[..n], es2[n]);
    }
  }

  /** When every entry's header carries its key as KOT, so does the header
      of every group. */
  lemma HeaderKotIsKey<I>(es: seq<Entry<Option<int>, KdsHeader, I>>, k: Option<int>)
    requires forall j :: 0 <= j < |es| ==> es[j].header.kot == es[j].key
    requires Occurs(es, k)
    ensures HeaderOf(es, k).kot == k
  {
    var f := FirstOccurrence(es, k);
    HeaderIsFirst(es, f);
  }

  /** Both servers group the same rows under the same distinct KOTs, with
      as many items under each. */
  lemma SameKeys(rows: seq<MainRow>)
    requires AllLabelled(rows)
    ensures AllLegacyLabelled(rows)
    ensures Keys(LegacyEntries(rows)) == Keys(MainEntries(rows))
    ensures forall k :: |ItemsOf(LegacyEntries(rows), k)| == |ItemsOf(MainEntries(rows), k)|
  {
    SameStatusIndexes(rows);
    SameKeysSameGroups(LegacyEntries(rows), MainEntries(rows));
  }

  /** Ticket `j` of the older server has the KOT and item count of ticket
      `j` of the current one. */
  lemma SameTicketAt(rows: seq<MainRow>, j: nat)
    requires AllLabelled(rows) && j < |TicketsOf(Some(rows))|
    ensures |LegacyTicketsOf(Some(rows))| == |TicketsOf(Some(rows))|
    ensures LegacyTicketsOf(Some(rows))[j].header.kot == TicketsOf(Some(rows))[j].header.kot
    ensures |LegacyTicketsOf(Some(rows))[j].items| == |TicketsOf(Some(rows))[j].items|
  {
    SameKeys(rows);
    var es1 := LegacyEntries(rows);
    var es2 := MainEntries(rows);
    var k := Keys(es2)[j];
    GroupedAt(es2, MakeKdsTicket, j);
    GroupedAt(es1, MakeLegacyTicket, j);
    HeaderKotIsKey(es1, k);
    HeaderKotIsKey(es2, k);
  }

  /** The older server groups exactly as the current one: the same KOTs, in
      the same order, with as many items each; the same rows empty the result. */
  lemma LegacyGroupsLikeCurrent(query: Query<MainRow>)
    ensures |LegacyTicketsOf(query)| == |TicketsOf(query)|
    ensures forall j :: 0 <= j < |TicketsOf(query)| ==>
      LegacyTicketsOf(query)[j].header.kot == TicketsOf(query)[j].header.kot &&
      |LegacyTicketsOf(query)[j].items| == |TicketsOf(query)[j].items|
  {
    if query.Some? {
      SameStatusIndexes(query.value);
      if AllLabelled(query.value) {
        var rows := query.value;
        SameKeys(rows);
        forall j | 0 <= j < |TicketsOf(query)|
          ensures LegacyTicketsOf(query)[j].header.kot == TicketsOf(query)[j].header.kot
          ensures |LegacyTicketsOf(query)[j].items| == |TicketsOf(query)[j].items|
        {
          SameTicketAt(rows, j);
        }
      }
    }
  }

  // ---------------------------------------------------------------- commands

  /** The older `update_item_status`: the same guard, with USP_Update_KDS. */
  function LegacyUpdateItemStatus(kot: Option<int>, bill: Option<string>, code: Option<string>, cancel: bool): (calls: seq<StoreCall>)
    ensures cancel ==> calls == [CancelKot(kot)]
    ensures !cancel && (kot.None? || bill.None? || code.None?) ==> calls == []
    ensures !cancel && kot.Some? && bill.Some? && code.Some? ==> calls == [UpdateKds(kot, code.value, bill)]
  {
    if cancel then [CancelKot(kot)]
    else if kot.None? || bill.None? || code.None? then []
    else [UpdateKds(kot, code.value, bill)]
  }

  /** A (KOT_NO, BillNO) row of the distinct-KOTs query. */
  datatype KotBill = KotBill(kot: Option<int>, bill: Option<string>)

  /** The updates `toggle_summary` makes for the rows `pairs`: one per row
      whose KOT and bill are both present. */
  function SummaryUpdates(code: string, pairs: seq<KotBill>): (calls: seq<StoreCall>)
    ensures |calls| <= |pairs|
    ensures forall c :: c in calls ==> c.UpdateKds? && c.code == code && c.kot.Some? && c.bill.Some?
  {
    if pairs == [] then []
    else
      var n := |pairs| - 1;
      SummaryUpdates(code, pairs[..n]) + LegacyUpdateItemStatus(pairs[n].kot, pairs[n].bill, Some(code), false)
  }

  /** `toggle_summary`: with an item code, every KOT having that item is
      updated (through the guarded update); no code, or a failed query, means
      no update. */
  method ToggleSummary(code: Option<string>, pairs: Query<KotBill>) returns (calls: seq<StoreCall>)
    ensures code.None? || pairs.None? ==> calls == []
    ensures code.Some? && pairs.Some? ==> calls == SummaryUpdates(code.value, pairs.value)
  {
    calls := [];
    if code.None? || pairs.None? {
      return;
    }
    var ps := pairs.value;
    var i := 0;
    while i < |ps|
      invariant 0 <= i <= |ps|
      invariant calls == SummaryUpdates(code.value, ps[..i])
    {
      assert ps[..i + 1][..i] == ps[..i];
      calls := calls + LegacyUpdateItemStatus(ps[i].kot, ps[i].bill, Some(code.value), false);
      i := i + 1;
    }
    assert ps[..i] == ps;
  }

  /** Every KOT of the query with both keys present gets exactly one update. */
  lemma {:induction false} SummaryUpdatesEveryKot(code: string, pairs: seq<KotBill>)
    ensures forall j :: 0 <= j < |pairs| && pairs[j].kot.Some? && pairs[j].bill.Some? ==>
      UpdateKds(pairs[j].kot, code, pairs[j].bill) in SummaryUpdates(code, pairs)
  {
    if pairs != [] {
      var n := |pairs| - 1;
      SummaryUpdatesEveryKot(code, pairs[..n]);
      forall j | 0 <= j < |pairs| && pairs[j].kot.Some? && pairs[j].bill.Some?
        ensures UpdateKds(pairs[j].kot, code, pairs[j].bill) in SummaryUpdates(code, pairs)
      {
        if j < n {
          assert pairs[..n][j] == pairs[j];
        }
      }
    }
  }

  // -------------------------------------------------------------- the server

  /** A connection to the older server. */
  datatype LegacyConn = LegacyConn(id: nat)

  /** A decoded message; `Malformed` is a frame that is not a JSON object. */
  datatype LegacyMessage =
    | LegacyToggleItem(kot: Option<int>, bill: Option<string>, code: Option<string>)
    | ToggleSummaryMsg(code: Option<string>, pairs: Query<KotBill>)
    | LegacyCancel(kot: Option<int>)
    | LegacyOther
    | LegacyMalformed

  /** The tickets each tick of the periodic loop fetched. */
  function Fetched(fetches: seq<Query<MainRow>>): (ts: seq<seq<LegacyTicket>>)
    ensures |ts| == |fetches|
    ensures forall n :: 0 <= n < |fetches| ==> ts[n] == LegacyTicketsOf(fetches[n])
  {
    seq(|fetches|, n requires 0 <= n < |fetches| => LegacyTicketsOf(fetches[n]))
  }

  /** `last_data` after the periodic loop has seen the fetch results `ts`:
      it is replaced only by a result that differs from it; None before the
      first tick. */
  function LastSent(ts: seq<seq<LegacyTicket>>): Option<seq<LegacyTicket>> {
    if ts == [] then None
    else
      var prev := LastSent(ts[..|ts| - 1]);
      if prev != Some(ts[|ts| - 1]) then Some(ts[|ts| - 1]) else prev
  }

  /** After any tick, `last_data` holds that tick's result, whether or not it
      was sent; so a tick sends iff its result differs from the previous
      tick's (the first tick always sends, even an empty list). */
  lemma {:induction false} LastSentIsLastFetch(ts: seq<seq<LegacyTicket>>)
    ensures ts != [] ==> LastSent(ts) == Some(ts[|ts| - 1])
    ensures ts == [] ==> LastSent(ts) == None
  {
    if ts != [] {
      var n := |ts| - 1;
      LastSentIsLastFetch(ts[..n]);
    }
  }

  /** What tick `n` broadcasts, given every tick's fetch result: its tickets
      when they differ from the previous tick's (the first tick always sends). */
  function TickSend(ts: seq<seq<LegacyTicket>>, n: nat): (sent: Option<seq<LegacyTicket>>)
    requires n < |ts|
    ensures sent.Some? <==> n == 0 || ts[n] != ts[n - 1]
    ensures sent.Some? ==> sent.value == ts[n]
  {
    if n == 0 || ts[n] != ts[n - 1] then Some(ts[n]) else None
  }

  /** What ticks 0..n-1 send. */
  function TickSends(ts: seq<seq<LegacyTicket>>, n: nat): (sends: seq<Option<seq<LegacyTicket>>>)
    requires n <= |ts|
    ensures |sends| == n
  {
    if n == 0 then [] else TickSends(ts, n - 1) + [TickSend(ts, n - 1)]
  }

  /** Entry `m` of the sends is what tick `m` sends. */
  lemma {:induction false} TickSendsAt(ts: seq<seq<LegacyTicket>>, n: nat)
    requires n <= |ts|
    ensures forall m :: 0 <= m < n ==> TickSends(ts, n)[m] == TickSend(ts, m)
  {
    if n > 0 {
      TickSendsAt(ts, n - 1);
    }
  }

  /** `last_data` before tick `n` decides what that tick sends, and after it
      holds tick `n`'s result. */
  lemma TickStep(ts: seq<seq<LegacyTicket>>, n: nat)
    requires n < |ts|
    ensures LastSent(ts[..n + 1]) == Some(ts[n])
    ensures TickSend(ts, n) == if LastSent(ts[..n]) != Some(ts[n]) then Some(ts[n]) else None
  {
    LastSentIsLastFetch(ts[..n]);
    LastSentIsLastFetch(ts[..n + 1]);
    assert ts[..n + 1][..n] == ts[..n];
    if n > 0 {
      assert ts[..n][n - 1] == ts[n - 1];
    }
  }

  class LegacyKdsServer {
    var clients: set<LegacyConn>

    constructor ()
      ensures clients == {}
    {
      clients := {};
    }

    /** `broadcast_tickets`: the same freshly fetched payload to every client;
        a client whose send fails is discarded, the others are served. */
    method BroadcastTickets(query: Query<MainRow>, broken: set<LegacyConn>)
      returns (payload: seq<LegacyTicket>, sentTo: set<LegacyConn>)
      modifies this
      ensures payload == LegacyTicketsOf(query)
      ensures sentTo == old(clients) - broken
      ensures clients == old(clients) - broken
    {
      payload := LegacyFetchTickets(query);
      sentTo := SendAll(broken);
    }

    /** The send loop shared by both broadcasts. */
    method SendAll(broken: set<LegacyConn>) returns (sentTo: set<LegacyConn>)
      modifies this
      ensures sentTo == old(clients) - broken
      ensures clients == old(clients) - broken
    {
      var pending := clients;
      sentTo := {};
      while pending != {}
        invariant pending <= old(clients)
        invariant sentTo == (old(clients) - pending) - broken
        invariant clients == old(clients) - ((old(clients) - pending) * broken)
        decreases pending
      {
        var c :| c in pending;
        pending := pending - {c};
        if c in broken {
          clients := clients - {c};
        } else {
          sentTo := sentTo + {c};
        }
      }
    }

    /** One tick of `periodic_broadcast`, tick `n` of the fetch results `ts`:
        broadcast the fetched tickets iff they differ from `last_data`, which
        then holds them whether or not they were sent. */
    method Tick(query: Query<MainRow>, lastData: Option<seq<LegacyTicket>>, broken: set<LegacyConn>,
                ghost ts: seq<seq<LegacyTicket>>, ghost n: nat, ghost start: set<LegacyConn>)
      returns (newLast: Option<seq<LegacyTicket>>, sent: Option<seq<LegacyTicket>>)
      requires n < |ts| && ts[n] == LegacyTicketsOf(query)
      requires lastData == if n == 0 then None else Some(ts[n - 1])
      requires clients == if n == 0 then start else start - broken
      modifies this
      ensures newLast == Some(ts[n])
      ensures sent == TickSend(ts, n)
      ensures sent.Some? ==> clients == old(clients) - broken
      ensures sent.None? ==> clients == old(clients)
      ensures clients == start - broken
    {
      var tickets := LegacyFetchTickets(query);
      if Some(tickets) != lastData {
        var _ := SendAll(broken);
        sent := Some(tickets);
        if n > 0 {
          assert (start - broken) - broken == start - broken;
        }
      } else {
        sent := None;
      }
      newLast := Some(tickets);
    }

    /** `periodic_broadcast` over the fetch results of successive ticks: a
        tick broadcasts iff its tickets differ from the last ones sent.
        `sends[n]` is what tick n sent. */
    method PeriodicBroadcast(fetches: seq<Query<MainRow>>, broken: set<LegacyConn>)
      returns (sends: seq<Option<seq<LegacyTicket>>>)
      modifies this
      ensures |sends| == |fetches|
      ensures forall n :: 0 <= n < |fetches| ==> sends[n] == TickSend(Fetched(fetches), n)
      ensures clients == if fetches == [] then old(clients) else old(clients) - broken
    {
      ghost var ts := Fetched(fetches);
      var lastData: Option<seq<LegacyTicket>> := None;
      sends := [];
      var n := 0;
      while n < |fetches|
        invariant 0 <= n <= |fetches| && |sends| == n
        invariant lastData == if n == 0 then None else Some(ts[n - 1])
        invariant sends == TickSends(ts, n)
        invariant clients == if n == 0 then old(clients) else old(clients) - broken
      {
        var sent;
        lastData, sent := Tick(fetches[n], lastData, broken, ts, n, old(clients));
        sends := sends + [sent];
        n := n + 1;
      }
      TickSendsAt(ts, n);
    }

    /** A client connects: it joins `clients` and is sent the current
        tickets; if that send fails the handler's cleanup removes it. */
    method Connect(c: LegacyConn, query: Query<MainRow>, broken: set<LegacyConn>) returns (sent: Option<seq<LegacyTicket>>)
      requires c !in clients
      modifies this
      ensures c !in broken ==> clients == old(clients) + {c} && sent == Some(LegacyTicketsOf(query))
      ensures c in broken ==> clients == old(clients) && sent == None
    {
      clients := clients + {c};
      var tickets := LegacyFetchTickets(query);
      if c in broken {
        Disconnect(c);
        sent := None;
      } else {
        sent := Some(tickets);
      }
    }

    /** The handler's cleanup, however the connection ended. */
    method Disconnect(c: LegacyConn)
      modifies this
      ensures clients == old(clients) - {c}
    {
      clients := clients - {c};
    }

    /** One message: the command's store calls, then a broadcast of the
        tickets fetched afterwards (`after`) to every client, whatever the
        action. A malformed frame ends the connection without a broadcast. */
    method HandleMessage(c: LegacyConn, msg: LegacyMessage, after: Query<MainRow>, broken: set<LegacyConn>)
      returns (calls: seq<StoreCall>, payload: Option<seq<LegacyTicket>>, sentTo: set<LegacyConn>)
      modifies this
      ensures msg.LegacyToggleItem? ==> calls == LegacyUpdateItemStatus(msg.kot, msg.bill, msg.code, false)
      ensures msg.ToggleSummaryMsg? && msg.code.Some? && msg.pairs.Some? ==> calls == SummaryUpdates(msg.code.value, msg.pairs.value)
      ensures msg.ToggleSummaryMsg? && (msg.code.None? || msg.pairs.None?) ==> calls == []
      ensures msg.LegacyCancel? ==> calls == [CancelKot(msg.kot)]
      ensures msg.LegacyOther? || msg.LegacyMalformed? ==> calls == []
      ensures !msg.LegacyMalformed? ==>
        payload == Some(LegacyTicketsOf(after)) && sentTo == old(clients) - broken && clients == old(clients) - broken
      ensures msg.LegacyMalformed? ==> payload == None && sentTo == {} && clients == old(clients) - {c}
    {
      calls, payload, sentTo := [], None, {};
      match msg {
        case LegacyToggleItem(kot, bill, code) =>
          calls := LegacyUpdateItemStatus(kot, bill, code, false);
        case ToggleSummaryMsg(code, pairs) =>
          calls := ToggleSummary(code, pairs);
        case LegacyCancel(kot) =>
          calls := LegacyUpdateItemStatus(kot, None, None, true);
        case LegacyOther =>
        case LegacyMalformed =>
          Disconnect(c);
          return;
      }
      var tickets;
      tickets, sentTo := BroadcastTickets(after, broken);
      payload := Some(tickets);
    }
  }
}

=== FILE: optional.dfy ===
/** Optional values: a column or a message field that may be NULL / absent. */
module Optional {

  datatype Option<+T> = None | Some(value: T) {

    /** The value, or `default` when absent (Python's `x or default`, JavaScript's `x ?? default`). */
    function GetOr(default: T): T {
      match this
      case Some(v) => v
      case None => default
    }
  }
}

=== FILE: records.dfy ===
/**
 * The values that flow through the kitchen-display server: the flat rows the
 * stored procedures return, the tickets and items built from them, food-summary
 * lines, and the mutations the server asks the backing store to perform.
 * Nullable columns are `Option`s; columns that are only copied through keep the
 * getattr default as their value.
 */
module Records {
  import opened Optional

  /** The rows a stored procedure returned, or None when the connection or the
      call failed (every fetch catches that and returns an empty list). */
  type Query<R> = Option<seq<R>>

  /** Item status labels, indexed by the order_status column. */
  const STATUS_MAP: seq<string> := ["Pending", "Ready", "Delivered"]

  /** Python's `labels[idx]`: a negative index counts from the end; a NULL
      column or an index outside -|labels|..|labels|-1 raises (None here). */
  function StatusLabel(labels: seq<string>, idx: Option<int>): Option<string> {
    match idx
    case None => None
    case Some(i) =>
      if 0 <= i < |labels| then Some(labels[i])
      else if -|labels| <= i < 0 then Some(labels[|labels| + i])
      else None
  }

  // ---------------------------------------------------------------- main KDS

  /** A row of USP_Get_KDS_Data. */
  datatype MainRow = MainRow(
    kot: Option<int>, bill: Option<string>, tableName: Option<string>,
    createdOn: Option<string>, comments: Option<string>, cancelType: Option<int>,
    billType: string, code: Option<string>, name: string, qty: int,
    orderStatus: Option<int>, ack: int)

  /** The per-ticket fields of a main-display ticket. */
  datatype KdsHeader = KdsHeader(
    kot: Option<int>, bill: Option<string>, tableNo: Option<string>, orderType: string,
    createdOn: string, orderStatus: string, comments: string, cancelled: bool)

  datatype KdsItem = KdsItem(code: string, name: string, qty: int, status: string, ack: int)

  datatype KdsTicket = KdsTicket(header: KdsHeader, items: seq<KdsItem>)

  /** A food-summary line (USP_Get_KDS_Summary row and the JSON sent to clients). */
  datatype SummaryLine = SummaryLine(name: string, qty: int)

  /** What a main-display station's cache entry holds and what its clients receive. */
  datatype Snapshot = Snapshot(tickets: seq<KdsTicket>, summary: seq<SummaryLine>)

  /** The entry sent when a station has no cache entry yet. */
  const EMPTY_SNAPSHOT := Snapshot([], [])

  // ---------------------------------------------------- delivery (KDS_DEL)

  /** A row of USP_GET_KDS_DEL_Data / USP_Get_KDS_Delivered_Data. */
  datatype DelRow = DelRow(
    kot: Option<int>, bill: Option<string>, tableName: string, code: Option<string>,
    name: string, qty: int, steward: string, readyDate: Option<string>, billType: string,
    cashier: string, readyStatus: Option<int>, orderStatus: Option<int>)

  /** The per-ticket fields of a delivery ticket; `cashier` is None for the
      delivered-tickets list, whose tickets carry no cashier key. */
  datatype DelHeader = DelHeader(
    kot: int, bill: string, tableNo: string, readyDate: string, steward: string,
    orderType: string, billType: string, cashier: Option<string>)

  datatype DelItem = DelItem(code: string, name: string, qty: int, readyStatus: int, status: string)

  /** `ticketStatus`: 0 pending, 1 partially ready, 2 all ready. */
  datatype DelTicket = DelTicket(header: DelHeader, items: seq<DelItem>, ticketStatus: int)

  // ------------------------------------------------------ store mutations

  /** One mutating call against the backing store. */
  datatype StoreCall =
    | AcceptKds(kot: Option<int>, code: string, bill: Option<string>)      // EXEC USP_Accept_kds
    | CancelKot(kot: Option<int>)                                           // UPDATE ... SET Cancel_Type = 1
    | UpdateKdsDel(kot: Option<int>, code: string, bill: Option<string>)   // EXEC USP_UPDATE_KDS_DEL
    | RecallKdsDel(kot: Option<int>, recallCode: Option<string>, bill: Option<string>) // EXEC USP_Recall_KDS_DEL_Data
    | UpdateKds(kot: Option<int>, code: string, bill: Option<string>)      // EXEC USP_Update_KDS (older server)

  /** The backing store's query side, per station name; a failed query is None. */
  datatype Store = Store(
    kdsData: string -> Query<MainRow>,
    kdsSummary: string -> Query<SummaryLine>,
    kdsDelData: string -> Query<DelRow>,
    deliveredData: string -> Query<DelRow>)
}

=== FILE: server.dfy ===
/**
 * The server's shared state and the handlers that change it: the per-station
 * caches, the connection registry (main-display clients, delivery clients and
 * the socket-to-station map), the two broadcasts, the connect / message /
 * disconnect bookkeeping of the two websocket handlers, and the change
 * listener's refresh.
 *
 * The database is the `Store` given to each operation (its state at that
 * moment); the store calls a command commits are returned. A websocket send
 * either succeeds or fails: the sockets in `broken` fail every send.
 */
module Server {
  import opened Optional
  import opened Records
  import opened Fetch
  import opened Commands

  /** The two websocket servers: main displays and delivery / recall screens. */
  datatype Endpoint = MainSocket | DelSocket

  /** A connection; each accepted socket is a new one. */
  datatype Conn = Conn(endpoint: Endpoint, id: nat)

  /** The station a socket is mapped to when it has no entry: `.get(c, "NONE")`. */
  const DEFAULT_STATION := "NONE"

  /** The message type the change listener reacts to. */
  const TRIGGER_MESSAGE := "KDS_TriggerMessage"

  /** `fetch_food_summary`: the summary rows as they come, or [] when the
      query failed. */
  function FoodSummary(query: Query<SummaryLine>): (summary: seq<SummaryLine>)
    ensures query.None? ==> summary == []
    ensures query.Some? ==> summary == query.value
  {
    query.GetOr([])
  }

  /** A decoded message of the main-display protocol. `Malformed` is a frame
      that is not a JSON object (the handler's exception ends the connection). */
  datatype MainMessage =
    | InitKds(kdsName: string)
    | ToggleItem(kot: Option<int>, bill: Option<string>, code: Option<string>)
    | CancelTicket(kot: Option<int>)
    | AckTicketMsg(kot: Option<int>, bill: Option<string>, items: Option<seq<AckItem>>)
    | OtherAction
    | Malformed

  /** A decoded message of the delivery protocol. `kotText` is `str(kot_no)`
      and `shouldPrint` the truth of the `print` field (true when absent). */
  datatype DelMessage =
    | InitDel(kdsName: string)
    | InitRecall(kdsName: string)
    | Recall(kot: Option<int>, code: Option<string>, bill: Option<string>)
    | ToggleTicket(kot: Option<int>, bill: Option<string>, items: Option<seq<DelRequestItem>>,
                   shouldPrint: bool, kotText: string)
    | OtherDelAction
    | MalformedDel

  /** What a delivery-handler message sends back to its own socket. */
  datatype DelReply = NoReply | TicketsReply(tickets: seq<DelTicket>) | DeliveredReply(delivered: seq<DelTicket>)

  class KdsServer {
    /** Main-display sockets (`clients`). */
    var clients: set<Conn>
    /** Delivery sockets (`clients_kds_del`). */
    var clientsKdsDel: set<Conn>
    /** `client_kds_map`: the station each socket has declared. */
    var clientKds: map<Conn, string>
    /** `cached_kds_main`: the latest tickets and summary per station. */
    var cachedMain: map<string, Snapshot>
    /** `cached_tickets` / `cached_summary`, written by `safe_refresh_cache`. */
    var cachedTickets: seq<KdsTicket>
    var cachedSummary: seq<SummaryLine>
    /** `cached_kds_tickets`: the latest delivery tickets per station. */
    var cachedKdsTickets: map<string, seq<DelTicket>>

    /** Each socket is registered with the server that accepted it, and every
        delivery socket has a station entry until it disconnects. */
    ghost predicate Valid()
      reads this
    {
      (forall c :: c in clients ==> c.endpoint == MainSocket) &&
      (forall c :: c in clientsKdsDel ==> c.endpoint == DelSocket && c in clientKds)
    }

    constructor ()
      ensures Valid()
      ensures clients == {} && clientsKdsDel == {} && clientKds == map[]
      ensures cachedMain == map[] && cachedKdsTickets == map[]
      ensures cachedTickets == [] && cachedSummary == []
    {
      clients := {};
      clientsKdsDel := {};
      clientKds := map[];
      cachedMain := map[];
      cachedTickets := [];
      cachedSummary := [];
      cachedKdsTickets := map[];
    }

    /** The station a socket belongs to: its entry, or "NONE". */
    function StationOf(c: Conn): string
      reads this`clientKds
    {
      if c in clientKds then clientKds[c] else DEFAULT_STATION
    }

    /** Whether `broadcast_main_kds(kds)` addresses socket `c`: every socket
        when `kds` is None or empty, otherwise those whose station is `kds`. */
    predicate Addressed(kds: Option<string>, c: Conn)
      reads this`clientKds
    {
      kds.None? || kds.value == "" || StationOf(c) == kds.value
    }

    /** What a main-display socket is sent: its station's cache entry, or the
        empty snapshot when the station has none. */
    function MainPayload(c: Conn): (s: Snapshot)
      reads this`clientKds, this`cachedMain
      ensures StationOf(c) !in cachedMain ==> s == EMPTY_SNAPSHOT
    {
      if StationOf(c) in cachedMain then cachedMain[StationOf(c)] else EMPTY_SNAPSHOT
    }

    /** What a delivery socket is sent: its station's tickets, or none. */
    function DelPayload(c: Conn): seq<DelTicket>
      reads this`clientKds, this`cachedKdsTickets
    {
      if StationOf(c) in cachedKdsTickets then cachedKdsTickets[StationOf(c)] else []
    }

    // ------------------------------------------------------------ refreshes

    /** `refresh_main_kds_cache`: the station's entry is replaced wholesale by
        freshly fetched tickets and summary; no other station changes. */
    method RefreshMainKdsCache(kdsName: string, store: Store)
      modifies this
      ensures cachedMain == old(cachedMain)[kdsName := Snapshot(TicketsOf(store.kdsData(kdsName)), FoodSummary(store.kdsSummary(kdsName)))]
      ensures clients == old(clients) && clientsKdsDel == old(clientsKdsDel) && clientKds == old(clientKds)
      ensures cachedTickets == old(cachedTickets) && cachedSummary == old(cachedSummary)
      ensures cachedKdsTickets == old(cachedKdsTickets)
    {
      var tickets := FetchTickets(store.kdsData(kdsName));
      var summary := FoodSummary(store.kdsSummary(kdsName));
      cachedMain := cachedMain[kdsName := Snapshot(tickets, summary)];
    }

    /** `safe_refresh_cache` / `refresh_cache`: the two single-station globals
        are overwritten with the station's tickets and summary. */
    method SafeRefreshCache(kdsName: string, store: Store)
      modifies this
      ensures cachedTickets == TicketsOf(store.kdsData(kdsName))
      ensures cachedSummary == FoodSummary(store.kdsSummary(kdsName))
      ensures clients == old(clients) && clientsKdsDel == old(clientsKdsDel) && clientKds == old(clientKds)
      ensures cachedMain == old(cachedMain) && cachedKdsTickets == old(cachedKdsTickets)
    {
      cachedTickets := FetchTickets(store.kdsData(kdsName));
      cachedSummary := FoodSummary(store.kdsSummary(kdsName));
    }

    /** `refresh_kds_cache`, and the effect of the `async_refresh_kds` worker
        once it runs: the station's delivery tickets are replaced. */
    method RefreshKdsCache(kdsName: string, store: Store)
      modifies this
      ensures cachedKdsTickets == old(cachedKdsTickets)[kdsName := DelTicketsOf(store.kdsDelData(kdsName))]
      ensures clients == old(clients) && clientsKdsDel == old(clientsKdsDel) && clientKds == old(clientKds)
      ensures cachedMain == old(cachedMain)
      ensures cachedTickets == old(cachedTickets) && cachedSummary == old(cachedSummary)
    {
      var tickets := FetchKdsDelTickets(store.kdsDelData(kdsName));
      cachedKdsTickets := cachedKdsTickets[kdsName := tickets];
    }

    // ----------------------------------------------------------- broadcasts

    /** `broadcast_main_kds(kds)`: every addressed main-display socket is sent
        its own station's entry (or the empty snapshot); an addressed socket
        whose send fails is dropped from `clients` (its station entry stays)
        and the others are still served. Sockets not addressed are untouched. */
    method BroadcastMainKds(kds: Option<string>, broken: set<Conn>) returns (sent: map<Conn, Snapshot>)
      requires Valid()
      modifies this
      ensures Valid()
      ensures sent.Keys == set c | c in old(clients) && old(Addressed(kds, c)) && c !in broken
      ensures forall c :: c in sent ==> sent[c] == old(MainPayload(c))
      ensures clients == old(clients) - set c | c in old(clients) && old(Addressed(kds, c)) && c in broken
      ensures clientsKdsDel == old(clientsKdsDel) && clientKds == old(clientKds)
      ensures cachedMain == old(cachedMain) && cachedKdsTickets == old(cachedKdsTickets)
      ensures cachedTickets == old(cachedTickets) && cachedSummary == old(cachedSummary)
    {
      var pending := clients;
      ghost var done: set<Conn> := {};
      sent := map[];
      while pending != {}
        invariant pending + done == old(clients) && pending !! done
        invariant sent.Keys == set c | c in done && Addressed(kds, c) && c !in broken
        invariant forall c :: c in sent ==> sent[c] == MainPayload(c)
        invariant clients == old(clients) - set c | c in done && Addressed(kds, c) && c in broken
        invariant clientsKdsDel == old(clientsKdsDel) && clientKds == old(clientKds)
        invariant cachedMain == old(cachedMain) && cachedKdsTickets == old(cachedKdsTickets)
        invariant cachedTickets == old(cachedTickets) && cachedSummary == old(cachedSummary)
        decreases pending
      {
        var c :| c in pending;
        pending := pending - {c};
        sent := ServeMainSocket(c, kds, broken, sent, done, old(clients));
        done := done + {c};
      }
    }

    /** One socket of `broadcast_main_kds(kds)`: skipped when not addressed;
        otherwise sent its station's entry, or dropped when the send fails. */
    method ServeMainSocket(c: Conn, kds: Option<string>, broken: set<Conn>, sent: map<Conn, Snapshot>,
                           ghost done: set<Conn>, ghost start: set<Conn>)
      returns (sent': map<Conn, Snapshot>)
      requires c !in done
      requires sent.Keys == set d | d in done && Addressed(kds, d) && d !in broken
      requires forall d :: d in sent ==> sent[d] == MainPayload(d)
      requires clients == start - set d | d in done && Addressed(kds, d) && d in broken
      modifies this`clients
      ensures sent'.Keys == set d | d in done + {c} && Addressed(kds, d) && d !in broken
      ensures forall d :: d in sent' ==> sent'[d] == MainPayload(d)
      ensures clients == start - set d | d in done + {c} && Addressed(kds, d) && d in broken
    {
      sent' := sent;
      var station := if c in clientKds then clientKds[c] else DEFAULT_STATION;
      if kds.Some? && kds.value != "" && station != kds.value {
        return;
      }
      var data := if station in cachedMain then cachedMain[station] else EMPTY_SNAPSHOT;
      if c in broken {
        clients := clients - {c};
      } else {
        sent' := sent[c := data];
      }
    }

    /** `broadcast_kds_del_tickets`: every delivery socket is sent its
        station's tickets (none when the station has no entry); a socket whose
        send fails is dropped. A station with no entry has a background
        refresh queued, which this broadcast does not wait for. */
    method BroadcastKdsDelTickets(broken: set<Conn>) returns (sent: map<Conn, seq<DelTicket>>, queued: set<string>)
      requires Valid()
      modifies this
      ensures Valid()
      ensures sent.Keys == old(clientsKdsDel) - broken
      ensures forall c :: c in sent ==> sent[c] == old(DelPayload(c))
      ensures queued == set c | c in old(clientsKdsDel) && old(StationOf(c)) !in old(cachedKdsTickets) :: old(StationOf(c))
      ensures clientsKdsDel == old(clientsKdsDel) - broken
      ensures clients == old(clients) && clientKds == old(clientKds)
      ensures cachedMain == old(cachedMain) && cachedKdsTickets == old(cachedKdsTickets)
      ensures cachedTickets == old(cachedTickets) && cachedSummary == old(cachedSummary)
    {
      var pending := clientsKdsDel;
      ghost var done: set<Conn> := {};
      sent := map[];
      queued := {};
      while pending != {}
        invariant pending + done == old(clientsKdsDel) && pending !! done
        invariant sent.Keys == done - broken
        invariant forall c :: c in sent ==> sent[c] == DelPayload(c)
        invariant queued == set c | c in done && StationOf(c) !in cachedKdsTickets :: StationOf(c)
        invariant clientsKdsDel == old(clientsKdsDel) - (done * broken)
        invariant clients == old(clients) && clientKds == old(clientKds)
        invariant cachedMain == old(cachedMain) && cachedKdsTickets == old(cachedKdsTickets)
        invariant cachedTickets == old(cachedTickets) && cachedSummary == old(cachedSummary)
        decreases pending
      {
        var c :| c in pending;
        pending := pending - {c};
        sent, queued := ServeDelSocket(c, broken, sent, queued, done, old(clientsKdsDel));
        done := done + {c};
      }
    }

    /** One socket of `broadcast_kds_del_tickets`: its station is queued for
        a refresh when it has no entry; it is sent its station's tickets, or
        dropped when the send fails. */
    method ServeDelSocket(c: Conn, broken: set<Conn>, sent: map<Conn, seq<DelTicket>>, queued: set<string>,
                          ghost done: set<Conn>, ghost start: set<Conn>)
      returns (sent': map<Conn, seq<DelTicket>>, queued': set<string>)
      requires c !in done
      requires sent.Keys == done - broken
      requires forall d :: d in sent ==> sent[d] == DelPayload(d)
      requires queued == set d | d in done && StationOf(d) !in cachedKdsTickets :: StationOf(d)
      requires clientsKdsDel == start - (done * broken)
      modifies this`clientsKdsDel
      ensures sent'.Keys == (done + {c}) - broken
      ensures forall d :: d in sent' ==> sent'[d] == DelPayload(d)
      ensures queued' == set d | d in done + {c} && StationOf(d) !in cachedKdsTickets :: StationOf(d)
      ensures clientsKdsDel == start - ((done + {c}) * broken)
    {
      var station := if c in clientKds then clientKds[c] else DEFAULT_STATION;
      queued' := queued;
      if station !in cachedKdsTickets {
        queued' := queued + {station};
      }
      var data := if station in cachedKdsTickets then cachedKdsTickets[station] else [];
      sent' := sent;
      if c in broken {
        clientsKdsDel := clientsKdsDel - {c};
      } else {
        sent' := sent[c := data];
      }
    }

    // ------------------------------------------------- main-display handler

    /** A main-display socket connects: it joins `clients` without a station
        entry and is sent the "NONE" station's entry (or the empty snapshot);
        if that send fails the handler's cleanup removes it again. */
    method MainConnect(c: Conn, broken: set<Conn>) returns (sent: Option<Snapshot>)
      requires Valid() && c.endpoint == MainSocket && c !in clients && c !in clientKds
      modifies this
      ensures Valid()
      ensures c !in broken ==> sent == Some(old(MainPayload(c))) && clients == old(clients) + {c}
      ensures c !in broken ==> old(MainPayload(c)) == (if DEFAULT_STATION in old(cachedMain) then old(cachedMain)[DEFAULT_STATION] else EMPTY_SNAPSHOT)
      ensures c in broken ==> sent == None && clients == old(clients)
      ensures clientKds == old(clientKds) && clientsKdsDel == old(clientsKdsDel)
      ensures cachedMain == old(cachedMain) && cachedKdsTickets == old(cachedKdsTickets)
      ensures cachedTickets == old(cachedTickets) && cachedSummary == old(cachedSummary)
    {
      clients := clients + {c};
      var station := StationOf(c);
      var data := if station in cachedMain then cachedMain[station] else EMPTY_SNAPSHOT;
      if c in broken {
        MainDisconnect(c);
        sent := None;
      } else {
        sent := Some(data);
      }
    }

    /** The main handler's cleanup, whatever ended it: the socket leaves
        `clients` and loses its station entry. */
    method MainDisconnect(c: Conn)
      requires Valid() && c.endpoint == MainSocket
      modifies this
      ensures Valid()
      ensures clients == old(clients) - {c}
      ensures clientKds == old(clientKds) - {c}
      ensures clientsKdsDel == old(clientsKdsDel)
      ensures cachedMain == old(cachedMain) && cachedKdsTickets == old(cachedKdsTickets)
      ensures cachedTickets == old(cachedTickets) && cachedSummary == old(cachedSummary)
    {
      clients := clients - {c};
      clientKds := clientKds - {c};
    }

    /** One message on a main-display socket.
        - `init_kds` records the station, refreshes its cache entry and
          broadcasts it to every socket of that station.
        - `toggle_item`, `cancel_ticket` and `ack_ticket` commit their store
          calls, queue a background refresh of the sender's station (returned
          in `queued`, not applied here) and broadcast the sender's station
          from the cache as it was.
        - A malformed frame ends the connection. */
    method HandleMain(c: Conn, msg: MainMessage, store: Store, broken: set<Conn>)
      returns (calls: seq<StoreCall>, queued: Option<string>, sent: map<Conn, Snapshot>)
      requires Valid() && c.endpoint == MainSocket
      modifies this
      ensures Valid()
      ensures msg.InitKds? ==>
        calls == [] && queued == None &&
        clientKds == old(clientKds)[c := msg.kdsName] &&
        cachedMain == old(cachedMain)[msg.kdsName := Snapshot(TicketsOf(store.kdsData(msg.kdsName)), FoodSummary(store.kdsSummary(msg.kdsName)))] &&
        sent.Keys == (set d | d in old(clients) && Addressed(Some(msg.kdsName), d) && d !in broken) &&
        (forall d :: d in sent ==> sent[d] == MainPayload(d)) &&
        (msg.kdsName != "" ==> forall d :: d in sent ==> sent[d] == cachedMain[msg.kdsName]) &&
        clients == old(clients) - (set d | d in old(clients) && Addressed(Some(msg.kdsName), d) && d in broken)
      ensures (msg.ToggleItem? || msg.CancelTicket? || msg.AckTicketMsg?) ==>
        queued == Some(old(StationOf(c))) &&
        clientKds == old(clientKds) && cachedMain == old(cachedMain) &&
        sent.Keys == (set d | d in old(clients) && old(Addressed(Some(StationOf(c)), d)) && d !in broken) &&
        (forall d :: d in sent ==> sent[d] == old(MainPayload(d))) &&
        clients == old(clients) - (set d | d in old(clients) && old(Addressed(Some(StationOf(c)), d)) && d in broken)
      ensures msg.ToggleItem? ==> calls == UpdateItemStatus(msg.kot, msg.bill, msg.code, false)
      ensures msg.CancelTicket? ==> calls == UpdateItemStatus(msg.kot, None, None, true)
      ensures msg.AckTicketMsg? && (msg.items.None? || msg.items.value == []) ==> calls == []
      ensures msg.AckTicketMsg? && msg.items.Some? ==> calls == AcceptAll(msg.kot, msg.bill, Codes(msg.items.value))
      ensures msg.OtherAction? ==>
        calls == [] && queued == None && sent == map[] &&
        clients == old(clients) && clientKds == old(clientKds) && cachedMain == old(cachedMain)
      ensures msg.Malformed? ==>
        calls == [] && queued == None && sent == map[] &&
        clients == old(clients) - {c} && clientKds == old(clientKds) - {c} && cachedMain == old(cachedMain)
      ensures clientsKdsDel == old(clientsKdsDel) && cachedKdsTickets == old(cachedKdsTickets)
      ensures cachedTickets == old(cachedTickets) && cachedSummary == old(cachedSummary)
    {
      calls, queued, sent := [], None, map[];
      match msg
      case InitKds(name) =>
        clientKds := clientKds[c := name];
        RefreshMainKdsCache(name, store);
        sent := BroadcastMainKds(Some(name), broken);
      case ToggleItem(kot, bill, code) =>
        calls := UpdateItemStatus(kot, bill, code, false);
        queued := Some(StationOf(c));
        sent := BroadcastMainKds(Some(StationOf(c)), broken);
      case CancelTicket(kot) =>
        calls := UpdateItemStatus(kot, None, None, true);
        queued := Some(StationOf(c));
        sent := BroadcastMainKds(Some(StationOf(c)), broken);
      case AckTicketMsg(kot, bill, items) =>
        calls := AckTicket(kot, bill, items);
        queued := Some(StationOf(c));
        sent := BroadcastMainKds(Some(StationOf(c)), broken);
      case OtherAction =>
      case Malformed =>
        MainDisconnect(c);
    }

    // ----------------------------------------------------- delivery handler

    /** A delivery socket connects: it joins `clients_kds_del`, is mapped to
        "NONE" and is sent the "NONE" station's tickets; if that send fails
        the handler's cleanup removes it again. */
    method DelConnect(c: Conn, broken: set<Conn>) returns (reply: DelReply)
      requires Valid() && c.endpoint == DelSocket && c !in clientsKdsDel && c !in clientKds
      modifies this
      ensures Valid()
      ensures c !in broken ==>
        clientsKdsDel == old(clientsKdsDel) + {c} && clientKds == old(clientKds)[c := DEFAULT_STATION] &&
        reply == TicketsReply(if DEFAULT_STATION in cachedKdsTickets then cachedKdsTickets[DEFAULT_STATION] else [])
      ensures c in broken ==> reply == NoReply && clientsKdsDel == old(clientsKdsDel) && clientKds == old(clientKds)
      ensures clients == old(clients)
      ensures cachedMain == old(cachedMain) && cachedKdsTickets == old(cachedKdsTickets)
      ensures cachedTickets == old(cachedTickets) && cachedSummary == old(cachedSummary)
    {
      clientsKdsDel := clientsKdsDel + {c};
      clientKds := clientKds[c := DEFAULT_STATION];
      var data := if DEFAULT_STATION in cachedKdsTickets then cachedKdsTickets[DEFAULT_STATION] else [];
      if c in broken {
        DelDisconnect(c);
        reply := NoReply;
      } else {
        reply := TicketsReply(data);
      }
    }

    /** The delivery handler's cleanup: the socket leaves `clients_kds_del`
        and loses its station entry. */
    method DelDisconnect(c: Conn)
      requires Valid() && c.endpoint == DelSocket
      modifies this
      ensures Valid()
      ensures clientsKdsDel == old(clientsKdsDel) - {c}
      ensures clientKds == old(clientKds) - {c}
      ensures clients == old(clients)
      ensures cachedMain == old(cachedMain) && cachedKdsTickets == old(cachedKdsTickets)
      ensures cachedTickets == old(cachedTickets) && cachedSummary == old(cachedSummary)
    {
      clientsKdsDel := clientsKdsDel - {c};
      clientKds := clientKds - {c};
    }

    /** One message on a delivery socket. `store` is the database as the
        fetches after the message's own store calls see it.
        - `init_kds` records the station, refreshes the single-station globals
          and the station's delivery tickets, and replies with those tickets.
        - `init_kds_recall` records the station and replies with its
          delivered tickets.
        - `recall_item` commits the recall, refreshes the globals for "NONE",
          broadcasts every main display and replies with the sender's
          delivered tickets.
        - `toggle_ticket` commits the updates, refreshes the sender's station,
          picks the print job, broadcasts every delivery socket and replies
          with the delivered tickets fetched before the broadcast.
        - A reply that fails, or a malformed frame, ends the connection. */
    method HandleDel(c: Conn, msg: DelMessage, store: Store, broken: set<Conn>)
      returns (calls: seq<StoreCall>, reply: DelReply, printJob: Option<DelTicket>,
               sentMain: map<Conn, Snapshot>, sentDel: map<Conn, seq<DelTicket>>, queued: set<string>)
      requires Valid() && c.endpoint == DelSocket
      modifies this
      ensures Valid()
      ensures msg.InitDel? ==>
        calls == [] && printJob == None &&
        cachedKdsTickets == old(cachedKdsTickets)[msg.kdsName := DelTicketsOf(store.kdsDelData(msg.kdsName))] &&
        cachedTickets == TicketsOf(store.kdsData(msg.kdsName)) &&
        cachedSummary == FoodSummary(store.kdsSummary(msg.kdsName)) &&
        reply == TicketsReply(DelTicketsOf(store.kdsDelData(msg.kdsName)))
      ensures msg.InitRecall? ==>
        calls == [] && printJob == None && cachedKdsTickets == old(cachedKdsTickets) &&
        reply == DeliveredReply(DeliveredTicketsOf(store.deliveredData(msg.kdsName)))
      ensures (msg.InitDel? || msg.InitRecall?) ==>
        sentMain == map[] && sentDel == map[] &&
        clientKds == (if c in broken then old(clientKds) - {c} else old(clientKds)[c := msg.kdsName])
      ensures msg.Recall? ==>
        calls == RecallItem(msg.kot, msg.code, msg.bill) && printJob == None &&
        cachedTickets == TicketsOf(store.kdsData(DEFAULT_STATION)) &&
        cachedSummary == FoodSummary(store.kdsSummary(DEFAULT_STATION)) &&
        cachedKdsTickets == old(cachedKdsTickets) &&
        sentMain.Keys == old(clients) - broken &&
        (forall d :: d in sentMain ==> sentMain[d] == old(MainPayload(d))) &&
        clients == old(clients) - broken && sentDel == map[] &&
        reply == DeliveredReply(DeliveredTicketsOf(store.deliveredData(old(StationOf(c)))))
      ensures (msg.InitDel? || msg.InitRecall? || msg.Recall?) ==>
        clientsKdsDel == old(clientsKdsDel) - ({c} * broken)
      ensures msg.ToggleTicket? ==>
        calls == (if msg.items.None? || !AllKeyed(msg.items.value) then [] else UpdateAll(msg.kot, msg.bill, msg.items.value)) &&
        cachedKdsTickets == old(cachedKdsTickets)[old(StationOf(c)) := DelTicketsOf(store.kdsDelData(old(StationOf(c))))] &&
        cachedTickets == TicketsOf(store.kdsData(DEFAULT_STATION)) &&
        cachedSummary == FoodSummary(store.kdsSummary(DEFAULT_STATION)) &&
        printJob == PrintJobOf(DelTicketsOf(store.kdsDelData(old(StationOf(c)))), msg.shouldPrint, msg.kotText) &&
        sentMain == map[] &&
        sentDel.Keys == old(clientsKdsDel) - broken &&
        (forall d :: d in sentDel ==> sentDel[d] == (if old(StationOf(d)) in cachedKdsTickets then cachedKdsTickets[old(StationOf(d))] else [])) &&
        queued == (set d | d in old(clientsKdsDel) && old(StationOf(d)) !in cachedKdsTickets :: old(StationOf(d))) &&
        clientsKdsDel == old(clientsKdsDel) - broken &&
        reply == DeliveredReply(DeliveredTicketsOf(store.deliveredData(old(StationOf(c)))))
      ensures (msg.Recall? || msg.ToggleTicket?) ==> clientKds == old(clientKds) - ({c} * broken)
      ensures (msg.OtherDelAction? || msg.MalformedDel?) ==>
        calls == [] && reply == NoReply && printJob == None && sentMain == map[] && sentDel == map[] &&
        cachedKdsTickets == old(cachedKdsTickets)
      ensures msg.MalformedDel? || (reply != NoReply && c in broken) ==> c !in clientsKdsDel && c !in clientKds
      ensures msg.OtherDelAction? ==> clientsKdsDel == old(clientsKdsDel) && clientKds == old(clientKds)
      ensures msg.MalformedDel? ==> clientsKdsDel == old(clientsKdsDel) - {c} && clientKds == old(clientKds) - {c}
      ensures !msg.ToggleTicket? ==> queued == {}
      ensures !msg.Recall? ==> clients == old(clients)
      ensures !(msg.InitDel? || msg.Recall? || msg.ToggleTicket?) ==>
        cachedTickets == old(cachedTickets) && cachedSummary == old(cachedSummary)
      ensures cachedMain == old(cachedMain)
    {
      calls, reply, printJob, sentMain, sentDel, queued := [], NoReply, None, map[], map[], {};
      match msg {
      case InitDel(name) =>
        reply := InitDelStation(c, name, store);
      case InitRecall(name) =>
        reply := InitRecallStation(c, name, store);
      case Recall(kot, code, bill) =>
        calls, sentMain, reply := RecallFromDel(c, kot, code, bill, store, broken);
      case ToggleTicket(kot, bill, items, shouldPrint, kotText) =>
        calls, printJob, sentDel, queued, reply := ToggleFromDel(c, kot, bill, items, shouldPrint, kotText, store, broken);
      case OtherDelAction =>
      case MalformedDel =>
        DelDisconnect(c);
      }
      if reply != NoReply && c in broken {
        DelDisconnect(c);
      }
    }

    /** `init_kds` on a delivery socket. */
    method InitDelStation(c: Conn, name: string, store: Store) returns (reply: DelReply)
      requires Valid() && c.endpoint == DelSocket
      modifies this
      ensures Valid()
      ensures clientKds == old(clientKds)[c := name]
      ensures cachedKdsTickets == old(cachedKdsTickets)[name := DelTicketsOf(store.kdsDelData(name))]
      ensures cachedTickets == TicketsOf(store.kdsData(name)) && cachedSummary == FoodSummary(store.kdsSummary(name))
      ensures reply == TicketsReply(DelTicketsOf(store.kdsDelData(name)))
      ensures clients == old(clients) && clientsKdsDel == old(clientsKdsDel) && cachedMain == old(cachedMain)
    {
      clientKds := clientKds[c := name];
      SafeRefreshCache(name, store);
      RefreshKdsCache(name, store);
      reply := TicketsReply(cachedKdsTickets[name]);
    }

    /** `init_kds_recall`: the station is recorded and its delivered tickets
        are fetched for the reply; no cache changes. */
    method InitRecallStation(c: Conn, name: string, store: Store) returns (reply: DelReply)
      requires Valid() && c.endpoint == DelSocket
      modifies this
      ensures Valid()
      ensures clientKds == old(clientKds)[c := name]
      ensures reply == DeliveredReply(DeliveredTicketsOf(store.deliveredData(name)))
      ensures clients == old(clients) && clientsKdsDel == old(clientsKdsDel) && cachedMain == old(cachedMain)
      ensures cachedKdsTickets == old(cachedKdsTickets)
      ensures cachedTickets == old(cachedTickets) && cachedSummary == old(cachedSummary)
    {
      clientKds := clientKds[c := name];
      var delivered := FetchDeliveredTickets(store.deliveredData(name));
      reply := DeliveredReply(delivered);
    }

    /** `recall_item`: commit the recall, refresh the globals for "NONE",
        broadcast every main display, reply with the sender's delivered
        tickets. */
    method RecallFromDel(c: Conn, kot: Option<int>, code: Option<string>, bill: Option<string>, store: Store, broken: set<Conn>)
      returns (calls: seq<StoreCall>, sentMain: map<Conn, Snapshot>, reply: DelReply)
      requires Valid() && c.endpoint == DelSocket
      modifies this
      ensures Valid()
      ensures calls == RecallItem(kot, code, bill)
      ensures cachedTickets == TicketsOf(store.kdsData(DEFAULT_STATION))
      ensures cachedSummary == FoodSummary(store.kdsSummary(DEFAULT_STATION))
      ensures sentMain.Keys == old(clients) - broken
      ensures forall d :: d in sentMain ==> sentMain[d] == old(MainPayload(d))
      ensures reply == DeliveredReply(DeliveredTicketsOf(store.deliveredData(old(StationOf(c)))))
      ensures clients == old(clients) - broken
      ensures clientsKdsDel == old(clientsKdsDel) && clientKds == old(clientKds)
      ensures cachedMain == old(cachedMain) && cachedKdsTickets == old(cachedKdsTickets)
    {
      calls := RecallItem(kot, code, bill);
      SafeRefreshCache(DEFAULT_STATION, store);
      sentMain := BroadcastMainKds(None, broken);
      var delivered := FetchDeliveredTickets(store.deliveredData(StationOf(c)));
      reply := DeliveredReply(delivered);
    }

    /** `toggle_ticket`: commit the updates, refresh the sender's station,
        fetch its delivered tickets, refresh the globals for "NONE", pick the
        print job, broadcast every delivery socket, reply with the delivered
        tickets. */
    method ToggleFromDel(c: Conn, kot: Option<int>, bill: Option<string>, items: Option<seq<DelRequestItem>>,
                         shouldPrint: bool, kotText: string, store: Store, broken: set<Conn>)
      returns (calls: seq<StoreCall>, printJob: Option<DelTicket>, sentDel: map<Conn, seq<DelTicket>>,
               queued: set<string>, reply: DelReply)
      requires Valid() && c.endpoint == DelSocket
      modifies this
      ensures Valid()
      ensures calls == (if items.None? || !AllKeyed(items.value) then [] else UpdateAll(kot, bill, items.value))
      ensures cachedKdsTickets == old(cachedKdsTickets)[old(StationOf(c)) := DelTicketsOf(store.kdsDelData(old(StationOf(c))))]
      ensures printJob == PrintJobOf(DelTicketsOf(store.kdsDelData(old(StationOf(c)))), shouldPrint, kotText)
      ensures sentDel.Keys == old(clientsKdsDel) - broken
      ensures forall d :: d in sentDel ==>
        sentDel[d] == (if old(StationOf(d)) in cachedKdsTickets then cachedKdsTickets[old(StationOf(d))] else [])
      ensures reply == DeliveredReply(DeliveredTicketsOf(store.deliveredData(old(StationOf(c)))))
      ensures queued == set d | d in old(clientsKdsDel) && old(StationOf(d)) !in cachedKdsTickets :: old(StationOf(d))
      ensures cachedTickets == TicketsOf(store.kdsData(DEFAULT_STATION))
      ensures cachedSummary == FoodSummary(store.kdsSummary(DEFAULT_STATION))
      ensures clientsKdsDel == old(clientsKdsDel) - broken
      ensures clients == old(clients) && clientKds == old(clientKds) && cachedMain == old(cachedMain)
    {
      var name := StationOf(c);
      calls := UpdateKdsDelTicket(kot, bill, items);
      RefreshKdsCache(name, store);
      var delivered := FetchDeliveredTickets(store.deliveredData(name));
      SafeRefreshCache(DEFAULT_STATION, store);
      printJob := PrintOnToggle(cachedKdsTickets[name], shouldPrint, kotText);
      sentDel, queued := BroadcastKdsDelTickets(broken);
      reply := DeliveredReply(delivered);
    }

    // ------------------------------------------------------- change listener

    /** `sql_listener` on one received message: for the change message, every
        station already in `cached_kds_main` and every station already in
        `cached_kds_tickets` is refreshed, and the globals are refreshed for
        "NONE"; no station is added. The two broadcasts it then schedules are
        `BroadcastMainKds(None, ...)` and `BroadcastKdsDelTickets(...)`;
        `scheduled` says whether they are. Other messages change nothing. */
    method ListenerReceive(messageType: string, store: Store) returns (scheduled: bool)
      modifies this
      ensures scheduled <==> messageType == TRIGGER_MESSAGE
      ensures cachedMain.Keys == old(cachedMain).Keys
      ensures cachedKdsTickets.Keys == old(cachedKdsTickets).Keys
      ensures messageType == TRIGGER_MESSAGE ==>
        (forall k :: k in cachedMain ==> cachedMain[k] == Snapshot(TicketsOf(store.kdsData(k)), FoodSummary(store.kdsSummary(k)))) &&
        (forall k :: k in cachedKdsTickets ==> cachedKdsTickets[k] == DelTicketsOf(store.kdsDelData(k))) &&
        cachedTickets == TicketsOf(store.kdsData(DEFAULT_STATION)) &&
        cachedSummary == FoodSummary(store.kdsSummary(DEFAULT_STATION))
      ensures messageType != TRIGGER_MESSAGE ==>
        cachedMain == old(cachedMain) && cachedKdsTickets == old(cachedKdsTickets) &&
        cachedTickets == old(cachedTickets) && cachedSummary == old(cachedSummary)
      ensures clients == old(clients) && clientsKdsDel == old(clientsKdsDel) && clientKds == old(clientKds)
    {
      if messageType != TRIGGER_MESSAGE {
        return false;
      }
      var pending := cachedMain.Keys;
      while pending != {}
        invariant pending <= cachedMain.Keys && cachedMain.Keys == old(cachedMain).Keys
        invariant forall k :: k in cachedMain && k !in pending ==>
          cachedMain[k] == Snapshot(TicketsOf(store.kdsData(k)), FoodSummary(store.kdsSummary(k)))
        invariant cachedKdsTickets == old(cachedKdsTickets)
        invariant clients == old(clients) && clientsKdsDel == old(clientsKdsDel) && clientKds == old(clientKds)
        decreases pending
      {
        var k :| k in pending;
        pending := pending - {k};
        RefreshMainKdsCache(k, store);
      }
      SafeRefreshCache(DEFAULT_STATION, store);
      var stations := cachedKdsTickets.Keys;
      while stations != {}
        invariant stations <= cachedKdsTickets.Keys && cachedKdsTickets.Keys == old(cachedKdsTickets).Keys
        invariant forall k :: k in cachedKdsTickets && k !in stations ==> cachedKdsTickets[k] == DelTicketsOf(store.kdsDelData(k))
        invariant forall k :: k in cachedMain ==> cachedMain[k] == Snapshot(TicketsOf(store.kdsData(k)), FoodSummary(store.kdsSummary(k)))
        invariant cachedMain.Keys == old(cachedMain).Keys
        invariant cachedTickets == TicketsOf(store.kdsData(DEFAULT_STATION))
        invariant cachedSummary == FoodSummary(store.kdsSummary(DEFAULT_STATION))
        invariant clients == old(clients) && clientsKdsDel == old(clientsKdsDel) && clientKds == old(clientKds)
        decreases stations
      {
        var k :| k in stations;
        stations := stations - {k};
        RefreshKdsCache(k, store);
      }
      return true;
    }
  }
}

=== FILE: sorting.dfy ===
/**
 * Sorting a list by an integer key, as the displays do with
 * `Array.prototype.sort` and a numeric comparator (`a.kot_no - b.kot_no`
 * ascending, `a.kot_no - b.kot_no` with the arguments swapped descending).
 * The library sort is stable; this insertion sort is too, and the displays'
 * properties only need that the result is ordered and a permutation.
 */
module Sorting {

  /** Keys never decrease along `s`. */
  ghost predicate SortedBy<T>(s: seq<T>, key: T -> int) {
    forall i, j :: 0 <= i < j < |s| ==> key(s[i]) <= key(s[j])
  }

  /** `x` placed before the first element whose key is at least its own. */
  function Insert<T(==)>(x: T, s: seq<T>, key: T -> int): (r: seq<T>)
    ensures |r| == |s| + 1
    ensures multiset(r) == multiset(s) + multiset{x}
  {
    if s == [] then [x]
    else if key(x) <= key(s[0]) then [x] + s
    else
      var rest := Insert(x, s[1..], key);
      assert s == [s[0]] + s[1..];
      [s[0]] + rest
  }

  /** Inserting into a sorted list keeps it sorted, and every key of the
      result is at least the smaller of `x`'s key and the old first key. */
  lemma {:induction false} InsertSorted<T>(x: T, s: seq<T>, key: T -> int)
    requires SortedBy(s, key)
    ensures SortedBy(Insert(x, s, key), key)
    ensures forall k :: 0 <= k < |s| + 1 ==>
      key(x) <= key(Insert(x, s, key)[k]) || (|s| > 0 && key(s[0]) <= key(Insert(x, s, key)[k]))
  {
    var r := Insert(x, s, key);
    if s == [] {
    } else if key(x) <= key(s[0]) {
      assert r == [x] + s;
      forall i, j | 0 <= i < j < |r| ensures key(r[i]) <= key(r[j]) {
        assert r[j] == s[j - 1];
        if i > 0 {
          assert r[i] == s[i - 1];
        } else {
          assert key(s[0]) <= key(s[j - 1]);
        }
      }
      forall k | 0 <= k < |r| ensures key(x) <= key(r[k]) {
        if k > 0 {
          assert r[k] == s[k - 1] && key(s[0]) <= key(s[k - 1]);
        }
      }
    } else {
      var tail := s[1..];
      assert SortedBy(tail, key) by {
        forall i, j | 0 <= i < j < |tail| ensures key(tail[i]) <= key(tail[j]) {
          assert tail[i] == s[i + 1] && tail[j] == s[j + 1];
        }
      }
      InsertSorted(x, tail, key);
      var rest := Insert(x, tail, key);
      assert r == [s[0]] + rest;
      forall k | 0 <= k < |rest| ensures key(s[0]) <= key(rest[k]) {
        if key(x) > key(rest[k]) {
          assert tail != [] && key(tail[0]) <= key(rest[k]);
          assert key(s[0]) <= key(s[1]);
        }
      }
      forall i, j | 0 <= i < j < |r| ensures key(r[i]) <= key(r[j]) {
        assert r[j] == rest[j - 1];
        if i > 0 {
          assert r[i] == rest[i - 1];
        }
      }
      forall k | 0 <= k < |r| ensures key(s[0]) <= key(r[k]) {
        if k > 0 {
          assert r[k] == rest[k - 1];
        }
      }
    }
  }

  /** The elements of `s` in ascending key order. */
  function SortBy<T(==)>(s: seq<T>, key: T -> int): (r: seq<T>)
    ensures |r| == |s|
    ensures multiset(r) == multiset(s)
    ensures SortedBy(r, key)
  {
    if s == [] then []
    else
      assert s == [s[0]] + s[1..];
      var sorted := SortBy(s[1..], key);
      InsertSorted(s[0], sorted, key);
      Insert(s[0], sorted, key)
  }

  /** A sorted list holds exactly the elements it was made from. */
  lemma SortKeepsElements<T>(s: seq<T>, key: T -> int)
    ensures forall x :: x in SortBy(s, key) <==> x in s
  {
    var r := SortBy(s, key);
    forall x ensures x in r <==> x in s {
      assert x in r <==> x in multiset(r);
      assert x in s <==> x in multiset(s);
    }
  }
}

=== FILE: status_memory.dfy ===
/**
 * A per-KOT memory of the last status seen, kept by the delivery and
 * customer screens (`previousStatuses`, `shownTickets`): visiting a ticket
 * overwrites the entry of its KOT number with the ticket's status.
 */
module StatusMemory {
  import opened Records

  /** The memory after visiting `tickets` in order, starting from `prev`;
      `status` is the status the screen records for a ticket. */
  function Remembered(prev: map<int, int>, tickets: seq<DelTicket>, status: DelTicket -> int): map<int, int> {
    if tickets == [] then prev
    else
      var n := |tickets| - 1;
      Remembered(prev, tickets[..n], status)[tickets[n].header.kot := status(tickets[n])]
  }

  /** The memory has an entry exactly for the KOTs it held before and the
      visited KOTs. */
  lemma {:induction false} RememberedKeys(prev: map<int, int>, tickets: seq<DelTicket>, status: DelTicket -> int)
    ensures forall k :: k in Remembered(prev, tickets, status) <==>
      k in prev || exists i :: 0 <= i < |tickets| && tickets[i].header.kot == k
  {
    if tickets != [] {
      var n := |tickets| - 1;
      var front := tickets[..n];
      RememberedKeys(prev, front, status);
      forall k ensures k in Remembered(prev, tickets, status) <==> k in prev || exists i :: 0 <= i < |tickets| && tickets[i].header.kot == k {
        if exists i :: 0 <= i < |tickets| && tickets[i].header.kot == k {
          var i :| 0 <= i < |tickets| && tickets[i].header.kot == k;
          if i < n {
            assert front[i].header.kot == k;
          }
        }
        if exists i :: 0 <= i < n && front[i].header.kot == k {
          var i :| 0 <= i < n && front[i].header.kot == k;
          assert tickets[i].header.kot == k;
        }
      }
    }
  }

  /** Entries of KOTs that were not visited are untouched. */
  lemma {:induction false} RememberedElsewhere(prev: map<int, int>, tickets: seq<DelTicket>, status: DelTicket -> int, k: int)
    requires k in prev
    requires forall i :: 0 <= i < |tickets| ==> tickets[i].header.kot != k
    ensures k in Remembered(prev, tickets, status) && Remembered(prev, tickets, status)[k] == prev[k]
  {
    if tickets != [] {
      var n := |tickets| - 1;
      assert forall i :: 0 <= i < n ==> tickets[..n][i] == tickets[i];
      RememberedElsewhere(prev, tickets[..n], status, k);
    }
  }

  /** A visited KOT holds the status of the last ticket visited with it. */
  lemma {:induction false} RememberedLast(prev: map<int, int>, tickets: seq<DelTicket>, status: DelTicket -> int, i: nat)
    requires i < |tickets|
    requires forall j :: i < j < |tickets| ==> tickets[j].header.kot != tickets[i].header.kot
    ensures tickets[i].header.kot in Remembered(prev, tickets, status)
    ensures Remembered(prev, tickets, status)[tickets[i].header.kot] == status(tickets[i])
  {
    var n := |tickets| - 1;
    if i < n {
      var front := tickets[..n];
      assert front[i] == tickets[i];
      assert forall j :: i < j < n ==> front[j] == tickets[j];
      RememberedLast(prev, front, status, i);
    }
  }
}

=== FILE: ticket_status.dfy ===
/**
 * The aggregate status of a delivery ticket derived from its items' ready
 * flags: 0 when no item is ready (including a ticket with no items), 1 when
 * some but not all are ready, 2 when there is at least one item and all are.
 */
module TicketStatus {
  import opened Records
  import opened Filtering

  predicate IsReady(it: DelItem) {
    it.readyStatus == 1
  }

  /** The number of ready items: `sum(1 for it in items if it["ready_status"] == 1)`. */
  function ReadyCount(items: seq<DelItem>): (n: nat)
    ensures n <= |items|
  {
    if items == [] then 0
    else ReadyCount(items[..|items| - 1]) + (if IsReady(items[|items| - 1]) then 1 else 0)
  }

  /** The item-based status rule that both the server (server.py:447-455) and
      the delivery screen (KDS_DEL.js:101-108) compute, stated over the items
      themselves rather than over a count. */
  function StatusOf(items: seq<DelItem>): int {
    if |items| > 0 && (forall j :: 0 <= j < |items| ==> IsReady(items[j])) then 2
    else if exists j :: 0 <= j < |items| && IsReady(items[j]) then 1
    else 0
  }

  /** The server's rule, over the ready count and the item count. */
  function CountedStatus(ready: nat, total: nat): int {
    if ready == total && total > 0 then 2
    else if ready > 0 then 1
    else 0
  }

  /** The ready items: the print-on-toggle filter. */
  function ReadyItems(items: seq<DelItem>): (r: seq<DelItem>)
    ensures |r| == ReadyCount(items)
    ensures forall j :: 0 <= j < |r| ==> IsReady(r[j]) && r[j] in items
    ensures forall j :: 0 <= j < |items| && IsReady(items[j]) ==> items[j] in r
  {
    if items == [] then []
    else
      var n := |items| - 1;
      assert items == items[..n] + [items[n]];
      ReadyItems(items[..n]) + (if IsReady(items[n]) then [items[n]] else [])
  }

  /** The ready items are the list filter by readiness: kept in order and
      with repeats, item `k` of the result being the item at the `k`-th ready
      position. */
  lemma {:induction false} ReadyItemsInOrder(items: seq<DelItem>)
    ensures ReadyItems(items) == Filter(items, IsReady)
    ensures var ps := Positions(items, IsReady);
      |ReadyItems(items)| == |ps| && forall k :: 0 <= k < |ps| ==> ReadyItems(items)[k] == items[ps[k]]
  {
    if items != [] {
      ReadyItemsInOrder(items[..|items| - 1]);
    }
    assert Selects(Filter(items, IsReady), items, IsReady);
  }

  lemma {:induction false} ReadyCountAll(items: seq<DelItem>)
    ensures ReadyCount(items) == |items| <==> forall j :: 0 <= j < |items| ==> IsReady(items[j])
  {
    if items != [] {
      var n := |items| - 1;
      ReadyCountAll(items[..n]);
      assert forall j :: 0 <= j < n ==> items[..n][j] == items[j];
      if !IsReady(items[n]) {
        assert ReadyCount(items) < |items|;
      }
    }
  }

  lemma {:induction false} ReadyCountSome(items: seq<DelItem>)
    ensures ReadyCount(items) > 0 <==> exists j :: 0 <= j < |items| && IsReady(items[j])
  {
    if items != [] {
      var n := |items| - 1;
      ReadyCountSome(items[..n]);
      assert forall j :: 0 <= j < n ==> items[..n][j] == items[j];
      if IsReady(items[n]) {
        assert exists j :: 0 <= j < |items| && IsReady(items[j]);
      } else if ReadyCount(items) == 0 {
        forall j | 0 <= j < |items| ensures !IsReady(items[j]) {
          if j < n { assert items[..n][j] == items[j]; }
        }
      }
    }
  }

  /** The count-based rule and the item-based definition agree on every item list. */
  lemma CountedStatusIsStatus(items: seq<DelItem>)
    ensures CountedStatus(ReadyCount(items), |items|) == StatusOf(items)
  {
    ReadyCountAll(items);
    ReadyCountSome(items);
  }

  /** Status 0 iff no item is ready, 2 iff every one of at least one item is,
      1 iff some but not all are. */
  lemma StatusByCount(items: seq<DelItem>)
    ensures StatusOf(items) == 0 <==> ReadyCount(items) == 0
    ensures StatusOf(items) == 1 <==> 0 < ReadyCount(items) < |items|
    ensures StatusOf(items) == 2 <==> 0 < ReadyCount(items) == |items|
  {
    CountedStatusIsStatus(items);
  }
}
